=== FILE: README.md ===
# Lexifer word generation, modelled in Dafny

Lexifer generates words for invented languages. A phonology definition file
declares the following:

- phoneme classes (`C = p t k`);
- `$` macros;
- word shapes (`words: CVC CV?`);
- substitution filters;
- rejection patterns and cluster grids;
- a collation order (`letters:`);
- options that switch on feature-based sound changes.

The engine expands a randomly chosen word shape symbol by symbol. Class
symbols draw a phoneme by weight. `?` makes the symbol before it optional, and
`!` forbids repeating the previous phoneme. The result is rewritten by the
filters, and a `REJECT` in the output discards the word. `generate(n)` gathers
`n` different words and sorts them by the declared collation.

Randomness enters only as explicit draws. `WordGen.Draws` holds the integer
draws that `random.randint(0, 100)` returns and the unit draws `u` in [0, 1]
from which `random.uniform(a, b)` is `a + (b - a) * u`. Once the draws are
given, every operation is a pure function, or the one loop `WordGen.Generate`.
Running out of draws is the error `OutOfDraws`. It stands in for the source's
unbounded redraw and generate loops.

Modules, following the source files:

- `Distribution`: `WeightedSelector` in distribution.py. The parallel key and
  weight arrays, the stored sum minus one, and the cumulative walk of
  `select`.
- `SmartClusters`: the feature catalogue `DATA`, `initialize`, and the three
  table queries. Each SQL query is a first-match search over the records in
  catalogue order. Also the two whole-word passes.
- `ClusterVectors`: concrete IPA facts, including the module's demonstration
  word.
- `Collation`: `ArbSorter` in wordgen.py. The grapheme tokeniser (longest
  declared grapheme first, else one character), the rank map, and the sort.
- `WordGen`: `select`, `rule2dict`, `SoundSystem` (`add_ph_unit`,
  `add_rule`, `run_rule`, `add_filter`, `apply_filters`) and `generate`.
- `PhDefParser`: `PhonologyDefinition.parse` and its per-directive parsers.
  The file is modelled as the sequence of lines that successive `readline()`
  calls return.
- Support modules for the Python built-ins the core relies on:
  - `Text`: `str.strip`, `str.split`, literal `re.sub` and comment removal.
  - `Numbers`: `int()` and `float()` on decimal text.
  - `Dicts`: the insertion-ordered `dict`.
  - `Lex`: Python's lexicographic list order and a reference sort.
  - `Results`: error results in place of exceptions.

Where the source raises an exception, the model returns `Err` with a matching
error:

| exception | error |
|---|---|
| `RuleError` | `RuleError` |
| `ParseError` | `ParseError` |
| `UnknownOption` | `UnknownOption` |
| `ValueError` from unpacking or `int()` | `ValueError` |
| `IndexError` | `IndexError` |
| the exit on an unknown letter | `UnknownLetter` |
| an unknown notation | `UnknownNotation` |
| using the feature table before any `with:` option loads it | `NoFeatureTable` |
| `"".join` over the `None` that `select` returns when it falls off the end | `NothingSelected` |

Behaviour of the code as written that a reader may not expect:

- The coronal-metathesis pass reads each pair from the original word, not
  from the word as earlier swaps left it, so swaps do not cascade.
  `ClusterVectors.MetathesisDoesNotCascade` shows `t k a` becoming `k k a`.
  `WordGen.Metathesize`, and through it `apply_filters` and `generate`, run
  this pass as written. The loss of a phoneme is recorded under Findings.
- `!` is only recognised after position 0. In `C!C` the first symbol is an
  ordinary draw, so the two pieces may be equal
  (`WordGen.LeadingBangIsPlain`). The anti-repeat form is `CC!`
  (`WordGen.AntiRepeat`).
- A missing feature table is an error only once a word has two graphemes.
  The passes consult the table only for adjacent pairs.
- distribution.py is written against Python 2 (`iteritems`), and so is
  PhDefParser.py (`raise ParseError, line` at line 78, `ur'with:'` at line
  61), while wordgen.py is Python 3. The model takes the dict's items in
  insertion order.

## Model

| member | source | states |
|---|---|---|
| Distribution.MakeSelector | distribution.py:34-42 | the selector keeps keys and weights as parallel sequences of length `n`, in the dict's order, with `sum` equal to the total weight minus one |
| Distribution.PickIndex | distribution.py:44-50 | the walk returns the least index whose prefix sum exceeds the draw, and nothing when no prefix sum does |
| Distribution.SelectAt | distribution.py:44-50 | `select` for a given draw returns a key iff some running total exceeds the draw, and then the key at the least index whose running total exceeds it |
| Distribution.Select | distribution.py:44-50 | `select()` with a unit draw `u` picks from `[0, sum]` by `sum * u`: it returns a key of the selector iff some running total exceeds `sum * u` |
| Distribution.PickInRange | distribution.py:41-50 | a draw in [0, total - 1] always finds an index |
| Distribution.SelectNeverFails | distribution.py:41-50 | with total weight at least one, every unit draw selects a key |
| Distribution.ZeroWeightNeverPicked | distribution.py:47-50 | a non-negative draw never selects a key of weight zero |
| Distribution.LastPickBound | distribution.py:45-50 | the last key is selected only when the draw is at least the total minus the last weight |
| Distribution.LightLastKeyNeverPicked | distribution.py:41-50 | since the draw is at most total - 1, a last key lighter than one is never selected |
| SmartClusters.Initialize | SmartClusters.py:84-97 | `ipa` takes the first symbol column and `digraph` the second, with voice, place and manner copied row by row; any other notation is an error |
| SmartClusters.FindFirst | SmartClusters.py:102-110 | the first record in catalogue order that satisfies the query, or none when no record does |
| SmartClusters.Lookup | SmartClusters.py:102-105 | a symbol's record is a record of the table carrying that symbol; there is none exactly when no record carries it |
| SmartClusters.NasalAssimilate | SmartClusters.py:100-110 | the first phoneme unless it is a nasal and a nasal shares the second phoneme's place; then the first such nasal in table order |
| SmartClusters.NasalAssimilateAt | SmartClusters.py:100-110 | given the catalogue position of the first nasal at the place, nasal assimilation returns that record's symbol |
| SmartClusters.VoiceAssimilate | SmartClusters.py:112-124 | the first phoneme with the first phoneme's place and manner and the second's voicing; unchanged before a nasal, for unknown symbols, or with no match |
| SmartClusters.VoiceAssimilateAt | SmartClusters.py:112-124 | given the catalogue position of the first match, voice assimilation returns that record's symbol |
| SmartClusters.CoronalMetathesis | SmartClusters.py:126-141 | the pair swaps iff the first is alveolar, the second is a velar or bilabial stop or nasal, and both share their manner; otherwise it is returned unchanged |
| SmartClusters.ApplyAssimilations | SmartClusters.py:146-151 | length is kept, the last element is kept, and element `i` is nasal-after-voice assimilation against element `i + 1` of the original word |
| SmartClusters.ApplyCoronalMetathesis | SmartClusters.py:153-157 | length is kept; element `i` is the first half of the original pair at `i`, and the last element is the second half of the final pair |
| SmartClusters.ApplyCoronalMetathesisInPlace | SmartClusters.py:153-157 | the corrected pass keeps the length and is a permutation of the word |
| ClusterVectors.IpaIsInitialized | SmartClusters.py:84-92 | the IPA table is what `initialize('ipa')` builds |
| ClusterVectors.MetathesisTK | SmartClusters.py:126-141 | `t k` swaps to `k t` |
| ClusterVectors.VoiceSD | SmartClusters.py:112-124 | `s` before `d` voices to `z` |
| ClusterVectors.VoiceSN | SmartClusters.py:112-124 | `s` before the nasal `n` stays `s` |
| ClusterVectors.NasalNK | SmartClusters.py:100-110 | `n` before `k` becomes `ŋ` |
| ClusterVectors.AssimilationDemo | SmartClusters.py:161-166 | the module's demonstration word `a tʃ b a h u n b i` assimilates to `a dʒ b a h u m b i` |
| ClusterVectors.MetathesisDoesNotCascade | SmartClusters.py:153-157 | as written, `t k a` becomes `k k a` |
| ClusterVectors.MetathesisLosesPhoneme | SmartClusters.py:153-157 | as written, the pass is not a permutation: `t k a` loses its `t` |
| ClusterVectors.MetathesisInPlaceTKA | SmartClusters.py:153-157 | the corrected pass turns `t k a` into `k t a` |
| Collation.Graphs | wordgen.py:43 | the graphemes are the non-empty whitespace-free tokens of the order, which concatenate to the order without its whitespace |
| Collation.SplitOrder | wordgen.py:46-48 | the alternatives are the graphemes reordered longest first |
| Collation.FirstPrefix | wordgen.py:46-48 | the first alternative that prefixes the word, or none when none does |
| Collation.FirstIsLongest | wordgen.py:46-48 | the first matching alternative is a grapheme at least as long as every grapheme that prefixes the word |
| Collation.Match | wordgen.py:46-48 | the token at the front of a word is its longest declared grapheme prefix, otherwise its first character |
| Collation.Tokens | wordgen.py:75-76 | the tokens are non-empty and concatenate to the word without its newlines, which the regex `.` cannot match; each token is the longest match (`Match`) at the front of what is left, and a newline is skipped |
| Collation.TokensPartition | wordgen.py:75-76 | for a word without newlines the tokens partition the word |
| Collation.OrdsLast | wordgen.py:51-55 | a grapheme's rank is its last position in the order |
| Collation.Rank | wordgen.py:51-55 | a rank indexes the grapheme it belongs to; only declared graphemes have one |
| Collation.RanksOf | wordgen.py:62-69 | ranks are found iff every token is declared, and each rank spells its token back; otherwise the unknown-letter error |
| Collation.WordAsValues | wordgen.py:60-70 | a word's values exist iff all its tokens are declared, and each value spells its token |
| Collation.Grapheme | wordgen.py:73 | `vals[v]` with Python's negative indexing, an error outside the list |
| Collation.ValuesAsWord | wordgen.py:72-73 | spelling succeeds iff every value indexes the grapheme list |
| Collation.ValuesRoundTrip | wordgen.py:60-73 | spelling a word's values gives the word back |
| Collation.UnknownLetterAborts | wordgen.py:62-69 | an undeclared token aborts with the unknown-letter error for that word |
| Collation.AllValues | wordgen.py:79 | every word is converted, or the first failure is the result |
| Collation.AllWords | wordgen.py:81 | every value list is spelled, or the first failure is the result |
| Collation.ArbSortCorrect | wordgen.py:78-81 | the sorter succeeds iff every word's tokens are declared, and then returns a permutation of its input ordered by rank sequences |
| Collation.ArbSort | wordgen.py:78-81 | the sorter returns as many words as it is given, and succeeds only when every word converts to values |
| Collation.ValuesSortUnique | wordgen.py:80 | any ordered permutation of the rank lists is the one the reference sort produces |
| Lex.LexLeTotal | wordgen.py:80 | Python's list order compares any two rank lists |
| Lex.LexLeAntisym | wordgen.py:80 | two rank lists that are each no greater than the other are equal |
| Lex.LexLeTrans | wordgen.py:80 | the list order is transitive |
| Lex.SortBy | wordgen.py:80 | the reference sort returns an ordered permutation |
| Lex.SortedUnique | wordgen.py:80 | two ordered permutations under an injective key are equal |
| Lex.CodesInjective | wordgen.py:235 | words with the same code points are the same word, so default string order has no ties |
| WordGen.SelectFromDict | wordgen.py:85-92 | `select(dic)` returns a key of the dict, and returns one iff the cumulative walk for the scaled draw finds an index |
| WordGen.SelectAgrees | wordgen.py:85-92 | `select(dic)` picks what a `WeightedSelector` built from the same dict picks for the same draw |
| WordGen.SelectFromDictPicks | wordgen.py:85-92 | with total weight at least one, every draw selects a key |
| WordGen.SelectFromDictSkipsZero | wordgen.py:85-92 | a key of weight zero is never selected |
| WordGen.ParseItem | wordgen.py:114-117 | an item without `:` is a rule error; otherwise the key is the text before the only colon and the weight is `float` of the rest, and more colons or a bad number are value errors |
| WordGen.ParseItemRoundTrip | wordgen.py:114-117 | `key:n` parses back to the key and `n` |
| WordGen.ItemsToDict | wordgen.py:110-118 | the dict has distinct keys and is built iff every item parses |
| WordGen.ItemsToDictError | wordgen.py:113-117 | a failure is the error of the first item that does not parse |
| WordGen.ItemsToDictLastWins | wordgen.py:113-117 | a repeated key keeps the weight of its last occurrence |
| WordGen.RuleToDict | wordgen.py:110-118 | the dict is built iff every whitespace-separated item parses; its keys are distinct and each maps to the weight of its last item |
| WordGen.NewSoundSystem | wordgen.py:122-129 | a new sound system has no classes, rules or filters, a random rate of 10, both sound-change passes off, and no sorter or feature table |
| WordGen.Class | wordgen.py:178-179 | a symbol is a class iff a one-character name is in the phoneme set, and its selector is the one stored |
| WordGen.AddPhUnit | wordgen.py:131-136 | the class is (re)defined by the parsed weights, its parse errors propagate, and every other class and field is unchanged; a selection without `:` is defined iff its natural weights parse |
| WordGen.AddRule | wordgen.py:138-140 | the rule takes the weight and every other rule is unchanged |
| WordGen.AddFilter | wordgen.py:184-188 | one filter is appended; a `!` replacement is stored as the empty string |
| WordGen.RunFilters | wordgen.py:201-205 | with no filters the word passes unchanged; an accepted word contains no `REJECT` and is the word with every filter substituted in order (`WordGen.Substituted`) |
| WordGen.RunFiltersRejects | wordgen.py:201-205 | the filters reject iff some leading run of them, substituted in order, brings `REJECT` into the word |
| WordGen.RunFiltersAppend | wordgen.py:201-205 | filters run in order: a rejection by the first list ends the run, otherwise the second list runs on the first's output |
| WordGen.RejectFilterRejects | wordgen.py:201-204 | a `REJECT` filter whose pattern occurs in the word reaching it rejects, and later filters do not run |
| WordGen.SingleRejectFilter | wordgen.py:202-204 | a lone rejection filter rejects exactly the words containing its pattern or `REJECT` |
| WordGen.SoundChanges | wordgen.py:192-198 | without a sorter the word is unchanged; with a sorter it is cut into tokens, assimilated if that pass is on, metathesised by the as-written pass if that one is on, and joined; with both off only newlines are lost; it fails exactly when a pass is on, no table is loaded and the word has two tokens |
| WordGen.Assimilate | wordgen.py:194-195 | the pass fails exactly when the table is missing and the word has two graphemes, and keeps the length |
| WordGen.Metathesize | wordgen.py:196-197 | the pass fails exactly when the table is missing and the word has two graphemes; otherwise it keeps the length and is the as-written `apply_coronal_metathesis` |
| WordGen.ApplyFilters | wordgen.py:190-205 | fails exactly when the sound changes fail; with no filters the sound-changed word is returned as is; with filters, the result is `REJECT` exactly when the filters reject, and otherwise the sound-changed word with every filter substituted in order |
| WordGen.Emit | wordgen.py:178-181 | a class symbol takes one unit draw and emits its selection; a literal emits itself and takes none |
| WordGen.Redraw | wordgen.py:170-174 | the redraw loop returns a phoneme different from the previous one and consumes at least one draw; it fails only when every draw repeats |
| WordGen.RedrawFirstDiffering | wordgen.py:171-173 | the result is the first draw that differs, after draws that all repeated |
| WordGen.Step | wordgen.py:147-181 | per position: `?` and `!` emit nothing; an optional symbol emits iff its percent draw is below the rate; an anti-repeat symbol emits a class draw different from the previous piece; every other symbol emits one piece; a rule error iff `!` follows a non-repeat or a non-class |
| WordGen.RunFrom | wordgen.py:145-182 | the pieces grow by at most one per symbol (exactly one when nothing is optional), draws are only consumed, a rule error implies a misplaced `!`, and success implies none |
| WordGen.RunFromInRule | wordgen.py:147-181 | every piece comes from a symbol of the rule: a literal or a key of its class |
| WordGen.RunBetweenToEnd | wordgen.py:147-181 | running the loop's positions up to the end of the rule is the whole loop |
| WordGen.RuleErrorAtFirstBang | wordgen.py:147-176 | given the first misplaced `!`, the loop fails, and it fails with a rule error iff the positions before that `!` run without error |
| WordGen.RunRule | wordgen.py:143-182 | the word is produced iff expansion succeeds and every class draw selects a key; it is the expansion's pieces joined, and the remaining draws are the expansion's; a rule error implies a misplaced `!`, and success implies none |
| WordGen.RunRuleWord | wordgen.py:143-182 | a produced word joins at most one piece per symbol of the rule, each a literal of the rule or a key of one of its classes |
| WordGen.RunRuleErrorIff | wordgen.py:143-182 | `run_rule` raises a rule error iff the rule has a misplaced `!` and no other error comes before the first one |
| WordGen.PlainRuleLength | wordgen.py:147-181 | with no optional symbol there is one piece per symbol, and with one-character phonemes the word has that length |
| WordGen.AntiRepeat | wordgen.py:158-174 | in `CC!` the two pieces differ |
| WordGen.PlainClassStep | wordgen.py:178-179 | a plain class symbol appends the selection for the next unit draw |
| WordGen.LeadingBangIsPlain | wordgen.py:158 | in `C!C` the `!` is not checked at position 0, so equal draws give equal pieces |
| WordGen.OptionalEmitsIff | wordgen.py:151-156 | `C?` emits one piece iff its percent draw is below the rate |
| WordGen.DistinctPerm | wordgen.py:224-230 | a permutation of distinct words is distinct |
| WordGen.CollectedPerm | wordgen.py:230 | listing the collected set in any order keeps it collected |
| WordGen.Generate | wordgen.py:222-236 | the result is `n` distinct generated words, none `REJECT`; sorted by code points without a sorter, and the sorter's order of such a collection otherwise |
| WordGen.SortedCollected | wordgen.py:231-233 | sorting collected words keeps them collected and orders them by rank sequences |
| Text.Strip | PhDefParser.py:57 | `strip()` drops only whitespace, leaves no edge whitespace, is empty iff the text is all whitespace, and is the identity on whitespace-free text |
| Text.Words | PhDefParser.py:87 | `split()` gives non-empty whitespace-free tokens that concatenate to the text without whitespace |
| Text.WordsAtSpace | PhDefParser.py:87 | `split()` cuts at every whitespace character: the words of `a c b` are the words of `a` followed by those of `b` |
| Text.WordsOfSpace | PhDefParser.py:87 | text of whitespace only has no words |
| Text.WordsOfToken | PhDefParser.py:87 | a whitespace-free non-empty text is one word |
| Text.SplitOn | PhDefParser.py:109 | `split(c)` gives one more part than there are separators, no part holds the separator, and joining with it restores the text |
| Text.SplitJoin | PhDefParser.py:109 | splitting a join of separator-free parts gives the parts back |
| Text.StripComments | PhDefParser.py:56 | no `#` survives, text without `#` is unchanged, and on a single line everything before the first `#` is kept |
| Text.ReplaceAbsent | wordgen.py:202 | substituting a pattern that does not occur leaves the word unchanged |
| Text.ReplacePresent | wordgen.py:202-203 | substituting an occurring pattern puts the replacement in the result |
| Text.ReplaceAll | wordgen.py:202 | substitution brings in no character outside the text and the replacement, and does not lengthen the text when the replacement is no longer than the pattern |
| Text.ReplaceLeftmost | wordgen.py:202 | substitution is leftmost-first and continues after each replaced occurrence: the text before the first occurrence is kept, that occurrence becomes the replacement, and the rest is substituted in turn; with `ReplaceAbsent` this fixes the result for every non-empty pattern |
| Numbers.ParseInt | PhDefParser.py:178 | `int()` accepts exactly an optional sign followed by a non-empty run of digits; the value is the digits read in decimal, negated after `-` |
| Numbers.ParseIntRoundTrip | PhDefParser.py:178 | a natural written in decimal reads back |
| Numbers.ParseIntExamples | PhDefParser.py:178 | `007` reads as 7, `-5` as -5, `+0` as 0; `-`, the empty text and `1a` are errors |
| Numbers.ParseFloat | wordgen.py:117 | `float()` accepts exactly an optional sign followed by digits with at most one decimal point and at least one digit; the value is the whole part plus the fraction, negated after `-` |
| Numbers.ParseFloatRoundTrip | wordgen.py:117 | a natural written in decimal reads back as a float |
| Numbers.ParseFloatFixed2 | wordgen.py:108-117 | a weight written as `natural_weights` writes it (`'%.2f'`) reads back as that weight |
| Dicts.Put | wordgen.py:117 | storing a key keeps keys distinct, replaces an existing key's value in place, and appends a new key |
| Dicts.PutFrame | wordgen.py:140 | after storing a key it maps to the new value and every other key to its old one |
| PhDefParser.NewDefinition | PhDefParser.py:37-46 | parsing starts from the given sound system with no macros, letters or class phonemes |
| PhDefParser.Clean | PhDefParser.py:56-57 | a cleaned line has no comment and no edge whitespace |
| PhDefParser.Options | PhDefParser.py:86-99 | only the four option names are accepted, and the first other token is the `UnknownOption` error; the flags are set by their options and the table is the last one named |
| PhDefParser.ParseOption | PhDefParser.py:86-99 | `with:` succeeds iff every token is a known option, and otherwise fails with the first unknown one; it sets the two flags by their options, loads the last table named (keeping the old one when none is), and changes nothing else |
| PhDefParser.TableOptions | wordgen.py:210-214 | the feature-table options load the tables `initialize` builds |
| PhDefParser.Segments | PhDefParser.py:108-117 | blank segments add nothing; every other segment adds its stripped `pre>post` filter in order; nothing else changes; failures are value errors |
| PhDefParser.SegmentFilter | PhDefParser.py:101-117 | a stripped segment is accepted iff it splits on `>` into exactly two parts, otherwise a value error; both sides are stripped, hold no `>`, and a `!` replacement is stored as empty |
| PhDefParser.ParseFilter | PhDefParser.py:108-117 | `filter:` succeeds iff every `;`-segment is blank or one `pre>post`, appends their filters in order, and changes nothing else |
| PhDefParser.SegmentsOk | PhDefParser.py:108-117 | `filter:` fails exactly when some non-blank segment is not a single `pre>post` |
| PhDefParser.FilterRoundTrip | PhDefParser.py:101-117 | writing spaceless filters as `pre>post;…` and parsing the line adds exactly those filters |
| PhDefParser.RejectFilters | PhDefParser.py:119-121 | one `(token, REJECT)` filter per token, in order |
| PhDefParser.ParseReject | PhDefParser.py:119-121 | `reject:` appends the token filters and changes nothing else |
| PhDefParser.RejectsReject | PhDefParser.py:119-121 | a word containing any rejected token is rejected by those filters |
| PhDefParser.ParseLetters | PhDefParser.py:123-125 | the letters are the line's tokens and are exactly the new sorter's graphemes |
| PhDefParser.ParseRandomRate | PhDefParser.py:177-178 | the rate is set iff the text is an integer, to that integer, and nothing else changes |
| PhDefParser.RandomRateRoundTrip | PhDefParser.py:177-178 | a rate written in decimal is read back |
| PhDefParser.ExpandMacros | PhDefParser.py:133-136 | text without `$` is left unchanged |
| PhDefParser.MacroExpands | PhDefParser.py:133-136 | a macro name on its own expands to the macro's value |
| PhDefParser.PutRulesOther | PhDefParser.py:129-131 | a `words:` line leaves every rule it does not name unchanged |
| PhDefParser.PutRulesLast | PhDefParser.py:129-131 | every token becomes a rule weighted by its last position on the line |
| PhDefParser.ParseWords | PhDefParser.py:127-131 | `words:` only changes the rule set |
| PhDefParser.ParseClass | PhDefParser.py:138-146 | a line without exactly one `=` is a value error and an empty name an index error; a `$` name records the macro under backslash and name and changes nothing else; any other name is defined as a class iff its weights parse, its tokens are recorded as phonemes, and every other class is kept |
| PhDefParser.DefineMacro | PhDefParser.py:142-143 | the macro keyed by backslash and name holds the values; every other macro and the rest of the state are kept |
| PhDefParser.DefineClass | PhDefParser.py:144-146 | the class is defined iff its written or natural weights parse; then written-out weights give its selector, its tokens join the phonemes, and every other class, the macros and the letters are kept |
| PhDefParser.ClassLineRoundTrip | PhDefParser.py:138-146 | a spaceless `name=values` line defines exactly the macro or class `name` with those values |
| PhDefParser.AddCells | PhDefParser.py:162-170 | a row adds in column order nothing for `+`, `(c1+c2, REJECT)` for `-`, and the cell as replacement otherwise; nothing else changes |
| PhDefParser.RejectRow | PhDefParser.py:165-166 | a row of `-` cells rejects every word containing one of its clusters |
| PhDefParser.ClusterRows | PhDefParser.py:152-175 | the field ends at the first end of input or lone newline; on success every row before it is blank after removing its comment or holds one cell per column; a wrong-width first row is a `ParseError`; only filters change, and the rows' filters are appended in order (`PhDefParser.FieldFilters`) |
| PhDefParser.ClusterRowsBadRow | PhDefParser.py:152-174 | a row of the wrong width anywhere before the field's first end line makes the field fail |
| PhDefParser.ClusterRow | PhDefParser.py:154-174 | a row that is blank after removing its comment changes nothing; otherwise it is accepted exactly when it holds one cell per column header, and then only the row's filters (`PhDefParser.LineFilters`) are appended; a row too long or too short is a `ParseError` |
| PhDefParser.ParseClusterField | PhDefParser.py:148-175 | the rows after the header are read up to the first end line after it, every row before that has one cell per column name, and only filters change: those rows' filters are appended in order |
| PhDefParser.Classify | PhDefParser.py:60-78 | directives by prefix in order, then `%`, then `=`; a line is a `with:` line exactly when it starts with `with:`; every directive kind implies its prefix; a line is rejected iff it has none of them |
| PhDefParser.ParseLine | PhDefParser.py:60-78 | a line that is no directive is the `ParseError` of that line; a parsed line keeps the invariants, and only a cluster field reads further lines |
| PhDefParser.ParseLineWith | PhDefParser.py:61-62 | a `with:` line succeeds iff every option after the prefix is known, else fails with the first unknown one; it sets the flags by their options, loads the last table named and keeps the rest |
| PhDefParser.ParseLineRandomRate | PhDefParser.py:63-64 | a `random-rate:` line succeeds iff the rest is an integer, and sets the rate to it and nothing else |
| PhDefParser.ParseLineFilter | PhDefParser.py:65-66 | a `filter:` line succeeds iff every segment is blank or one `pre>post`, and appends the segments' filters in order, changing nothing else |
| PhDefParser.ParseLineReject | PhDefParser.py:67-68 | a `reject:` line appends one rejecting filter per token and changes nothing else |
| PhDefParser.ParseLineWords | PhDefParser.py:69-70 | a `words:` line stores the macro-expanded tokens as rules and changes nothing else |
| PhDefParser.ParseLineLetters | PhDefParser.py:71-72 | a `letters:` line sets the letters to its tokens and the sorter to its order |
| PhDefParser.ParseLineCluster | PhDefParser.py:73-74 | a `%` line reads the field below it to the first end line, fails only with a `ParseError`, and appends the rows' filters in order, changing nothing else |
| PhDefParser.ParseLineClass | PhDefParser.py:75-76 | any other line with one `=` defines the macro or the class it names, as `ParseClass` states |
| PhDefParser.ParseFrom | PhDefParser.py:50-79 | the parse keeps the sound system's invariants |
| PhDefParser.Parse | PhDefParser.py:50-79 | parsing a file keeps the sound system's invariants |
| PhDefParser.BlankLinesChangeNothing | PhDefParser.py:54-59 | blank and comment-only lines change nothing |
| PhDefParser.BadLineAborts | PhDefParser.py:77-78 | the first line that is no directive ends the parse with that line as the error |

## Left out

- I/O: reading the definition file and stdout/stderr output are not modelled. The file is a sequence of lines.
- The exit on an unknown letter in `word_as_values` is modelled as an `UnknownLetter` error.
- The warnings of `parse` and `sanity_check` go to stderr only and are not modelled. `letters` and `phClasses` are kept for them.
- `jitter` and `natural_weights` (wordgen.py:94-108) are a parameter `natural: string -> string`. They use floating-point logarithms and randomness.
- The Zipf rule weights `10 / (n + 1) ** 0.9` (PhDefParser.py:131) are a parameter `weight: nat -> real`, for the same reason.
- Floating point is modelled as exact reals. `float()` and `int()` are modelled on plain decimal text only, without exponents, `inf`/`nan`, underscores or surrounding whitespace.
- Regular expressions in filters, macros and the sorter are modelled as literal text with leftmost, non-overlapping replace-all. Backreferences and metacharacters are not modelled, and neither are backslash escapes in replacement text.
- `re.split('\s*', order)` (wordgen.py:43) is taken as the whitespace-separated tokens of the order. Python 3.7+ also splits on the empty matches between characters; that is not modelled.
- The sqlite3 database (SmartClusters.py:86-98) is a record sequence searched in catalogue order, held in the sound system rather than in a module global.
- The random source is not modelled. Draws are parameters, and the `!` redraw loop and the generate loop end with `OutOfDraws` when the draws run out, instead of running forever.
- Python `set` iteration order in `generate` is not modelled. The unsorted result is the collection order, and any order of the same set is collected too (`WordGen.CollectedPerm`).
- Macro iteration follows insertion order; Python 2 dicts iterate in an unspecified order.
- `textify`, `lexifer.py` and the `__main__` blocks are not part of this model. They are presentation only; the demonstration word is kept as `ClusterVectors.AssimilationDemo`.
- PhDefParser.ExpandMacros: the contract states only the no-`$` identity. Full expansion is stated for a single macro (`PhDefParser.MacroExpands`).
- PhDefParser.ParseWords: the contract states only the frame. The rule weights are stated by `PhDefParser.PutRulesLast` and `PhDefParser.PutRulesOther` on the underlying dict.
- PhDefParser.ParseFrom: the contract states the invariant, not the full line-by-line effect. The effect of each directive line is stated by the per-directive lemmas `ParseLineWith` to `ParseLineClass`; blank and bad lines by `BlankLinesChangeNothing` and `BadLineAborts`.
- PhDefParser.Parse: states only that parsing a file keeps the invariants. The effect of each line is stated by the same members as for `ParseFrom`.
- `WeightedSelector.__iter__` (distribution.py:52-53) is the selector's `keys` field, which `Distribution.MakeSelector` states holds the dict's keys in order.
- WordGen.Generate: `Generated` says each word comes from some rule and some draws, not from the draws actually consumed.

## Findings

| source | as written | input that shows it | evidently intended | confidence | as-written member | corrected member |
|---|---|---|---|---|---|---|
| SmartClusters.py:153-157 | each pair is read from the original word while both halves are written into the copy, so the next step overwrites a swapped phoneme | IPA `[t, k, a]` gives `[k, k, a]`: the `t` is lost and `k` doubled | a metathesis only reorders the word; each pair is read from the word as earlier swaps left it, giving `[k, t, a]` | medium, not executed | ClusterVectors.MetathesisLosesPhoneme | SmartClusters.ApplyCoronalMetathesisInPlace |

`WordGen.Metathesize`, and so `apply_filters` and `generate`, run the pass as written (`SmartClusters.ApplyCoronalMetathesis`), as the program does. The corrected pass `SmartClusters.ApplyCoronalMetathesisInPlace` is proved to be a permutation of the word and is kept beside it as the evidently intended definition.

=== FILE: cluster_vectors.dfy ===
/** Concrete cases of the feature-table rewrites in IPA notation, including
    the module's own demonstration word. Each rests on the catalogue
    positions of the symbols involved: p b ɸ β f v m m t(8) d(9) s(10) z(11)
    ... tʃ(22) dʒ(23) n(24) ... k(32) ... ŋ(36). */
module ClusterVectors {
  import opened Results
  import opened SmartClusters

  /** The table `initialize('ipa')` builds. */
  const IPA: seq<Phone> := Column(DATA, true)

  lemma IpaIsInitialized()
    ensures Initialize("ipa") == Ok(IPA)
  {
  }

  /** A catalogue row whose IPA symbol is not used by any earlier row is what
      a lookup of that symbol returns. */
  lemma IpaLookup(sym: string, i: nat)
    requires i < |DATA| && DATA[i].ipa == sym
    requires forall j :: 0 <= j < i ==> DATA[j].ipa != sym
    ensures Lookup(IPA, sym) == Some(IPA[i])
  {
    LookupAt(IPA, sym, i);
  }

  lemma LookupT()
    ensures IPA[8] == Phone("t", Voiceless, Alveolar, Stop)
    ensures Lookup(IPA, "t") == Some(IPA[8])
  {
    IpaLookup("t", 8);
  }

  lemma LookupK()
    ensures IPA[32] == Phone("k", Voiceless, Velar, Stop)
    ensures Lookup(IPA, "k") == Some(IPA[32])
  {
    IpaLookup("k", 32);
  }

  lemma LookupS()
    ensures IPA[10] == Phone("s", Voiceless, Alveolar, Sibilant)
    ensures Lookup(IPA, "s") == Some(IPA[10])
  {
    IpaLookup("s", 10);
  }

  lemma LookupD()
    ensures IPA[9] == Phone("d", Voiced, Alveolar, Stop)
    ensures Lookup(IPA, "d") == Some(IPA[9])
  {
    IpaLookup("d", 9);
  }

  lemma LookupN()
    ensures IPA[24] == Phone("n", Voiced, Alveolar, Nasal)
    ensures Lookup(IPA, "n") == Some(IPA[24])
  {
    IpaLookup("n", 24);
  }

  lemma LookupB()
    ensures IPA[1] == Phone("b", Voiced, Bilabial, Stop)
    ensures Lookup(IPA, "b") == Some(IPA[1])
  {
    IpaLookup("b", 1);
  }

  lemma LookupTsh()
    ensures IPA[22] == Phone("tʃ", Voiceless, Postalveolar, Affricate)
    ensures Lookup(IPA, "tʃ") == Some(IPA[22])
  {
    IpaLookup("tʃ", 22);
  }

  lemma LookupDzh()
    ensures IPA[23] == Phone("dʒ", Voiced, Postalveolar, Affricate)
    ensures Lookup(IPA, "dʒ") == Some(IPA[23])
  {
    IpaLookup("dʒ", 23);
  }

  lemma LookupM()
    ensures IPA[6] == Phone("m", Voiced, Bilabial, Nasal)
    ensures Lookup(IPA, "m") == Some(IPA[6])
  {
    IpaLookup("m", 6);
  }

  /** A symbol outside the catalogue has no record. */
  lemma Absent(sym: string)
    requires sym in {"a", "h", "u", "i"}
    ensures Lookup(IPA, sym) == None
  {
    assert forall j :: 0 <= j < |DATA| ==> DATA[j].ipa != sym;
  }

  /** `coronal_metathesis('t', 'k') == ('k', 't')`. */
  lemma MetathesisTK()
    ensures CoronalMetathesis(IPA, "t", "k") == ("k", "t")
  {
    LookupT();
    LookupK();
    assert IsAlveolarRecord(IPA[8], "t");
    assert IsMetathesisTarget(IPA[32], "k");
  }

  /** `z` (11) is the first voiced alveolar sibilant. */
  lemma NoVoicedSibilantBefore11(a: Phone, b: Phone)
    requires a.place == Alveolar && a.manner == Sibilant && b.voice == Voiced
    ensures IPA[11] == Phone("z", Voiced, Alveolar, Sibilant)
    ensures forall j :: 0 <= j < 11 ==> !VoiceMatch(IPA[j], a, b)
  {
    assert forall j :: 0 <= j < 11 ==>
      DATA[j].place != Alveolar || DATA[j].manner != Sibilant || DATA[j].voice != Voiced;
  }

  /** `voice_assimilate('s', 'd') == 'z'`. */
  lemma VoiceSD()
    ensures VoiceAssimilate(IPA, "s", "d") == "z"
  {
    LookupS();
    LookupD();
    var a := Phone("s", Voiceless, Alveolar, Sibilant);
    var b := Phone("d", Voiced, Alveolar, Stop);
    NoVoicedSibilantBefore11(a, b);
    VoiceAssimilateAt(IPA, "s", "d", a, b, 11);
  }

  /** `voice_assimilate('s', 'n') == 's'`: a nasal does not pass on voicing. */
  lemma VoiceSN()
    ensures VoiceAssimilate(IPA, "s", "n") == "s"
  {
    LookupN();
  }

  /** The rows before `ŋ` (36) contain no velar nasal. */
  lemma NoVelarNasalBefore36()
    ensures forall j :: 0 <= j < 36 ==> !NasalAt(IPA[j], Velar)
  {
    assert forall j :: 0 <= j < 36 ==> DATA[j].manner != Nasal || DATA[j].place != Velar;
  }

  /** `nasal_assimilate('n', 'k') == 'ŋ'`. */
  lemma NasalNK()
    ensures NasalAssimilate(IPA, "n", "k") == "ŋ"
  {
    LookupN();
    LookupK();
    assert IPA[36] == Phone("ŋ", Voiced, Velar, Nasal);
    NoVelarNasalBefore36();
    NasalAssimilateAt(IPA, "n", "k", Phone("n", Voiced, Alveolar, Nasal), Phone("k", Voiceless, Velar, Stop), 36);
  }

  /** No row before `dʒ` (23) is a voiced postalveolar affricate. */
  lemma NoVoicedAffricateBefore23(a: Phone, b: Phone)
    requires a.place == Postalveolar && a.manner == Affricate && b.voice == Voiced
    ensures forall j :: 0 <= j < 23 ==> !VoiceMatch(IPA[j], a, b)
  {
    assert forall j :: 0 <= j < 23 ==>
      DATA[j].place != Postalveolar || DATA[j].manner != Affricate || DATA[j].voice != Voiced;
  }

  /** No row before `n` (24) is a voiced alveolar nasal. */
  lemma NoAlveolarNasalBefore24(a: Phone, b: Phone)
    requires a.place == Alveolar && a.manner == Nasal && b.voice == Voiced
    ensures forall j :: 0 <= j < 24 ==> !VoiceMatch(IPA[j], a, b)
  {
    assert forall j :: 0 <= j < 24 ==>
      DATA[j].place != Alveolar || DATA[j].manner != Nasal || DATA[j].voice != Voiced;
  }

  /** The rows before `m` (6) contain no bilabial nasal. */
  lemma NoBilabialNasalBefore6()
    ensures forall j :: 0 <= j < 6 ==> !NasalAt(IPA[j], Bilabial)
  {
    assert forall j :: 0 <= j < 6 ==> DATA[j].manner != Nasal || DATA[j].place != Bilabial;
  }

  /** A symbol outside the catalogue, on either side, leaves the first one as
      it is under both assimilations. */
  lemma AbsentKept(p1: string, p2: string)
    requires Lookup(IPA, p1).None? || Lookup(IPA, p2).None?
    ensures NasalAssimilate(IPA, VoiceAssimilate(IPA, p1, p2), p2) == p1
  {
  }

  /** `voice_assimilate('tʃ', 'b') == 'dʒ'`, which nasal assimilation keeps. */
  lemma AssimilateTshB()
    ensures VoiceAssimilate(IPA, "tʃ", "b") == "dʒ"
    ensures NasalAssimilate(IPA, "dʒ", "b") == "dʒ"
    ensures NasalAssimilate(IPA, VoiceAssimilate(IPA, "tʃ", "b"), "b") == "dʒ"
  {
    LookupTsh();
    LookupB();
    LookupDzh();
    var a := Phone("tʃ", Voiceless, Postalveolar, Affricate);
    var b := Phone("b", Voiced, Bilabial, Stop);
    NoVoicedAffricateBefore23(a, b);
    VoiceAssimilateAt(IPA, "tʃ", "b", a, b, 23);
  }

  /** `n` before `b`: voicing already matches, and the nasal takes the
      bilabial place. */
  lemma AssimilateNB()
    ensures NasalAssimilate(IPA, VoiceAssimilate(IPA, "n", "b"), "b") == "m"
  {
    LookupN();
    LookupB();
    var a := Phone("n", Voiced, Alveolar, Nasal);
    var b := Phone("b", Voiced, Bilabial, Stop);
    NoAlveolarNasalBefore24(a, b);
    VoiceAssimilateAt(IPA, "n", "b", a, b, 24);
    LookupM();
    NoBilabialNasalBefore6();
    NasalAssimilateAt(IPA, "n", "b", a, b, 6);
  }

  /** The word of the module's demonstration, and what the assimilation
      pass makes of it. */
  const DemoWord: seq<string> := ["a", "tʃ", "b", "a", "h", "u", "n", "b", "i"]
  const DemoAssimilated: seq<string> := ["a", "dʒ", "b", "a", "h", "u", "m", "b", "i"]

  /** The symbols of the demonstration word next to one outside the
      catalogue keep their form. */
  lemma DemoKeptFront()
    ensures ApplyAssimilations(IPA, DemoWord)[0] == "a"
  {
    Absent("a");
    AbsentKept("a", "tʃ");
  }

  lemma DemoKeptMiddle()
    ensures ApplyAssimilations(IPA, DemoWord)[2] == "b"
    ensures ApplyAssimilations(IPA, DemoWord)[3] == "a"
  {
    Absent("a");
    AbsentKept("b", "a");
    AbsentKept("a", "h");
  }

  lemma DemoKeptBack()
    ensures ApplyAssimilations(IPA, DemoWord)[4] == "h"
    ensures ApplyAssimilations(IPA, DemoWord)[5] == "u"
    ensures ApplyAssimilations(IPA, DemoWord)[7] == "b"
    ensures ApplyAssimilations(IPA, DemoWord)[8] == "i"
  {
    Absent("h");
    AbsentKept("h", "u");
    Absent("u");
    AbsentKept("u", "n");
    Absent("i");
    AbsentKept("b", "i");
  }

  /** `tʃ` is voiced before `b`, and `n` takes the bilabial place before
      `b`. */
  lemma DemoChanged()
    ensures ApplyAssimilations(IPA, DemoWord)[1] == "dʒ"
    ensures ApplyAssimilations(IPA, DemoWord)[6] == "m"
  {
    AssimilateTshB();
    AssimilateNB();
  }

  /** `apply_assimilations` on the demonstration word. */
  lemma AssimilationDemo()
    ensures ApplyAssimilations(IPA, DemoWord) == DemoAssimilated
  {
    var r := ApplyAssimilations(IPA, DemoWord);
    DemoKeptFront();
    DemoKeptMiddle();
    DemoKeptBack();
    DemoChanged();
    NineEqual(r, DemoAssimilated);
  }

  /** Two words of nine symbols that agree at every position are equal. */
  lemma NineEqual(a: seq<string>, b: seq<string>)
    requires |a| == |b| == 9
    requires a[0] == b[0] && a[1] == b[1] && a[2] == b[2] && a[3] == b[3] && a[4] == b[4]
    requires a[5] == b[5] && a[6] == b[6] && a[7] == b[7] && a[8] == b[8]
    ensures a == b
  {
    assert forall i :: 0 <= i < 9 ==> a[i] == b[i];
  }

  /** `k` has no alveolar record, so `k a` does not swap. */
  lemma MetathesisKA()
    ensures CoronalMetathesis(IPA, "k", "a") == ("k", "a")
  {
    assert forall j :: 0 <= j < |IPA| ==> !IsAlveolarRecord(IPA[j], "k") by {
      assert forall j :: 0 <= j < |DATA| ==> DATA[j].ipa != "k" || DATA[j].place != Alveolar;
    }
  }

  /** A word of three and a candidate result agree with the metathesis pass
      when they agree position by position. */
  lemma MetathesisOfThree(t: seq<Phone>, w: seq<string>, r: seq<string>)
    requires |w| == |r| == 3
    requires r[0] == CoronalMetathesis(t, w[0], w[1]).0
    requires r[1] == CoronalMetathesis(t, w[1], w[2]).0
    requires r[2] == CoronalMetathesis(t, w[1], w[2]).1
    ensures ApplyCoronalMetathesis(t, w) == r
  {
    var a := ApplyCoronalMetathesis(t, w);
    assert a[0] == r[0];
    assert a[1] == r[1];
    assert a[2] == r[2];
  }

  /** The metathesis pass reads the original word: `t k a` gives `k k a`,
      because the pair at position 1 is the original `k a`, which does not
      swap, and overwrites the `t` the first swap put there. */
  lemma MetathesisDoesNotCascade()
    ensures ApplyCoronalMetathesis(IPA, ["t", "k", "a"]) == ["k", "k", "a"]
  {
    MetathesisTK();
    MetathesisKA();
    MetathesisOfThree(IPA, ["t", "k", "a"], ["k", "k", "a"]);
  }

  /** `a` is no velar or bilabial stop or nasal, so `t a` does not swap. */
  lemma MetathesisTA()
    ensures CoronalMetathesis(IPA, "t", "a") == ("t", "a")
  {
    assert forall j :: 0 <= j < |IPA| ==> !IsMetathesisTarget(IPA[j], "a") by {
      assert forall j :: 0 <= j < |DATA| ==> DATA[j].ipa != "a";
    }
  }

  /** As written, the pass turns `t k a` into `k k a`: the word loses its
      `t` and gains a second `k`. */
  lemma MetathesisLosesPhoneme()
    ensures multiset(ApplyCoronalMetathesis(IPA, ["t", "k", "a"])) != multiset(["t", "k", "a"])
  {
    MetathesisDoesNotCascade();
    assert multiset(["k", "k", "a"])["t"] == 0;
    assert multiset(["t", "k", "a"])["t"] == 1;
  }

  /** The corrected pass moves the `t` past the `k` and keeps it. */
  lemma MetathesisInPlaceTKA()
    ensures ApplyCoronalMetathesisInPlace(IPA, ["t", "k", "a"]) == ["k", "t", "a"]
  {
    MetathesisTK();
    MetathesisTA();
    var w := ["t", "k", "a"];
    assert [CoronalMetathesis(IPA, w[0], w[1]).1] + w[2..] == ["t", "a"];
    assert ApplyCoronalMetathesisInPlace(IPA, ["t", "a"]) == ["t", "a"];
  }
}

=== FILE: collation.dfy ===
/** wordgen.ArbSorter: an alphabet given as a whitespace-separated list of
    graphemes (single letters or di- and n-graphs such as `ch`). A word is
    cut into graphemes by a regular expression whose alternatives are the
    graphemes from longest to shortest, then `.`; each grapheme is mapped to
    its position in the list, and words are sorted by those position lists. */
module Collation {
  import opened Results
  import opened Text
  import opened Lex
  import opened Dicts

  /** The sorter, as its order string. */
  datatype Sorter = Sorter(order: string)

  /** `self.graphs`: the graphemes of the order string, in order. */
  function Graphs(s: Sorter): (gs: seq<string>)
    ensures forall i :: 0 <= i < |gs| ==> gs[i] != [] && NoSpace(gs[i])
    ensures Concat(gs) == RemoveSpaces(s.order)
  {
    Words(s.order)
  }

  /** The key `sorted(..., key=len, reverse=True)` compares, as a list so
      that the sort of `Lex` applies: a longer grapheme sorts first. */
  function LengthKey(g: string): seq<int> {
    [-|g|]
  }

  /** The alternatives of the splitting expression, before the final `.`:
      the graphemes ordered from longest to shortest. */
  function SplitOrder(s: Sorter): (alts: seq<string>)
    ensures multiset(alts) == multiset(Graphs(s))
    ensures forall i, j :: 0 <= i < j < |alts| ==> |alts[i]| >= |alts[j]|
  {
    var alts := SortBy(Graphs(s), LengthKey);
    forall i, j | 0 <= i < j < |alts|
      ensures |alts[i]| >= |alts[j]|
    {
      assert LexLe(LengthKey(alts[i]), LengthKey(alts[j]));
      LexLeSingleton(-|alts[i]|, -|alts[j]|);
    }
    alts
  }

  /** The regular-expression alternation at the start of `w`: the index of
      the first alternative that is a prefix of `w`. */
  function FirstPrefix(alts: seq<string>, w: string): (r: Option<nat>)
    ensures r.Some? ==> r.value < |alts| && StartsWith(w, alts[r.value])
    ensures r.Some? ==> forall j :: 0 <= j < r.value ==> !StartsWith(w, alts[j])
    ensures r.None? <==> forall j :: 0 <= j < |alts| ==> !StartsWith(w, alts[j])
  {
    if alts == [] then None
    else if StartsWith(w, alts[0]) then Some(0)
    else
      match FirstPrefix(alts[1..], w)
      case Some(i) => Some(i + 1)
      case None => None
  }

  /** Some declared grapheme is a prefix of `w`. */
  predicate GraphAt(s: Sorter, w: string) {
    exists g :: g in Graphs(s) && StartsWith(w, g)
  }

  /** The first alternative in longest-first order that is a prefix of `w`
      is a longest declared grapheme that is. */
  lemma FirstIsLongest(s: Sorter, w: string, i: nat)
    requires FirstPrefix(SplitOrder(s), w) == Some(i)
    ensures SplitOrder(s)[i] in Graphs(s)
    ensures forall g :: g in Graphs(s) && StartsWith(w, g) ==> |g| <= |SplitOrder(s)[i]|
  {
    var alts := SplitOrder(s);
    assert alts[i] in multiset(Graphs(s));
    forall g | g in Graphs(s) && StartsWith(w, g)
      ensures |g| <= |alts[i]|
    {
      assert g in multiset(alts);
      var j :| 0 <= j < |alts| && alts[j] == g;
      NotLongerThanFirst(alts, w, i, j);
    }
  }

  /** Any alternative that is a prefix of `w` sits at or after the first
      one that is, so in longest-first order it is no longer. */
  lemma NotLongerThanFirst(alts: seq<string>, w: string, i: nat, j: nat)
    requires FirstPrefix(alts, w) == Some(i) && j < |alts| && StartsWith(w, alts[j])
    requires forall a, b :: 0 <= a < b < |alts| ==> |alts[a]| >= |alts[b]|
    ensures |alts[j]| <= |alts[i]|
  {
    assert i <= j;
  }

  /** When no alternative is a prefix of `w`, no declared grapheme is. */
  lemma NoneIsPrefix(s: Sorter, w: string)
    requires FirstPrefix(SplitOrder(s), w).None?
    ensures !GraphAt(s, w)
  {
    var alts := SplitOrder(s);
    forall g | g in Graphs(s)
      ensures !StartsWith(w, g)
    {
      assert g in multiset(alts);
      var j :| 0 <= j < |alts| && alts[j] == g;
    }
  }

  /** The grapheme the splitter cuts off the front of a non-empty `w` that
      does not start with a newline: the longest declared grapheme that is a
      prefix of `w`, or else the first character alone. */
  function Match(s: Sorter, w: string): (m: string)
    requires w != []
    ensures m != [] && StartsWith(w, m)
    ensures GraphAt(s, w) ==> m in Graphs(s)
    ensures GraphAt(s, w) ==> forall g :: g in Graphs(s) && StartsWith(w, g) ==> |g| <= |m|
    ensures !GraphAt(s, w) ==> m == [w[0]]
  {
    match FirstPrefix(SplitOrder(s), w)
    case Some(i) =>
      FirstIsLongest(s, w, i);
      var m := SplitOrder(s)[i];
      assert m != [] by {
        var k :| 0 <= k < |Graphs(s)| && Graphs(s)[k] == m;
      }
      m
    case None =>
      NoneIsPrefix(s, w);
      [w[0]]
  }

  /** `w` with its newlines removed: the characters `.` can match. */
  function DropNewlines(w: string): (r: string)
    ensures '\n' !in r
    ensures '\n' !in w ==> r == w
  {
    if w == [] then []
    else if w[0] == '\n' then DropNewlines(w[1..])
    else [w[0]] + DropNewlines(w[1..])
  }

  /** `split(word)`: the graphemes of `word`, scanning left to right. A
      newline matches no alternative and is skipped. */
  function Tokens(s: Sorter, w: string): (ts: seq<string>)
    ensures forall i :: 0 <= i < |ts| ==> ts[i] != [] && '\n' !in ts[i]
    ensures Concat(ts) == DropNewlines(w)
    // every token is the longest match at the front of what is left
    ensures w != [] && w[0] != '\n' ==> ts == [Match(s, w)] + Tokens(s, w[|Match(s, w)|..])
    ensures w != [] && w[0] == '\n' ==> ts == Tokens(s, w[1..])
    decreases |w|
  {
    if w == [] then []
    else if w[0] == '\n' then Tokens(s, w[1..])
    else
      var m := Match(s, w);
      MatchNoNewline(s, w);
      CutFront(w, m);
      [m] + Tokens(s, w[|m|..])
  }

  /** Cutting a newline-free prefix off a word: the prefix accounts for the
      front of the word's characters. */
  lemma CutFront(w: string, m: string)
    requires StartsWith(w, m) && '\n' !in m
    ensures DropNewlines(w) == m + DropNewlines(w[|m|..])
  {
    assert w == m + w[|m|..];
    DropNewlinesAppend(m, w[|m|..]);
  }

  /** A grapheme cut off a word that does not start with a newline contains
      none. */
  lemma MatchNoNewline(s: Sorter, w: string)
    requires w != [] && w[0] != '\n'
    ensures '\n' !in Match(s, w)
  {
    var m := Match(s, w);
    if m in Graphs(s) {
      var k :| 0 <= k < |Graphs(s)| && Graphs(s)[k] == m;
      assert NoSpace(m);
      assert IsSpace('\n');
    }
  }

  lemma {:induction false} DropNewlinesAppend(a: string, b: string)
    ensures DropNewlines(a + b) == DropNewlines(a) + DropNewlines(b)
  {
    if a != [] {
      assert (a + b)[1..] == a[1..] + b;
      DropNewlinesAppend(a[1..], b);
    } else {
      assert a + b == b;
    }
  }

  /** Splitting a word without newlines is a partition of it. */
  lemma TokensPartition(s: Sorter, w: string)
    requires '\n' !in w
    ensures Concat(Tokens(s, w)) == w
  {
  }

  /** `self.ords`: the dict built by `ords[graphs[i]] = i` for each `i` in
      turn. */
  function Ords(gs: seq<string>): (d: Dict<string, nat>)
    ensures DistinctKeys(d)
  {
    if gs == [] then [] else Put<string, nat>(Ords(gs[..|gs| - 1]), gs[|gs| - 1], |gs| - 1)
  }

  /** The last position of `g` in `gs`, if any. */
  function LastIndex(gs: seq<string>, g: string): (r: Option<nat>)
    ensures r.Some? ==> r.value < |gs| && gs[r.value] == g
    ensures r.Some? ==> forall j :: r.value < j < |gs| ==> gs[j] != g
    ensures r.None? <==> g !in gs
  {
    if gs == [] then None
    else if gs[|gs| - 1] == g then Some(|gs| - 1)
    else LastIndex(gs[..|gs| - 1], g)
  }

  /** A grapheme listed twice ranks by its last occurrence, since the later
      assignment overwrites the earlier. */
  lemma {:induction false} OrdsLast(gs: seq<string>, g: string)
    ensures Get(Ords(gs), g) == LastIndex(gs, g)
  {
    if gs != [] {
      var init := gs[..|gs| - 1];
      var last := gs[|gs| - 1];
      if last == g {
        GetAfterPut<string, nat>(Ords(init), g, |gs| - 1);
      } else {
        GetOtherAfterPut<string, nat>(Ords(init), last, |gs| - 1, g);
        OrdsLast(init, g);
      }
    }
  }

  /** The rank of a grapheme: `self.ords[g]`, or None for the KeyError. */
  function Rank(s: Sorter, g: string): (r: Option<nat>)
    ensures r.Some? ==> r.value < |Graphs(s)| && Graphs(s)[r.value] == g
    ensures r.None? <==> g !in Graphs(s)
  {
    OrdsLast(Graphs(s), g);
    Get(Ords(Graphs(s)), g)
  }

  /** The ranks of a token list; the first unknown token ends it with the
      error for `word`. */
  function RanksOf(s: Sorter, ts: seq<string>, word: string): (r: Result<seq<nat>>)
    ensures r.Ok? <==> forall i :: 0 <= i < |ts| ==> ts[i] in Graphs(s)
    ensures r.Ok? ==> |r.value| == |ts|
    ensures r.Ok? ==> forall i :: 0 <= i < |ts| ==>
      r.value[i] < |Graphs(s)| && Graphs(s)[r.value[i]] == ts[i]
    ensures r.Err? ==> r.error == UnknownLetter(word)
  {
    if ts == [] then Ok([])
    else
      match Rank(s, ts[0])
      case None => Err(UnknownLetter(word))
      case Some(k) =>
        var rest :- RanksOf(s, ts[1..], word);
        Ok([k] + rest)
  }

  /** `word_as_values(word)`; the exit on an unknown letter is the error. */
  function WordAsValues(s: Sorter, word: string): (r: Result<seq<nat>>)
    ensures r.Ok? <==> forall t :: t in Tokens(s, word) ==> t in Graphs(s)
    ensures r.Ok? ==> |r.value| == |Tokens(s, word)|
    ensures r.Ok? ==> forall i :: 0 <= i < |r.value| ==>
      r.value[i] < |Graphs(s)| && Graphs(s)[r.value[i]] == Tokens(s, word)[i]
  {
    RanksOf(s, Tokens(s, word), word)
  }

  /** `self.vals[v]` with Python's indexing: a negative index counts from the
      end, anything else out of range is an IndexError. */
  function Grapheme(s: Sorter, v: int): (r: Result<string>)
    ensures r.Ok? <==> -|Graphs(s)| <= v < |Graphs(s)|
    ensures 0 <= v < |Graphs(s)| ==> r == Ok(Graphs(s)[v])
    ensures -|Graphs(s)| <= v < 0 ==> r == Ok(Graphs(s)[|Graphs(s)| + v])
  {
    var gs := Graphs(s);
    if 0 <= v < |gs| then Ok(gs[v])
    else if -|gs| <= v < 0 then Ok(gs[|gs| + v])
    else Err(IndexError("list index out of range"))
  }

  /** `values_as_word(values)`. */
  function ValuesAsWord(s: Sorter, vs: seq<int>): (r: Result<string>)
    ensures r.Ok? <==> forall i :: 0 <= i < |vs| ==> -|Graphs(s)| <= vs[i] < |Graphs(s)|
  {
    if vs == [] then Ok([])
    else
      var g :- Grapheme(s, vs[0]);
      var rest :- ValuesAsWord(s, vs[1..]);
      Ok(g + rest)
  }

  /** Spelling the ranks of a token list gives back the tokens joined. */
  lemma {:induction false} SpellRanks(s: Sorter, ts: seq<string>, vs: seq<nat>)
    requires |vs| == |ts|
    requires forall i :: 0 <= i < |ts| ==> vs[i] < |Graphs(s)| && Graphs(s)[vs[i]] == ts[i]
    ensures ValuesAsWord(s, vs) == Ok(Concat(ts))
  {
    if vs != [] {
      SpellRanks(s, ts[1..], vs[1..]);
    }
  }

  /** Round trip: for a word without newlines whose graphemes are all
      declared, `values_as_word(word_as_values(w)) == w`. */
  lemma ValuesRoundTrip(s: Sorter, w: string)
    requires '\n' !in w
    requires WordAsValues(s, w).Ok?
    ensures ValuesAsWord(s, WordAsValues(s, w).value) == Ok(w)
  {
    SpellRanks(s, Tokens(s, w), WordAsValues(s, w).value);
    TokensPartition(s, w);
  }

  /** A word with an undeclared grapheme has no values. */
  lemma UnknownLetterAborts(s: Sorter, w: string, i: nat)
    requires i < |Tokens(s, w)| && Tokens(s, w)[i] !in Graphs(s)
    ensures WordAsValues(s, w) == Err(UnknownLetter(w))
  {
  }

  /** `[f(x) for x in a]`. */
  function Map<A, B>(f: A -> B, a: seq<A>): (r: seq<B>)
    ensures |r| == |a|
    ensures forall i :: 0 <= i < |a| ==> r[i] == f(a[i])
  {
    if a == [] then [] else [f(a[0])] + Map(f, a[1..])
  }

  lemma {:induction false} MapAppend<A, B>(f: A -> B, x: seq<A>, y: seq<A>)
    ensures Map(f, x + y) == Map(f, x) + Map(f, y)
  {
    if x == [] {
      assert x + y == y;
    } else {
      assert (x + y)[1..] == x[1..] + y;
      MapAppend(f, x[1..], y);
    }
  }

  lemma MultisetRemove<A>(b: seq<A>, j: nat)
    requires j < |b|
    ensures multiset(b[..j] + b[j + 1..]) == multiset(b) - multiset{b[j]}
  {
    assert b == b[..j] + [b[j]] + b[j + 1..];
  }

  lemma MapMultisetAppend<A, B>(f: A -> B, x: seq<A>, y: seq<A>)
    ensures multiset(Map(f, x + y)) == multiset(Map(f, x)) + multiset(Map(f, y))
  {
    MapAppend(f, x, y);
  }

  /** Taking one element out of `b` takes its image out of the mapped
      multiset. */
  lemma MapSplice<A, B>(f: A -> B, b: seq<A>, j: nat)
    requires j < |b|
    ensures multiset(Map(f, b)) == multiset(Map(f, b[..j] + b[j + 1..])) + multiset{f(b[j])}
  {
    var x, y := b[..j], b[j + 1..];
    Splice(b, j);
    var mx, my, mj := multiset(Map(f, x)), multiset(Map(f, y)), multiset{f(b[j])};
    MapMultisetAppend(f, x, [b[j]] + y);
    assert multiset(Map(f, b)) == mx + multiset(Map(f, [b[j]] + y));
    MapMultisetAppend(f, [b[j]], y);
    assert Map(f, [b[j]]) == [f(b[j])];
    assert multiset(Map(f, [b[j]] + y)) == mj + my;
    MapMultisetAppend(f, x, y);
    assert multiset(Map(f, x + y)) == mx + my;
    assert mx + (mj + my) == (mx + my) + mj;
  }

  lemma Splice<A>(b: seq<A>, j: nat)
    requires j < |b|
    ensures b == b[..j] + ([b[j]] + b[j + 1..])
  {
  }

  /** Mapping two permutations of each other gives permutations of each
      other. */
  lemma {:induction false} MultisetMap<A, B>(f: A -> B, a: seq<A>, b: seq<A>)
    requires multiset(a) == multiset(b)
    ensures multiset(Map(f, a)) == multiset(Map(f, b))
    decreases |a|
  {
    if a == [] {
      assert |b| == |multiset(b)| == 0;
    } else {
      assert a[0] in multiset(b);
      var j :| 0 <= j < |b| && b[j] == a[0];
      var b' := b[..j] + b[j + 1..];
      MultisetRemove(b, j);
      MultisetTail(a);
      MultisetMap(f, a[1..], b');
      MapSplice(f, b, j);
      MapHead(f, a);
    }
  }

  lemma MultisetTail<A>(a: seq<A>)
    requires a != []
    ensures multiset(a[1..]) == multiset(a) - multiset{a[0]}
  {
    assert a == [a[0]] + a[1..];
  }

  lemma MapHead<A, B>(f: A -> B, a: seq<A>)
    requires a != []
    ensures multiset(Map(f, a)) == multiset{f(a[0])} + multiset(Map(f, a[1..]))
  {
    assert Map(f, a) == [f(a[0])] + Map(f, a[1..]);
  }

  /** `[self.word_as_values(item) for item in l]`: the first word with an
      unknown letter ends it. */
  function AllValues(s: Sorter, words: seq<string>): (r: Result<seq<seq<nat>>>)
    ensures r.Ok? <==> forall i :: 0 <= i < |words| ==> WordAsValues(s, words[i]).Ok?
    ensures r.Ok? ==> |r.value| == |words|
    ensures r.Ok? ==> forall i :: 0 <= i < |words| ==> WordAsValues(s, words[i]) == Ok(r.value[i])
  {
    if words == [] then Ok([])
    else
      var v :- WordAsValues(s, words[0]);
      var rest :- AllValues(s, words[1..]);
      Ok([v] + rest)
  }

  /** `[self.values_as_word(item) for item in l2]`. */
  function AllWords(s: Sorter, vss: seq<seq<nat>>): (r: Result<seq<string>>)
    ensures r.Ok? <==> forall i :: 0 <= i < |vss| ==> ValuesAsWord(s, vss[i]).Ok?
    ensures r.Ok? ==> |r.value| == |vss|
    ensures r.Ok? ==> forall i :: 0 <= i < |vss| ==> ValuesAsWord(s, vss[i]) == Ok(r.value[i])
  {
    if vss == [] then Ok([])
    else
      var w :- ValuesAsWord(s, vss[0]);
      var rest :- AllWords(s, vss[1..]);
      Ok([w] + rest)
  }

  /** Python's ordering of lists of ints is the key itself. */
  function ValuesKey(v: seq<nat>): seq<int> {
    v
  }

  /** `sorter(l)`: words to value lists, `l2.sort()`, and back. */
  function ArbSort(s: Sorter, words: seq<string>): (r: Result<seq<string>>)
    ensures r.Ok? ==> |r.value| == |words|
    ensures r.Ok? ==> forall i :: 0 <= i < |words| ==> WordAsValues(s, words[i]).Ok?
  {
    var l2 :- AllValues(s, words);
    var sorted := SortBy(l2, ValuesKey);
    assert |sorted| == |multiset(sorted)| == |l2|;
    AllWords(s, sorted)
  }

  /** The rank list a word sorts by; empty for a word that has none. */
  function RankKey(s: Sorter, w: string): seq<int> {
    match WordAsValues(s, w)
    case Ok(v) => v
    case Err(_) => []
  }

  /** The word a value list spells; empty when it spells none. */
  function Spell(s: Sorter, v: seq<nat>): string {
    match ValuesAsWord(s, v)
    case Ok(w) => w
    case Err(_) => []
  }

  /** `Spell` as a function value, for `Map`. */
  function SpellOf(s: Sorter): seq<nat> -> string {
    (v: seq<nat>) => Spell(s, v)
  }

  /** Spelling the value lists of words without newlines gives the words. */
  lemma SpellsBack(s: Sorter, words: seq<string>, l2: seq<seq<nat>>)
    requires forall w :: w in words ==> '\n' !in w
    requires AllValues(s, words) == Ok(l2)
    ensures Map(SpellOf(s), l2) == words
    ensures forall j :: 0 <= j < |l2| ==> ValuesAsWord(s, l2[j]) == Ok(words[j])
    ensures forall j :: 0 <= j < |l2| ==> RankKey(s, words[j]) == l2[j]
  {
    var spelled := Map(SpellOf(s), l2);
    forall j | 0 <= j < |l2|
      ensures ValuesAsWord(s, l2[j]) == Ok(words[j])
      ensures RankKey(s, words[j]) == l2[j]
      ensures spelled[j] == words[j]
    {
      assert WordAsValues(s, words[j]) == Ok(l2[j]);
      assert '\n' !in words[j];
      ValuesRoundTrip(s, words[j]);
    }
  }

  /** Every value list in a permutation of `l2` spells an input word whose
      rank list it is. */
  lemma PermutationSpells(s: Sorter, words: seq<string>, l2: seq<seq<nat>>, vss: seq<seq<nat>>)
    requires forall w :: w in words ==> '\n' !in w
    requires AllValues(s, words) == Ok(l2)
    requires multiset(vss) == multiset(l2)
    ensures forall i :: 0 <= i < |vss| ==> ValuesAsWord(s, vss[i]) == Ok(Spell(s, vss[i]))
    ensures forall i :: 0 <= i < |vss| ==> RankKey(s, Spell(s, vss[i])) == vss[i]
  {
    SpellsBack(s, words, l2);
    forall i | 0 <= i < |vss|
      ensures ValuesAsWord(s, vss[i]) == Ok(Spell(s, vss[i]))
      ensures RankKey(s, Spell(s, vss[i])) == vss[i]
    {
      assert vss[i] in multiset(l2);
      var j :| 0 <= j < |l2| && l2[j] == vss[i];
    }
  }

  /** `AllWords` on value lists that all spell something. */
  lemma {:induction false} AllWordsSpell(s: Sorter, vss: seq<seq<nat>>)
    requires forall i :: 0 <= i < |vss| ==> ValuesAsWord(s, vss[i]) == Ok(Spell(s, vss[i]))
    ensures AllWords(s, vss) == Ok(Map(SpellOf(s), vss))
  {
    if vss != [] {
      AllWordsSpell(s, vss[1..]);
    }
  }

  /** On words without newlines, `sorter(l)` succeeds exactly when every word
      is made of declared graphemes. It then returns a permutation of `l`,
      ordered by rank lists. */
  lemma ArbSortCorrect(s: Sorter, words: seq<string>)
    requires forall w :: w in words ==> '\n' !in w
    ensures ArbSort(s, words).Ok? <==> forall i :: 0 <= i < |words| ==> WordAsValues(s, words[i]).Ok?
    ensures ArbSort(s, words).Ok? ==> multiset(ArbSort(s, words).value) == multiset(words)
    ensures ArbSort(s, words).Ok? ==> SortedBy(ArbSort(s, words).value, (w: string) => RankKey(s, w))
  {
    if AllValues(s, words).Ok? {
      var l2 := AllValues(s, words).value;
      var sorted := SortBy(l2, ValuesKey);
      PermutationSpells(s, words, l2, sorted);
      AllWordsSpell(s, sorted);
      var r := Map(SpellOf(s), sorted);
      assert ArbSort(s, words) == Ok(r);
      SpellsBack(s, words, l2);
      MultisetMap(SpellOf(s), sorted, l2);
      forall i, j | 0 <= i < j < |r|
        ensures LexLe(RankKey(s, r[i]), RankKey(s, r[j]))
      {
        assert LexLe(ValuesKey(sorted[i]), ValuesKey(sorted[j]));
      }
    }
  }

  /** The sorted list does not depend on how it was sorted: it is the one
      permutation of the value lists in Python's list order. */
  lemma ValuesSortUnique(vs: seq<seq<nat>>, other: seq<seq<nat>>)
    requires multiset(other) == multiset(vs) && SortedBy(other, ValuesKey)
    ensures other == SortBy(vs, ValuesKey)
  {
    assert InjectiveOn(ValuesKey) by {
      forall x: seq<nat>, y: seq<nat> | ValuesKey(x) == ValuesKey(y)
        ensures x == y
      {
      }
    }
    SortedUnique(other, SortBy(vs, ValuesKey), ValuesKey);
  }
}

=== FILE: dicts.dfy ===
/** Python's insertion-ordered `dict`, as an association list. Storing a key
    that is already present replaces its value in place; a new key goes at
    the end. Iteration (`items()`, `values()`) follows that order, which is
    what weighted selection walks. */
module Dicts {
  import opened Results

  type Dict<K, V> = seq<(K, V)>

  function Keys<K, V>(d: Dict<K, V>): (ks: seq<K>)
    ensures |ks| == |d|
    ensures forall i :: 0 <= i < |d| ==> ks[i] == d[i].0
  {
    if d == [] then [] else [d[0].0] + Keys(d[1..])
  }

  function Values<K, V>(d: Dict<K, V>): (vs: seq<V>)
    ensures |vs| == |d|
    ensures forall i :: 0 <= i < |d| ==> vs[i] == d[i].1
  {
    if d == [] then [] else [d[0].1] + Values(d[1..])
  }

  /** No key occurs twice. */
  predicate DistinctKeys<K(==), V>(d: Dict<K, V>) {
    d == [] || (d[0].0 !in Keys(d[1..]) && DistinctKeys(d[1..]))
  }

  /** `d.get(k)`. */
  function Get<K(==), V>(d: Dict<K, V>, k: K): (r: Option<V>)
    ensures r.None? <==> k !in Keys(d)
    ensures r.Some? ==> (k, r.value) in d
  {
    if d == [] then None
    else if d[0].0 == k then Some(d[0].1)
    else
      assert Keys(d) == [d[0].0] + Keys(d[1..]);
      Get(d[1..], k)
  }

  /** `d[k] = v` on a dict (whose keys are distinct): an existing key keeps
      its position and takes the new value, a new key is appended. */
  function Put<K(==), V>(d: Dict<K, V>, k: K, v: V): (r: Dict<K, V>)
    requires DistinctKeys(d)
    ensures DistinctKeys(r)
    ensures k in Keys(d) ==> |r| == |d|
    ensures k in Keys(d) ==>
      forall i :: 0 <= i < |d| ==> r[i] == (if d[i].0 == k then (k, v) else d[i])
    ensures k !in Keys(d) ==> r == d + [(k, v)]
  {
    if d == [] then [(k, v)]
    else if d[0].0 == k then
      var r := [(k, v)] + d[1..];
      assert r[1..] == d[1..];
      assert Keys(d) == [k] + Keys(d[1..]);
      r
    else
      assert Keys(d) == [d[0].0] + Keys(d[1..]);
      var tail := Put(d[1..], k, v);
      KeysOfPut(d[1..], k, v, tail);
      var r := [d[0]] + tail;
      assert r[1..] == tail;
      assert k !in Keys(d) ==> r == d + [(k, v)] by {
        assert d == [d[0]] + d[1..];
      }
      r
  }

  /** The keys after `Put` are the old keys, plus `k` at the end if new. */
  lemma KeysOfPut<K, V>(d: Dict<K, V>, k: K, v: V, r: Dict<K, V>)
    requires k in Keys(d) ==> |r| == |d|
    requires k in Keys(d) ==>
      forall i :: 0 <= i < |d| ==> r[i] == (if d[i].0 == k then (k, v) else d[i])
    requires k !in Keys(d) ==> r == d + [(k, v)]
    ensures forall x :: x in Keys(r) ==> x == k || x in Keys(d)
  {
    forall x | x in Keys(r)
      ensures x == k || x in Keys(d)
    {
      var i :| 0 <= i < |r| && Keys(r)[i] == x;
      if i < |d| && r[i] != (k, v) {
        assert Keys(d)[i] == x;
      }
    }
  }

  /** After `d[k] = v`, `d.get(k)` is `v`. */
  lemma {:induction false} GetAfterPut<K, V>(d: Dict<K, V>, k: K, v: V)
    requires DistinctKeys(d)
    ensures Get(Put(d, k, v), k) == Some(v)
  {
    if d != [] && d[0].0 != k {
      GetAfterPut(d[1..], k, v);
    }
  }

  /** `d[k] = v` leaves every other key's value as it was. */
  lemma {:induction false} GetOtherAfterPut<K, V>(d: Dict<K, V>, k: K, v: V, k': K)
    requires DistinctKeys(d) && k' != k
    ensures Get(Put(d, k, v), k') == Get(d, k')
  {
    if d != [] && d[0].0 != k {
      GetOtherAfterPut(d[1..], k, v, k');
    } else if d == [] {
      assert Put(d, k, v) == [(k, v)];
    }
  }

  /** `d[k] = v` stores `v` under `k` and leaves every other key as it was. */
  lemma PutFrame<K, V>(d: Dict<K, V>, k: K, v: V)
    requires DistinctKeys(d)
    ensures Get(Put(d, k, v), k) == Some(v)
    ensures forall k' :: k' != k ==> Get(Put(d, k, v), k') == Get(d, k')
  {
    GetAfterPut(d, k, v);
    forall k' | k' != k
      ensures Get(Put(d, k, v), k') == Get(d, k')
    {
      GetOtherAfterPut(d, k, v, k');
    }
  }
}

=== FILE: distribution.dfy ===
/** The weighted selector: parallel key and weight lists walked in a fixed
    order, returning the first key whose running weight total exceeds the
    draw. The draw comes from `random.uniform(0, total - 1)`, so the range is
    one short of the total weight; that is kept as it is. */
module Distribution {
  import opened Results
  import opened Dicts

  /** Python's `sum` of a weight list (exact real arithmetic). */
  function Sum(ws: seq<real>): real {
    if ws == [] then 0.0 else Sum(ws[..|ws| - 1]) + ws[|ws| - 1]
  }

  /** Cumulative weight of `ws[0..j]` inclusive: the value of `tmp` after
      the loop has added `ws[j]`. */
  function Cum(ws: seq<real>, j: nat): real
    requires j < |ws|
  {
    Sum(ws[..j + 1])
  }

  lemma CumFirst(ws: seq<real>)
    requires |ws| > 0
    ensures Cum(ws, 0) == ws[0]
  {
    var w := ws[..1];
    assert w[..|w| - 1] == [];
    assert Sum(w) == Sum([]) + w[0];
  }

  lemma CumStep(ws: seq<real>, j: nat)
    requires 0 < j < |ws|
    ensures Cum(ws, j) == Cum(ws, j - 1) + ws[j]
  {
    assert ws[..j + 1][..j] == ws[..j];
  }

  lemma CumLast(ws: seq<real>)
    requires |ws| > 0
    ensures Cum(ws, |ws| - 1) == Sum(ws)
  {
    assert ws[..|ws|] == ws;
  }

  /** The selection loop from position `i` on, with `acc` the running total
      of the weights before `i`. */
  function Walk(ws: seq<real>, pick: real, i: nat, acc: real): (r: Option<nat>)
    requires i <= |ws| && acc == Sum(ws[..i])
    ensures r.Some? ==> i <= r.value < |ws| && pick < Cum(ws, r.value)
    ensures r.Some? ==> forall j :: i <= j < r.value ==> pick >= Cum(ws, j)
    ensures r.None? ==> forall j :: i <= j < |ws| ==> pick >= Cum(ws, j)
    decreases |ws| - i
  {
    if i == |ws| then None
    else
      assert ws[..i + 1][..i] == ws[..i];
      if pick < acc + ws[i] then Some(i)
      else Walk(ws, pick, i + 1, acc + ws[i])
  }

  /** The index the selection loop returns for `pick`: the least `i` whose
      cumulative weight exceeds `pick`, or None when the loop falls off the
      end. */
  function PickIndex(ws: seq<real>, pick: real): (r: Option<nat>)
    ensures r.Some? ==> r.value < |ws| && pick < Cum(ws, r.value)
    ensures r.Some? ==> forall j :: 0 <= j < r.value ==> pick >= Cum(ws, j)
    ensures r.None? ==> forall j :: 0 <= j < |ws| ==> pick >= Cum(ws, j)
  {
    Walk(ws, pick, 0, 0.0)
  }

  /** `i` is the least index whose cumulative weight exceeds `pick`. */
  predicate FirstAbove(ws: seq<real>, pick: real, i: nat) {
    i < |ws| && pick < Cum(ws, i) && forall j :: 0 <= j < i ==> pick >= Cum(ws, j)
  }

  /** A draw in `[0, total - 1]` always selects something. */
  lemma PickInRange(ws: seq<real>, pick: real)
    requires 0.0 <= pick <= Sum(ws) - 1.0
    ensures PickIndex(ws, pick).Some?
  {
    if |ws| > 0 {
      CumLast(ws);
    }
  }

  /** With a non-negative draw, a key of weight zero (or less) is never
      selected. */
  lemma ZeroWeightNeverPicked(ws: seq<real>, pick: real, i: nat)
    requires pick >= 0.0
    requires PickIndex(ws, pick) == Some(i)
    ensures ws[i] > 0.0
  {
    if i == 0 {
      CumFirst(ws);
    } else {
      CumStep(ws, i);
    }
  }

  /** The last key is selected only by draws of at least
      `total - weights[n - 1]`. */
  lemma LastPickBound(ws: seq<real>, pick: real)
    requires pick >= 0.0 && |ws| > 0
    requires PickIndex(ws, pick) == Some(|ws| - 1)
    ensures pick >= Sum(ws) - ws[|ws| - 1]
  {
    CumLast(ws);
    if |ws| > 1 {
      CumStep(ws, |ws| - 1);
    } else {
      CumFirst(ws);
    }
  }

  /** Because draws stop at `total - 1`, a last key whose weight is below 1 is
      never selected. */
  lemma LightLastKeyNeverPicked(ws: seq<real>, pick: real)
    requires |ws| > 0 && ws[|ws| - 1] < 1.0
    requires 0.0 <= pick <= Sum(ws) - 1.0
    ensures PickIndex(ws, pick) != Some(|ws| - 1)
  {
    if PickIndex(ws, pick) == Some(|ws| - 1) {
      LastPickBound(ws, pick);
    }
  }

  /** distribution.WeightedSelector: `keys` and `weights` in parallel, `sum`
      one less than the total weight, `n` the number of keys. */
  datatype Selector<K> = Selector(keys: seq<K>, weights: seq<real>, sum: real, n: int)

  /** What the constructor establishes and `select` relies on. */
  predicate Valid<K>(s: Selector<K>) {
    |s.keys| == |s.weights| == s.n && s.sum == Sum(s.weights) - 1.0
  }

  /** `WeightedSelector(dic)`: keys and weights taken from the dict in its
      iteration order. */
  function MakeSelector<K>(d: Dict<K, real>): (s: Selector<K>)
    ensures Valid(s)
    ensures |s.keys| == |d|
    ensures forall i :: 0 <= i < |d| ==> s.keys[i] == d[i].0 && s.weights[i] == d[i].1
  {
    Selector(Keys(d), Values(d), Sum(Values(d)) - 1.0, |d|)
  }

  /** `random.uniform(a, b)` for a unit draw `u` from `random.random()`. */
  function Uniform(a: real, b: real, u: real): real {
    a + (b - a) * u
  }

  /** `selector.select()` with the already-scaled draw `pick`. */
  function SelectAt<K>(s: Selector<K>, pick: real): (r: Option<K>)
    requires Valid(s)
    ensures r.Some? <==> exists i :: 0 <= i < |s.weights| && pick < Cum(s.weights, i)
    // the key of the least index whose running total exceeds the pick
    ensures forall i: nat :: FirstAbove(s.weights, pick, i) ==> r == Some(s.keys[i])
  {
    match PickIndex(s.weights, pick)
    case Some(i) =>
      assert FirstAbove(s.weights, pick, i);
      Some(s.keys[i])
    case None =>
      assert !exists i :: 0 <= i < |s.weights| && pick < Cum(s.weights, i);
      None
  }

  /** `selector.select()` where `random.random()` returned `u`. */
  function Select<K>(s: Selector<K>, u: real): (r: Option<K>)
    requires Valid(s)
    ensures r.Some? ==> r.value in s.keys
    ensures r.Some? <==> exists i :: 0 <= i < |s.weights| && s.sum * u < Cum(s.weights, i)
  {
    SelectAt(s, Uniform(0.0, s.sum, u))
  }

  /** A selector whose weights total at least 1 never falls off the end for
      a unit draw. */
  lemma SelectNeverFails<K>(s: Selector<K>, u: real)
    requires Valid(s) && s.sum >= 0.0
    requires 0.0 <= u <= 1.0
    ensures Select(s, u).Some?
  {
    var pick := Uniform(0.0, s.sum, u);
    assert pick == s.sum * u;
    assert s.sum * u <= s.sum * 1.0 by {
      assert s.sum * (1.0 - u) >= 0.0;
    }
    PickInRange(s.weights, pick);
  }
}

=== FILE: lex.dfy ===
/** Python's ordering of lists of integers (and of strings, by code point):
    lexicographic, with a proper prefix sorting first. `SortBy` is a sort
    under that order of a key; because the order is total and antisymmetric,
    every sorted permutation is the same one (`SortedUnique`), so this sort
    agrees with Python's `list.sort()`. */
module Lex {

  /** `a <= b` for Python lists of integers. */
  predicate LexLe(a: seq<int>, b: seq<int>) {
    a == [] || (b != [] && (a[0] < b[0] || (a[0] == b[0] && LexLe(a[1..], b[1..]))))
  }

  lemma {:induction false} LexLeRefl(a: seq<int>)
    ensures LexLe(a, a)
  {
    if a != [] {
      LexLeRefl(a[1..]);
    }
  }

  lemma {:induction false} LexLeTotal(a: seq<int>, b: seq<int>)
    ensures LexLe(a, b) || LexLe(b, a)
  {
    if a != [] && b != [] && a[0] == b[0] {
      LexLeTotal(a[1..], b[1..]);
    }
  }

  lemma {:induction false} LexLeAntisym(a: seq<int>, b: seq<int>)
    requires LexLe(a, b) && LexLe(b, a)
    ensures a == b
  {
    if a != [] {
      LexLeAntisym(a[1..], b[1..]);
      assert a == [a[0]] + a[1..] && b == [b[0]] + b[1..];
    }
  }

  lemma {:induction false} LexLeTrans(a: seq<int>, b: seq<int>, c: seq<int>)
    requires LexLe(a, b) && LexLe(b, c)
    ensures LexLe(a, c)
  {
    if a != [] && a[0] == b[0] && b[0] == c[0] {
      LexLeTrans(a[1..], b[1..], c[1..]);
    }
  }

  /** On one-element lists the order is the order of the elements. */
  lemma LexLeSingleton(x: int, y: int)
    ensures LexLe([x], [y]) <==> x <= y
  {
    assert [x][1..] == [] && [y][1..] == [];
  }

  /** A string as the sequence of its code points: the key Python compares. */
  function Codes(s: string): (c: seq<int>)
    ensures |c| == |s|
    ensures forall i :: 0 <= i < |s| ==> c[i] == s[i] as int
  {
    if s == [] then [] else [s[0] as int] + Codes(s[1..])
  }

  lemma CodesInjective(s: string, t: string)
    requires Codes(s) == Codes(t)
    ensures s == t
  {
    assert |s| == |t|;
    assert forall i :: 0 <= i < |s| ==> s[i] as int == t[i] as int;
  }

  predicate SortedBy<T>(s: seq<T>, key: T -> seq<int>) {
    forall i, j :: 0 <= i < j < |s| ==> LexLe(key(s[i]), key(s[j]))
  }

  /** Every element of `s` has a key at least `k`. */
  predicate LowerBound<T>(k: seq<int>, s: seq<T>, key: T -> seq<int>) {
    forall j :: 0 <= j < |s| ==> LexLe(k, key(s[j]))
  }

  lemma SortedCons<T>(y: T, t: seq<T>, key: T -> seq<int>)
    requires SortedBy(t, key) && LowerBound(key(y), t, key)
    ensures SortedBy([y] + t, key)
  {
    var r := [y] + t;
    forall i, j | 0 <= i < j < |r|
      ensures LexLe(key(r[i]), key(r[j]))
    {
      assert r[j] == t[j - 1];
      if i > 0 {
        assert r[i] == t[i - 1];
      }
    }
  }

  lemma LowerBoundPerm<T>(k: seq<int>, a: seq<T>, b: seq<T>, key: T -> seq<int>)
    requires multiset(a) == multiset(b) && LowerBound(k, a, key)
    ensures LowerBound(k, b, key)
  {
    forall j | 0 <= j < |b|
      ensures LexLe(k, key(b[j]))
    {
      assert b[j] in multiset(a);
      var i :| 0 <= i < |a| && a[i] == b[j];
    }
  }

  /** Inserts `x` before the first element it does not exceed. */
  function InsertBy<T>(x: T, s: seq<T>, key: T -> seq<int>): (r: seq<T>)
    requires SortedBy(s, key)
    ensures SortedBy(r, key)
    ensures multiset(r) == multiset(s) + multiset{x}
  {
    if s == [] then [x]
    else if LexLe(key(x), key(s[0])) then
      assert LowerBound(key(x), s, key) by {
        forall j | 0 <= j < |s|
          ensures LexLe(key(x), key(s[j]))
        {
          if j > 0 { LexLeTrans(key(x), key(s[0]), key(s[j])); }
        }
      }
      SortedCons(x, s, key);
      assert s == [s[0]] + s[1..];
      [x] + s
    else
      LexLeTotal(key(x), key(s[0]));
      var tail := InsertBy(x, s[1..], key);
      assert s == [s[0]] + s[1..];
      assert LowerBound(key(s[0]), s[1..] + [x], key) by {
        forall j | 0 <= j < |s[1..] + [x]|
          ensures LexLe(key(s[0]), key((s[1..] + [x])[j]))
        {
          if j < |s[1..]| {
            assert (s[1..] + [x])[j] == s[j + 1];
          }
        }
      }
      LowerBoundPerm(key(s[0]), s[1..] + [x], tail, key);
      SortedCons(s[0], tail, key);
      [s[0]] + tail
  }

  /** Insertion sort by key: a permutation of `s`, ordered by `key`. */
  function SortBy<T>(s: seq<T>, key: T -> seq<int>): (r: seq<T>)
    ensures SortedBy(r, key)
    ensures multiset(r) == multiset(s)
  {
    if s == [] then []
    else
      assert s == [s[0]] + s[1..];
      InsertBy(s[0], SortBy(s[1..], key), key)
  }

  ghost predicate InjectiveOn<T(!new)>(key: T -> seq<int>) {
    forall x, y :: key(x) == key(y) ==> x == y
  }

  /** Two sorted permutations of the same elements under an injective key are
      equal: the result does not depend on the sorting algorithm. */
  lemma {:induction false} SortedUnique<T(!new)>(a: seq<T>, b: seq<T>, key: T -> seq<int>)
    requires InjectiveOn(key)
    requires SortedBy(a, key) && SortedBy(b, key)
    requires multiset(a) == multiset(b)
    ensures a == b
    decreases |a|
  {
    if a == [] {
      assert |b| == |multiset(b)| == 0;
    } else {
      assert |b| == |multiset(b)| == |multiset(a)| == |a|;
      SameHead(a, b, key);
      SameTail(a, b);
      SortedTail(a, key);
      SortedTail(b, key);
      SortedUnique(a[1..], b[1..], key);
      assert a == [a[0]] + a[1..] && b == [b[0]] + b[1..];
    }
  }

  /** Sorted permutations under an injective key start with the same element. */
  lemma SameHead<T(!new)>(a: seq<T>, b: seq<T>, key: T -> seq<int>)
    requires InjectiveOn(key)
    requires SortedBy(a, key) && SortedBy(b, key)
    requires multiset(a) == multiset(b) && a != [] && b != []
    ensures a[0] == b[0]
  {
    assert a[0] in multiset(b);
    var j :| 0 <= j < |b| && b[j] == a[0];
    assert b[0] in multiset(a);
    var i :| 0 <= i < |a| && a[i] == b[0];
    assert LexLe(key(a[0]), key(b[0])) by {
      if i > 0 { } else { LexLeRefl(key(a[0])); }
    }
    assert LexLe(key(b[0]), key(a[0])) by {
      if j > 0 { } else { LexLeRefl(key(b[0])); }
    }
    LexLeAntisym(key(a[0]), key(b[0]));
  }

  lemma SameTail<T>(a: seq<T>, b: seq<T>)
    requires a != [] && b != [] && a[0] == b[0] && multiset(a) == multiset(b)
    ensures multiset(a[1..]) == multiset(b[1..])
  {
    assert a == [a[0]] + a[1..] && b == [b[0]] + b[1..];
    assert multiset(a) == multiset{a[0]} + multiset(a[1..]);
    assert multiset(b) == multiset{b[0]} + multiset(b[1..]);
    assert multiset(a[1..]) == multiset(a) - multiset{a[0]};
    assert multiset(b[1..]) == multiset(b) - multiset{b[0]};
  }

  lemma SortedTail<T>(a: seq<T>, key: T -> seq<int>)
    requires a != [] && SortedBy(a, key)
    ensures SortedBy(a[1..], key)
  {
    forall i, j | 0 <= i < j < |a| - 1
      ensures LexLe(key(a[1..][i]), key(a[1..][j]))
    {
      assert a[1..][i] == a[i + 1] && a[1..][j] == a[j + 1];
    }
  }
}

=== FILE: numbers.dfy ===
/** The two number conversions of the definition language: Python's `float()`
    on a class weight (`a:2.5`) and `int()` on the `random-rate:` value, for
    plain decimal notation. */
module Numbers {
  import opened Results
  import Text

  predicate IsDigit(c: char) {
    '0' <= c <= '9'
  }

  predicate AllDigits(s: string) {
    forall i :: 0 <= i < |s| ==> IsDigit(s[i])
  }

  function DigitValue(c: char): nat
    requires IsDigit(c)
  {
    (c as int) - ('0' as int)
  }

  /** The value of a digit string read left to right. */
  function DigitsValue(s: string): nat
    requires AllDigits(s)
  {
    if s == [] then 0 else DigitsValue(s[..|s| - 1]) * 10 + DigitValue(s[|s| - 1])
  }

  /** The value of the digits after a decimal point. */
  function FractionValue(s: string): real
    requires AllDigits(s)
  {
    if s == [] then 0.0 else (DigitValue(s[0]) as real + FractionValue(s[1..])) / 10.0
  }

  /** Splits an optional leading `+` or `-` off a numeral. */
  function SignOf(s: string): (r: (bool, string))
    ensures r.1 == s || (s != [] && r.1 == s[1..] && s[0] in {'+', '-'})
  {
    if s != [] && s[0] == '-' then (true, s[1..])
    else if s != [] && s[0] == '+' then (false, s[1..])
    else (false, s)
  }

  /** `int(s)` for `s` already stripped: an optional sign and at least one
      digit; anything else is a ValueError. */
  function ParseInt(s: string): (r: Result<int>)
    ensures r.Ok? <==> SignOf(s).1 != [] && AllDigits(SignOf(s).1)
    ensures r.Ok? ==> s != []
    ensures r.Ok? && s[0] != '-' ==> r.value >= 0
    // the value is the digits' value, negated after a `-`
    ensures r.Ok? ==> r.value == (if s[0] == '-' then -1 else 1) * DigitsValue(SignOf(s).1)
  {
    var (negative, body) := SignOf(s);
    if body == [] || !AllDigits(body) then Err(ValueError("invalid literal for int(): " + s))
    else if negative then Ok(-(DigitsValue(body) as int))
    else Ok(DigitsValue(body) as int)
  }

  /** The numerals `float()` reads after the sign: digits and at most one
      decimal point, with at least one digit. */
  predicate DecimalNumeral(body: string) {
    (forall i :: 0 <= i < |body| ==> IsDigit(body[i]) || body[i] == '.') &&
    (forall i, j :: 0 <= i < j < |body| ==> body[i] != '.' || body[j] != '.') &&
    (exists i :: 0 <= i < |body| && IsDigit(body[i]))
  }

  /** The value of such a numeral: its whole part plus its fraction. */
  function DecimalValue(body: string): real
    requires DecimalNumeral(body)
  {
    if '.' in body then
      var k := Text.IndexOf(body, '.');
      PointSplit(body, k);
      DigitsValue(body[..k]) as real + FractionValue(body[k + 1..])
    else
      DigitsValue(body) as real
  }

  /** Either side of the one point of a numeral is all digits. */
  lemma PointSplit(body: string, k: nat)
    requires DecimalNumeral(body) && k < |body| && body[k] == '.'
    ensures AllDigits(body[..k]) && AllDigits(body[k + 1..])
  {
    forall i | 0 <= i < k
      ensures IsDigit(body[..k][i])
    {
      assert body[i] != '.';
    }
    var b := body[k + 1..];
    forall i | 0 <= i < |b|
      ensures IsDigit(b[i])
    {
      assert b[i] == body[k + 1 + i] != '.';
    }
  }

  /** `float(s)`: an optional sign, then digits with at most one decimal
      point and at least one digit; anything else is a ValueError. */
  function ParseFloat(s: string): (r: Result<real>)
    ensures r.Ok? <==> DecimalNumeral(SignOf(s).1)
    ensures r.Ok? ==> s != [] && exists i :: 0 <= i < |s| && IsDigit(s[i])
    ensures r.Ok? && s[0] != '-' ==> r.value >= 0.0
    // the numeral's value, negated after a `-`
    ensures r.Ok? ==> r.value == (if s[0] == '-' then -1.0 else 1.0) * DecimalValue(SignOf(s).1)
  {
    var (negative, body) := SignOf(s);
    var parts := Text.SplitOn(body, '.');
    FloatSyntax(body, parts);
    if |parts| > 2 then Err(ValueError("could not convert string to float: " + s))
    else
      var whole := parts[0];
      var frac := if |parts| == 2 then parts[1] else [];
      if !AllDigits(whole) || !AllDigits(frac) || (whole == [] && frac == []) then
        Err(ValueError("could not convert string to float: " + s))
      else
        SignedDigit(s);
        FractionNonNegative(frac);
        var v := DigitsValue(whole) as real + FractionValue(frac);
        Ok(if negative then -v else v)
  }

  /** What the split at `.` accepts is exactly a decimal numeral, and the
      parts' value is the numeral's. */
  lemma FloatSyntax(body: string, parts: seq<string>)
    requires parts == Text.SplitOn(body, '.')
    ensures (|parts| <= 2 && AllDigits(parts[0]) && AllDigits(if |parts| == 2 then parts[1] else []) &&
             (parts[0] != [] || (|parts| == 2 && parts[1] != []))) <==> DecimalNumeral(body)
    ensures DecimalNumeral(body) ==>
      DecimalValue(body) == DigitsValue(parts[0]) as real + FractionValue(if |parts| == 2 then parts[1] else [])
  {
    if '.' !in body {
      assert parts == [body];
      NoPointSyntax(body);
    } else {
      var k := Text.IndexOf(body, '.');
      var rest := body[k + 1..];
      assert parts == [body[..k]] + Text.SplitOn(rest, '.');
      if '.' in rest {
        var j := Text.IndexOf(rest, '.');
        assert body[k + 1 + j] == '.';
        assert |Text.SplitOn(rest, '.')| >= 2;
      } else {
        assert Text.SplitOn(rest, '.') == [rest];
        OnePointSyntax(body, k);
      }
    }
  }

  lemma NoPointSyntax(body: string)
    requires '.' !in body
    ensures (AllDigits(body) && body != []) <==> DecimalNumeral(body)
  {
    if AllDigits(body) && body != [] {
      assert IsDigit(body[0]);
    }
  }

  lemma OnePointSyntax(body: string, k: nat)
    requires k < |body| && body[k] == '.' && '.' !in body[..k] && '.' !in body[k + 1..]
    ensures (AllDigits(body[..k]) && AllDigits(body[k + 1..]) && (k > 0 || k + 1 < |body|)) <==>
      DecimalNumeral(body)
  {
    var a, b := body[..k], body[k + 1..];
    assert forall i :: 0 <= i < k ==> body[i] == a[i];
    assert forall i :: k < i < |body| ==> body[i] == b[i - k - 1];
    if AllDigits(a) && AllDigits(b) && (k > 0 || k + 1 < |body|) {
      if k > 0 {
        assert IsDigit(body[0]);
      } else {
        assert IsDigit(body[k + 1]);
      }
    }
    if DecimalNumeral(body) {
      PointSplit(body, k);
      var i :| 0 <= i < |body| && IsDigit(body[i]);
      assert i != k;
    }
  }

  /** A numeral after its sign holds a digit of the whole text. */
  lemma SignedDigit(s: string)
    requires DecimalNumeral(SignOf(s).1)
    ensures s != [] && exists i :: 0 <= i < |s| && IsDigit(s[i])
  {
    var body := SignOf(s).1;
    var i :| 0 <= i < |body| && IsDigit(body[i]);
    if body != s {
      assert s[1..][i] == s[i + 1];
    }
  }

  lemma {:induction false} FractionNonNegative(s: string)
    requires AllDigits(s)
    ensures 0.0 <= FractionValue(s)
  {
    if s != [] {
      FractionNonNegative(s[1..]);
    }
  }

  /** Decimal rendering of a natural number, the inverse partner of the two
      parsers. */
  function NatToString(n: nat): (s: string)
    ensures s != [] && AllDigits(s)
  {
    if n < 10 then [DigitChar(n)]
    else NatToString(n / 10) + [DigitChar(n % 10)]
  }

  /** The digit character for `d < 10`. */
  function DigitChar(d: nat): (c: char)
    requires d < 10
    ensures IsDigit(c) && DigitValue(c) == d
  {
    ('0' as int + d) as char
  }

  /** `'%.2f' % x` for `x == n + d / 100`: the whole part, a point and two
      digits, as `natural_weights` writes a weight. */
  function Fixed2(n: nat, d: nat): string
    requires d < 100
  {
    NatToString(n) + "." + [DigitChar(d / 10), DigitChar(d % 10)]
  }

  lemma {:induction false} DigitsOfNatToString(n: nat)
    ensures DigitsValue(NatToString(n)) == n
  {
    var s := NatToString(n);
    if n >= 10 {
      DigitsOfNatToString(n / 10);
      assert s[..|s| - 1] == NatToString(n / 10);
    }
  }

  /** `int(str(n)) == n`. */
  lemma ParseIntRoundTrip(n: nat)
    ensures ParseInt(NatToString(n)) == Ok(n)
  {
    DigitsOfNatToString(n);
  }

  /** Leading zeros and signs are read as Python reads them: `int("007")`
      is 7, `int("-5")` is -5 and `int("+0")` is 0. */
  lemma ParseIntExamples()
    ensures ParseInt("007") == Ok(7)
    ensures ParseInt("-5") == Ok(-5)
    ensures ParseInt("+0") == Ok(0)
    ensures ParseInt("-").Err? && ParseInt("").Err? && ParseInt("1a").Err?
  {
    assert "007"[..2] == "00" && "00"[..1] == "0" && "0"[..0] == [];
    assert SignOf("-5").1 == "5" && "5"[..0] == [];
    assert SignOf("+0").1 == "0" && "0"[..0] == [];
    assert !IsDigit("1a"[1]);
  }

  /** `float(str(n)) == n`. */
  lemma ParseFloatRoundTrip(n: nat)
    ensures ParseFloat(NatToString(n)) == Ok(n as real)
  {
    var s := NatToString(n);
    DigitsOfNatToString(n);
    assert '.' !in s;
    assert Text.SplitOn(s, '.') == [s];
  }

  /** `float('%.2f' % x) == x` for a weight with two decimals. */
  lemma ParseFloatFixed2(n: nat, d: nat)
    requires d < 100
    ensures ParseFloat(Fixed2(n, d)) == Ok(n as real + d as real / 100.0)
  {
    var w := NatToString(n);
    var f := [DigitChar(d / 10), DigitChar(d % 10)];
    var s := Fixed2(n, d);
    var k := |w|;
    assert s[..k] == w && s[k] == '.' && s[k + 1..] == f;
    assert IsDigit(s[0]) by { assert s[0] == w[0]; }
    assert SignOf(s).1 == s;
    assert '.' !in w by { assert forall i :: 0 <= i < |w| ==> IsDigit(w[i]); }
    OnePointSyntax(s, k);
    assert Text.IndexOf(s, '.') == k;
    DigitsOfNatToString(n);
    FractionOfTwo(d);
  }

  lemma FractionOfTwo(d: nat)
    requires d < 100
    ensures FractionValue([DigitChar(d / 10), DigitChar(d % 10)]) == d as real / 100.0
  {
    var f := [DigitChar(d / 10), DigitChar(d % 10)];
    assert f[1..] == [f[1]] && f[1..][1..] == [];
    var a, b := (d / 10) as real, (d % 10) as real;
    assert FractionValue(f[1..]) == b / 10.0;
    assert FractionValue(f) == (a + b / 10.0) / 10.0;
    assert d as real == 10.0 * a + b;
  }
}

=== FILE: phdef_parser.dfy ===
/** PhDefParser.PhonologyDefinition: the interpreter of a phonology
    definition, one line at a time. The file is the list of lines that
    successive `readline()` calls return (each with its newline, the last
    possibly without); reading past the end gives the empty string. */
module PhDefParser {
  import opened Results
  import opened Text
  import opened Dicts
  import opened Collation
  import opened SmartClusters
  import opened WordGen
  import Distribution
  import Numbers

  /** The interpreter's state: the sound system being configured, the
      `$` macros (keyed by a backslash and the macro name, as the regular
      expression that finds them), and what the closing sanity check
      compares (the letters and the phonemes named by classes). */
  datatype Definition = Definition(
    ss: SoundSystem,
    macros: Dict<string, string>,
    letters: seq<string>,
    phClasses: seq<string>)

  /** `b` has the macros, letters and phoneme classes of `a`. */
  predicate SameTables(a: Definition, b: Definition) {
    a.macros == b.macros && a.letters == b.letters && a.phClasses == b.phClasses
  }

  /** A macro key: a backslash and then a name that starts with `$`. */
  predicate MacroKey(k: string) {
    |k| >= 2 && k[0] == '\\' && k[1] == '$'
  }

  /** What every step of the interpreter keeps. */
  ghost predicate Good(def: Definition) {
    Consistent(def.ss) && DistinctKeys(def.macros) &&
    forall i :: 0 <= i < |def.macros| ==> MacroKey(def.macros[i].0)
  }

  /** `PhonologyDefinition(soundsys, fname)` before `parse()`. */
  function NewDefinition(ss: SoundSystem): (def: Definition)
    requires Consistent(ss)
    ensures Good(def) && def.ss == ss
  {
    Definition(ss, [], [], [])
  }

  /** `readline()` on the `k`-th call. */
  function ReadLine(lines: seq<string>, k: nat): (line: string)
    ensures k >= |lines| ==> line == []
  {
    if k < |lines| then lines[k] else []
  }

  /** A line with its comment removed (`re.sub(r'#.*', '', line)`) and then
      stripped. */
  function Clean(line: string): (c: string)
    ensures '#' !in c
    ensures c == [] || (!IsSpace(c[0]) && !IsSpace(c[|c| - 1]))
  {
    Strip(StripComments(line))
  }

  /* ---------------------------------------------------------------- */
  /* `with:`                                                           */
  /* ---------------------------------------------------------------- */

  /** The four option names `parse_option` knows. */
  predicate KnownOption(o: string) {
    o == "std-ipa-features" || o == "std-digraph-features" ||
    o == "std-assimilations" || o == "coronal-metathesis"
  }

  /** The feature table the last table option in `os` loads, if any. */
  function LastTable(os: seq<string>): Option<seq<Phone>> {
    if os == [] then None
    else if os[|os| - 1] == "std-ipa-features" then Some(Column(DATA, true))
    else if os[|os| - 1] == "std-digraph-features" then Some(Column(DATA, false))
    else LastTable(os[..|os| - 1])
  }

  /** `os[i]` is the first option `parse_option` does not know. */
  predicate FirstUnknown(os: seq<string>, i: nat) {
    i < |os| && !KnownOption(os[i]) && forall j :: 0 <= j < i ==> KnownOption(os[j])
  }

  /** The loop of `parse_option` over the option tokens. */
  function Options(ss: SoundSystem, os: seq<string>): (r: Result<SoundSystem>)
    ensures r.Ok? <==> forall i :: 0 <= i < |os| ==> KnownOption(os[i])
    // the error names the first unknown option
    ensures r.Err? ==> exists i: nat :: FirstUnknown(os, i) && r.error == UnknownOption(os[i])
    ensures r.Ok? ==> (r.value.useAssim <==> ss.useAssim || "std-assimilations" in os)
    ensures r.Ok? ==> (r.value.useCoronalMetathesis <==> ss.useCoronalMetathesis || "coronal-metathesis" in os)
    ensures r.Ok? ==> r.value.features == (if LastTable(os).Some? then LastTable(os) else ss.features)
    ensures r.Ok? ==> r.value.(useAssim := ss.useAssim, useCoronalMetathesis := ss.useCoronalMetathesis,
      features := ss.features) == ss
  {
    if os == [] then Ok(ss)
    else
      var front := os[..|os| - 1];
      var o := os[|os| - 1];
      assert os == front + [o];
      match Options(ss, front)
      case Err(e) =>
        FirstUnknownInFront(os);
        Err(e)
      case Ok(s) =>
        if o == "std-ipa-features" then Ok(s.(features := Some(Column(DATA, true))))
        else if o == "std-digraph-features" then Ok(s.(features := Some(Column(DATA, false))))
        else if o == "std-assimilations" then Ok(s.(useAssim := true))
        else if o == "coronal-metathesis" then Ok(s.(useCoronalMetathesis := true))
        else
          assert FirstUnknown(os, |os| - 1);
          Err(UnknownOption(o))
  }

  /** The first unknown option of a prefix is the first of the whole. */
  lemma FirstUnknownInFront(os: seq<string>)
    requires os != []
    ensures forall i: nat :: FirstUnknown(os[..|os| - 1], i) ==> FirstUnknown(os, i) && os[i] == os[..|os| - 1][i]
  {
  }

  /** `parse_option(line)`. */
  function ParseOption(def: Definition, rest: string): (r: Result<Definition>)
    ensures r.Ok? <==> forall i :: 0 <= i < |Words(rest)| ==> KnownOption(Words(rest)[i])
    ensures r.Err? ==> r.error.UnknownOption?
    ensures r.Ok? ==> SameTables(def, r.value)
    ensures r.Ok? ==> (r.value.ss.useAssim <==> def.ss.useAssim || "std-assimilations" in Words(rest))
    ensures r.Ok? ==> (r.value.ss.useCoronalMetathesis <==>
      def.ss.useCoronalMetathesis || "coronal-metathesis" in Words(rest))
    // the error names the first unknown option
    ensures r.Err? ==> exists i: nat :: FirstUnknown(Words(rest), i) && r.error == UnknownOption(Words(rest)[i])
    // the last table option loads its table; nothing else in the sound system changes
    ensures r.Ok? ==>
      r.value.ss.features == (if LastTable(Words(rest)).Some? then LastTable(Words(rest)) else def.ss.features)
    ensures r.Ok? ==> r.value.ss.(useAssim := def.ss.useAssim, useCoronalMetathesis := def.ss.useCoronalMetathesis,
      features := def.ss.features) == def.ss
  {
    match Options(def.ss, Words(rest))
    case Err(e) => Err(e)
    case Ok(s) => Ok(Definition(s, def.macros, def.letters, def.phClasses))
  }

  /** The table options load exactly what `initialize` loads. */
  lemma TableOptions()
    ensures Initialize("ipa") == Ok(Column(DATA, true))
    ensures Initialize("digraph") == Ok(Column(DATA, false))
  {
  }

  /* ---------------------------------------------------------------- */
  /* `filter:` and `reject:`                                           */
  /* ---------------------------------------------------------------- */

  /** The filter one non-blank `pre>post` segment adds (through
      `add_filter`, which strips both sides, and the sound system's, which
      stores `!` as the empty string). */
  function SegmentFilter(seg: string): (r: Result<Filter>)
    ensures r.Ok? <==> |SplitOn(Strip(seg), '>')| == 2
    ensures r.Err? ==> r.error.ValueError?
    ensures r.Ok? ==> '>' !in r.value.0 && '>' !in r.value.1 && r.value.1 != "!"
    ensures r.Ok? ==> Trimmed(r.value.0) && Trimmed(r.value.1)
  {
    var parts := SplitOn(Strip(seg), '>');
    if |parts| < 2 then Err(ValueError("not enough values to unpack"))
    else if |parts| > 2 then Err(ValueError("too many values to unpack"))
    else Ok(SidesFilter(parts[0], parts[1]))
  }

  /** The filter for the two sides of a `>`: both stripped, with `!` after
      it stored as empty. */
  function SidesFilter(pre: string, post: string): (f: Filter)
    requires '>' !in pre && '>' !in post
    ensures '>' !in f.0 && '>' !in f.1 && f.1 != "!"
    ensures Trimmed(f.0) && Trimmed(f.1)
  {
    StripKeepsOut(pre, '>');
    StripKeepsOut(post, '>');
    var p := Strip(post);
    (Strip(pre), if p == "!" then "" else p)
  }

  /** Neither end of `s` is whitespace. */
  predicate Trimmed(s: string) {
    s == [] || (!IsSpace(s[0]) && !IsSpace(s[|s| - 1]))
  }

  predicate Blank(seg: string) {
    Strip(seg) == []
  }

  /** `b` differs from `a` at most in its filters. */
  predicate OnlyFilters(a: SoundSystem, b: SoundSystem) {
    a.phonemeset == b.phonemeset && a.ruleset == b.ruleset && a.randpercent == b.randpercent &&
    a.useAssim == b.useAssim && a.useCoronalMetathesis == b.useCoronalMetathesis &&
    a.sorter == b.sorter && a.features == b.features
  }

  /** A segment `parse_filter` accepts: blank, or one `>` once stripped. */
  predicate WellFormed(seg: string) {
    Blank(seg) || SegmentFilter(seg).Ok?
  }

  /** The filters the segments add, in order; blank segments add none. */
  function SegmentFilters(segs: seq<string>): seq<Filter> {
    if segs == [] then []
    else
      var f := SegmentFilter(segs[0]);
      (if Blank(segs[0]) || f.Err? then [] else [f.value]) + SegmentFilters(segs[1..])
  }

  /** The loop of `parse_filter` over the `;`-segments. */
  function Segments(ss: SoundSystem, segs: seq<string>): (r: Result<SoundSystem>)
    ensures r.Ok? ==> r.value.filters == ss.filters + SegmentFilters(segs)
    ensures r.Ok? ==> OnlyFilters(ss, r.value)
    ensures r.Err? ==> r.error.ValueError?
    decreases |segs|
  {
    if segs == [] then Ok(ss)
    else if Blank(segs[0]) then
      assert SegmentFilters(segs) == SegmentFilters(segs[1..]);
      Segments(ss, segs[1..])
    else
      match SegmentFilter(segs[0])
      case Err(e) => Err(e)
      case Ok(f) =>
        assert SegmentFilters(segs) == [f] + SegmentFilters(segs[1..]);
        AppendAssoc(ss.filters, [f], SegmentFilters(segs[1..]));
        Segments(WithFilter(ss, f), segs[1..])
  }

  lemma AppendAssoc(a: seq<Filter>, b: seq<Filter>, c: seq<Filter>)
    ensures a + b + c == a + (b + c)
  {
  }

  /** The sound system with one more filter. */
  function WithFilter(ss: SoundSystem, f: Filter): (r: SoundSystem)
    ensures r.filters == ss.filters + [f] && OnlyFilters(ss, r)
  {
    ss.(filters := ss.filters + [f])
  }

  /** `parse_filter` fails exactly when some segment is neither blank nor a
      single `pre>post`. */
  lemma {:induction false} SegmentsOk(ss: SoundSystem, segs: seq<string>)
    decreases |segs|
    ensures Segments(ss, segs).Ok? <==> AllWellFormed(segs)
  {
    if segs != [] {
      var tail := segs[1..];
      AllWellFormedCons(segs);
      if Blank(segs[0]) {
        SegmentsOk(ss, tail);
        assert Segments(ss, segs) == Segments(ss, tail);
      } else if SegmentFilter(segs[0]).Ok? {
        var f := SegmentFilter(segs[0]).value;
        SegmentsOk(WithFilter(ss, f), tail);
        assert Segments(ss, segs) == Segments(WithFilter(ss, f), tail);
      } else {
        assert Segments(ss, segs).Err?;
      }
    }
  }

  predicate AllWellFormed(segs: seq<string>) {
    forall i :: 0 <= i < |segs| ==> WellFormed(segs[i])
  }

  lemma AllWellFormedCons(segs: seq<string>)
    requires segs != []
    ensures AllWellFormed(segs) <==> WellFormed(segs[0]) && AllWellFormed(segs[1..])
  {
    assert forall i :: 1 <= i < |segs| ==> segs[i] == segs[1..][i - 1];
  }

  /** `parse_filter(line)`. */
  function ParseFilter(def: Definition, rest: string): (r: Result<Definition>)
    ensures r.Ok? <==> AllWellFormed(SplitOn(rest, ';'))
    ensures r.Err? ==> r.error.ValueError?
    ensures r.Ok? ==> r.value.ss.filters == def.ss.filters + SegmentFilters(SplitOn(rest, ';'))
    ensures r.Ok? ==> OnlyFilters(def.ss, r.value.ss) && SameTables(def, r.value)
  {
    var segs := SplitOn(rest, ';');
    SegmentsOk(def.ss, segs);
    match Segments(def.ss, segs)
    case Err(e) => Err(e)
    case Ok(s) => Ok(Definition(s, def.macros, def.letters, def.phClasses))
  }

  /** A filter written without spaces, `pre>post`. */
  predicate Writable(f: Filter) {
    f.0 != [] && f.1 != [] && f.1 != "!" && NoSpace(f.0) && NoSpace(f.1) &&
    ';' !in f.0 && ';' !in f.1 && '>' !in f.0 && '>' !in f.1
  }

  function FilterText(f: Filter): string {
    f.0 + ">" + f.1
  }

  /** The `filter:` text for a non-empty list of filters. */
  function FiltersText(fs: seq<Filter>): string
    requires |fs| >= 1
  {
    JoinWith(Map((f: Filter) => FilterText(f), fs), ';')
  }

  lemma SegmentRoundTrip(f: Filter)
    requires Writable(f)
    ensures !Blank(FilterText(f)) && SegmentFilter(FilterText(f)) == Ok(f)
  {
    var t := FilterText(f);
    assert NoSpace(t) by {
      forall i | 0 <= i < |t|
        ensures !IsSpace(t[i])
      {
        if i < |f.0| {
          assert t[i] == f.0[i];
        } else if i > |f.0| {
          assert t[i] == f.1[i - |f.0| - 1];
        }
      }
    }
    assert Strip(t) == t;
    var parts := [f.0, f.1];
    assert JoinWith(parts, '>') == t by {
      assert JoinWith(parts[1..], '>') == f.1;
    }
    SplitJoin(parts, '>');
  }

  /** Round trip: writing spaceless filters as `pre>post;pre>post…` and
      parsing that adds exactly those filters, in order. */
  lemma FilterRoundTrip(ss: SoundSystem, fs: seq<Filter>)
    requires |fs| >= 1 && forall i :: 0 <= i < |fs| ==> Writable(fs[i])
    ensures Segments(ss, SplitOn(FiltersText(fs), ';')).Ok?
    ensures Segments(ss, SplitOn(FiltersText(fs), ';')).value.filters == ss.filters + fs
  {
    var texts := Map((f: Filter) => FilterText(f), fs);
    assert forall i :: 0 <= i < |texts| ==> ';' !in texts[i] by {
      forall i | 0 <= i < |texts|
        ensures ';' !in texts[i]
      {
        assert texts[i] == fs[i].0 + ">" + fs[i].1;
      }
    }
    SplitJoin(texts, ';');
    forall i | 0 <= i < |fs|
      ensures !Blank(texts[i]) && SegmentFilter(texts[i]) == Ok(fs[i])
    {
      SegmentRoundTrip(fs[i]);
    }
    assert WrittenAs(fs, texts);
    SegmentFiltersOfText(fs, texts);
    SegmentsOk(ss, texts);
  }

  /** The written segments of spaceless filters read back as those
      filters, in order. */
  lemma {:induction false} SegmentFiltersOfText(fs: seq<Filter>, texts: seq<string>)
    requires WrittenAs(fs, texts)
    ensures SegmentFilters(texts) == fs
  {
    if fs != [] {
      WrittenAsTail(fs, texts);
      SegmentFiltersOfText(fs[1..], texts[1..]);
      FirstWritten(fs, texts);
      HeadTail(fs);
    }
  }

  /** `texts` are the spaceless filters `fs` written out one by one. */
  predicate WrittenAs(fs: seq<Filter>, texts: seq<string>) {
    |texts| == |fs| && forall i :: 0 <= i < |fs| ==> Writable(fs[i]) && texts[i] == FilterText(fs[i])
  }

  lemma WrittenAsTail(fs: seq<Filter>, texts: seq<string>)
    requires fs != [] && WrittenAs(fs, texts)
    ensures WrittenAs(fs[1..], texts[1..])
  {
    assert forall i :: 0 <= i < |fs| - 1 ==> fs[1..][i] == fs[i + 1] && texts[1..][i] == texts[i + 1];
  }

  lemma FirstWritten(fs: seq<Filter>, texts: seq<string>)
    requires fs != [] && WrittenAs(fs, texts)
    ensures SegmentFilters(texts) == [fs[0]] + SegmentFilters(texts[1..])
  {
    SegmentRoundTrip(fs[0]);
    SegmentFiltersCons(texts, fs[0]);
  }

  lemma HeadTail<T>(s: seq<T>)
    requires s != []
    ensures s == [s[0]] + s[1..]
  {
  }

  lemma SegmentFiltersCons(texts: seq<string>, f: Filter)
    requires texts != [] && !Blank(texts[0]) && SegmentFilter(texts[0]) == Ok(f)
    ensures SegmentFilters(texts) == [f] + SegmentFilters(texts[1..])
  {
  }

  /** The filters `reject:` adds for its tokens. */
  function RejectFilters(ts: seq<string>): (fs: seq<Filter>)
    ensures |fs| == |ts| && forall i :: 0 <= i < |ts| ==> fs[i] == (ts[i], REJECT)
  {
    if ts == [] then [] else [(ts[0], REJECT)] + RejectFilters(ts[1..])
  }

  /** `parse_reject(line)`: one `(token, "REJECT")` filter per token. */
  function ParseReject(def: Definition, rest: string): (r: Definition)
    ensures r.ss.filters == def.ss.filters + RejectFilters(Words(rest))
    ensures r.(ss := def.ss) == def && r.ss.(filters := def.ss.filters) == def.ss
  {
    def.(ss := def.ss.(filters := def.ss.filters + RejectFilters(Words(rest))))
  }

  /** A word that contains any of the rejected tokens is rejected by the
      filters `reject:` adds. */
  lemma {:induction false} RejectsReject(ts: seq<string>, w: string, i: nat)
    requires i < |ts| && forall j :: 0 <= j < |ts| ==> ts[j] != []
    requires Contains(w, ts[i])
    ensures RunFilters(RejectFilters(ts), w) == Rejected
  {
    var fs := RejectFilters(ts);
    var w' := ReplaceAll(w, ts[0], REJECT);
    if Contains(w, ts[0]) {
      ReplacePresent(w, ts[0], REJECT);
    } else {
      ReplaceAbsent(w, ts[0], REJECT);
      assert i > 0;
      if !Contains(w', REJECT) {
        assert fs[1..] == RejectFilters(ts[1..]);
        RejectsReject(ts[1..], w, i - 1);
      }
    }
  }

  /* ---------------------------------------------------------------- */
  /* `letters:`, `random-rate:`, `words:` and macros                   */
  /* ---------------------------------------------------------------- */

  /** `parse_letters(line)`: the letters for the sanity check, and the sort
      order. */
  function ParseLetters(def: Definition, rest: string): (r: Definition)
    ensures r.letters == Words(rest) && r.ss.sorter == Some(Sorter(rest))
    ensures Graphs(r.ss.sorter.value) == r.letters
  {
    def.(letters := Words(rest), ss := def.ss.(sorter := Some(Sorter(rest))))
  }

  /** `parse_random_rate(line)`: `int(line)` becomes the rate. */
  function ParseRandomRate(def: Definition, rest: string): (r: Result<Definition>)
    ensures r.Ok? <==> Numbers.ParseInt(rest).Ok?
    ensures r.Ok? ==> r.value.ss.randpercent == Numbers.ParseInt(rest).value
    ensures r.Ok? ==> r.value == def.(ss := def.ss.(randpercent := r.value.ss.randpercent))
  {
    var n :- Numbers.ParseInt(rest);
    Ok(def.(ss := def.ss.(randpercent := n)))
  }

  /** `random-rate:` reads back the rate written in decimal. */
  lemma RandomRateRoundTrip(def: Definition, n: nat)
    ensures ParseRandomRate(def, Numbers.NatToString(n)) == Ok(def.(ss := def.ss.(randpercent := n)))
  {
    Numbers.ParseIntRoundTrip(n);
  }

  /** `expand_macros(word)`: each macro in turn replaces every occurrence
      of its name (the key without its backslash) by its value. */
  function ExpandMacros(macros: Dict<string, string>, word: string): (r: string)
    requires forall i :: 0 <= i < |macros| ==> MacroKey(macros[i].0)
    ensures '$' !in word ==> r == word
  {
    if macros == [] then word
    else
      assert MacroKey(macros[0].0);
      var name := macros[0].0[1..];
      assert '$' !in word ==> !Contains(word, name) by {
        if '$' !in word && Contains(word, name) {
          ContainsChar(word, name, 0);
        }
      }
      assert '$' !in word ==> ReplaceAll(word, name, macros[0].1) == word by {
        if '$' !in word {
          ReplaceAbsent(word, name, macros[0].1);
        }
      }
      ExpandMacros(macros[1..], ReplaceAll(word, name, macros[0].1))
  }

  /** A character of a pattern that occurs is a character of the text. */
  lemma {:induction false} ContainsChar(s: string, p: string, i: nat)
    requires i < |p| && Contains(s, p)
    ensures p[i] in s
    decreases |s|
  {
    if StartsWith(s, p) {
      assert s[i] == p[i];
    } else {
      ContainsChar(s[1..], p, i);
    }
  }

  /** A macro used on its own expands to its value. */
  lemma MacroExpands(name: string, value: string)
    requires |name| >= 1 && name[0] == '$'
    ensures ExpandMacros([("\\" + name, value)], name) == value
  {
    var key := "\\" + name;
    assert key[1..] == name;
    assert StartsWith(name, name);
    assert name[|name|..] == [];
    assert ReplaceAll(name, name, value) == value + ReplaceAll([], name, value);
    assert ExpandMacros([(key, value)], name) == ExpandMacros([], ReplaceAll(name, name, value));
  }

  /** The rules of a `words:` line stored in order, the `i`-th token with
      `weight(i)` (`weight` stands for the Zipf weights
      `10 / (i + 1) ** 0.9`): `add_rule` on each token. */
  function PutRules(d: Dict<string, real>, ws: seq<string>, weight: nat -> real)
    : (r: Dict<string, real>)
    requires DistinctKeys(d)
    ensures DistinctKeys(r)
  {
    if ws == [] then d
    else Put(PutRules(d, ws[..|ws| - 1], weight), ws[|ws| - 1], weight(|ws| - 1))
  }

  function AddRules(ss: SoundSystem, ws: seq<string>, weight: nat -> real): (r: SoundSystem)
    requires Consistent(ss)
    ensures Consistent(r)
    ensures r == ss.(ruleset := PutRules(ss.ruleset, ws, weight))
  {
    ss.(ruleset := PutRules(ss.ruleset, ws, weight))
  }

  /** A `words:` line leaves every rule it does not name as it was. */
  lemma {:induction false} PutRulesOther(d: Dict<string, real>, ws: seq<string>, weight: nat -> real, k: string)
    requires DistinctKeys(d) && k !in ws
    ensures Get(PutRules(d, ws, weight), k) == Get(d, k)
  {
    if ws != [] {
      var init := ws[..|ws| - 1];
      assert k != ws[|ws| - 1] && k !in init;
      GetOtherAfterPut(PutRules(d, init, weight), ws[|ws| - 1], weight(|ws| - 1), k);
      PutRulesOther(d, init, weight, k);
    }
  }

  /** After a `words:` line every token is a rule, weighted by its last
      position on the line. */
  lemma {:induction false} PutRulesLast(d: Dict<string, real>, ws: seq<string>, weight: nat -> real, i: nat)
    requires DistinctKeys(d) && i < |ws| && ws[i] !in ws[i + 1..]
    ensures Get(PutRules(d, ws, weight), ws[i]) == Some(weight(i))
  {
    var init := ws[..|ws| - 1];
    var last := ws[|ws| - 1];
    if i == |ws| - 1 {
      GetAfterPut(PutRules(d, init, weight), last, weight(i));
    } else {
      assert last in ws[i + 1..];
      GetOtherAfterPut(PutRules(d, init, weight), last, weight(|ws| - 1), ws[i]);
      assert init[i] == ws[i] && init[i + 1..] == ws[i + 1..|ws| - 1];
      PutRulesLast(d, init, weight, i);
    }
  }

  /** `parse_words(line)`: macros expanded, then one rule per token. */
  function ParseWords(def: Definition, rest: string, weight: nat -> real): (r: Definition)
    requires Good(def)
    ensures Good(r)
    ensures r == def.(ss := def.ss.(ruleset := r.ss.ruleset))
  {
    def.(ss := AddRules(def.ss, Words(ExpandMacros(def.macros, rest)), weight))
  }

  /* ---------------------------------------------------------------- */
  /* Classes and macros: `name = values`                               */
  /* ---------------------------------------------------------------- */

  /** `parse_class(line)`: the line must hold exactly one `=`. A name
      starting with `$` defines a macro; any other name defines a class
      (its tokens are noted for the sanity check). */
  function ParseClass(def: Definition, line: string, natural: string -> string): (r: Result<Definition>)
    requires Good(def)
    ensures r.Ok? ==> Good(r.value) && r.value.letters == def.letters
    ensures CountChar(line, '=') != 1 ==> r.Err? && r.error.ValueError?
    ensures CountChar(line, '=') == 1 ==> var parts := SplitOn(line, '=');
      var name := Strip(parts[0]);
      var values := Strip(parts[1]);
      // `sclass[0]` of an empty name
      (name == [] ==> r == Err(IndexError("string index out of range"))) &&
      (name != [] && name[0] == '$' ==> r.Ok? && MacroDefined(def, r.value, name, values)) &&
      (name != [] && name[0] != '$' ==>
         (r.Ok? <==> RuleToDict(if ':' in values then values else natural(values)).Ok?) &&
         (r.Ok? ==> ClassDefined(def, r.value, name, values)))
  {
    var parts := SplitOn(line, '=');
    if |parts| < 2 then Err(ValueError("not enough values to unpack"))
    else if |parts| > 2 then Err(ValueError("too many values to unpack"))
    else
      var name := Strip(parts[0]);
      var values := Strip(parts[1]);
      if name == [] then Err(IndexError("string index out of range"))
      else if name[0] == '$' then Ok(DefineMacro(def, name, values))
      else DefineClass(def, name, values, natural)
  }

  /** Round trip: a spaceless `name=values` line defines the macro or the
      class `name` with those values. */
  lemma ClassLineRoundTrip(def: Definition, name: string, values: string, natural: string -> string)
    requires Good(def) && name != [] && NoSpace(name) && NoSpace(values)
    requires '=' !in name && '=' !in values
    ensures var r := ParseClass(def, name + "=" + values, natural);
      (name[0] == '$' ==> r.Ok? && MacroDefined(def, r.value, name, values)) &&
      (name[0] != '$' && ':' in values ==>
         (r.Ok? <==> RuleToDict(values).Ok?) && (r.Ok? ==> ClassDefined(def, r.value, name, values)))
  {
    var parts := [name, values];
    JoinWithTwo(parts, '=');
    SplitJoin(parts, '=');
    assert name + "=" + values == JoinWith(parts, '=');
  }

  /** `b` is `a` with the macro `name` set to `values`: every other macro
      and everything else kept. */
  ghost predicate MacroDefined(a: Definition, b: Definition, name: string, values: string) {
    b == a.(macros := b.macros) &&
    Get(b.macros, "\\" + name) == Some(values) &&
    forall k :: k != "\\" + name ==> Get(b.macros, k) == Get(a.macros, k)
  }

  /** `b` is `a` after `add_ph_unit(name, values)`, with the class's
      tokens noted: the class is defined (by the parsed weights when they
      are written out), every other class and the rest of the sound
      system kept, and the macros and letters unchanged. */
  ghost predicate ClassDefined(a: Definition, b: Definition, name: string, values: string) {
    b.macros == a.macros && b.letters == a.letters &&
    b.phClasses == a.phClasses + Words(values) &&
    name in Keys(b.ss.phonemeset) &&
    (':' in values ==>
       RuleToDict(values).Ok? &&
       Get(b.ss.phonemeset, name) == Some(Distribution.MakeSelector(RuleToDict(values).value))) &&
    (forall k :: k != name ==> Get(b.ss.phonemeset, k) == Get(a.ss.phonemeset, k)) &&
    b.ss.(phonemeset := a.ss.phonemeset) == a.ss
  }

  /** The `$` branch of `parse_class`. */
  function DefineMacro(def: Definition, name: string, values: string): (r: Definition)
    requires Good(def) && name != [] && name[0] == '$'
    ensures Good(r) && MacroDefined(def, r, name, values)
  {
    var key := "\\" + name;
    PutFrame(def.macros, key, values);
    PutMacroKeys(def.macros, key, values);
    def.(macros := Put(def.macros, key, values))
  }

  /** The class branch of `parse_class`. */
  function DefineClass(def: Definition, name: string, values: string, natural: string -> string)
    : (r: Result<Definition>)
    requires Good(def)
    ensures r.Ok? <==> RuleToDict(if ':' in values then values else natural(values)).Ok?
    ensures r.Ok? ==> Good(r.value) && ClassDefined(def, r.value, name, values)
  {
    var s :- AddPhUnit(def.ss, name, values, natural);
    Ok(def.(ss := s, phClasses := def.phClasses + Words(values)))
  }

  /** Storing a macro under a macro key keeps every key a macro key. */
  lemma PutMacroKeys(ms: Dict<string, string>, key: string, values: string)
    requires DistinctKeys(ms) && MacroKey(key)
    requires forall i :: 0 <= i < |ms| ==> MacroKey(ms[i].0)
    ensures forall i :: 0 <= i < |Put(ms, key, values)| ==> MacroKey(Put(ms, key, values)[i].0)
  {
    var r := Put(ms, key, values);
    forall i | 0 <= i < |r|
      ensures MacroKey(r[i].0)
    {
      if key !in Keys(ms) && i == |ms| {
      } else if r[i].0 != key {
        assert r[i] == ms[i];
      }
    }
  }

  /* ---------------------------------------------------------------- */
  /* Cluster fields: `% c2 c2 …` and rows `c1 cell cell …`             */
  /* ---------------------------------------------------------------- */

  /** The filter one cell adds: none for `+`, a rejection for `-`, and
      otherwise the cell as the replacement (through `add_filter`, so `!`
      deletes). */
  function CellFilter(c1: string, c2: string, cell: string): seq<Filter> {
    if cell == "+" then []
    else if cell == "-" then [(c1 + c2, REJECT)]
    else
      var post := Strip(cell);
      [(Strip(c1 + c2), if post == "!" then "" else post)]
  }

  /** The filters of one row, in column order. */
  function RowFilters(c1: string, c2s: seq<string>, cells: seq<string>): seq<Filter>
    requires |cells| == |c2s|
  {
    if cells == [] then []
    else CellFilter(c1, c2s[0], cells[0]) + RowFilters(c1, c2s[1..], cells[1..])
  }

  /** The cells of a row added in column order. */
  function AddCells(ss: SoundSystem, c1: string, c2s: seq<string>, cells: seq<string>): (r: SoundSystem)
    requires |cells| == |c2s|
    ensures r.filters == ss.filters + RowFilters(c1, c2s, cells) && OnlyFilters(ss, r)
    decreases |cells|
  {
    if cells == [] then ss
    else
      var s1 := AddCell(ss, c1, c2s[0], cells[0]);
      var r := AddCells(s1, c1, c2s[1..], cells[1..]);
      AppendAssoc(ss.filters, CellFilter(c1, c2s[0], cells[0]), RowFilters(c1, c2s[1..], cells[1..]));
      r
  }

  /** One cell: `+` adds nothing, `-` rejects the cluster, anything else
      replaces it. */
  function AddCell(ss: SoundSystem, c1: string, c2: string, c: string): (r: SoundSystem)
    ensures r.filters == ss.filters + CellFilter(c1, c2, c) && OnlyFilters(ss, r)
  {
    if c == "+" then ss
    else if c == "-" then WithFilter(ss, (c1 + c2, REJECT))
    else AddFilter(ss, Strip(c1 + c2), Strip(c))
  }

  /** A row of spaceless names whose cells are all `-` rejects every word
      that contains one of its clusters. */
  lemma RejectRow(c1: string, c2s: seq<string>, cells: seq<string>, w: string, i: nat)
    requires |cells| == |c2s| && i < |c2s| && c1 != []
    requires forall j :: 0 <= j < |cells| ==> cells[j] == "-"
    requires Contains(w, c1 + c2s[i])
    ensures RunFilters(RowFilters(c1, c2s, cells), w) == Rejected
  {
    var clusters := seq(|c2s|, j requires 0 <= j < |c2s| => c1 + c2s[j]);
    AllRejects(c1, c2s, cells, clusters);
    RejectsReject(clusters, w, i);
  }

  lemma {:induction false} AllRejects(c1: string, c2s: seq<string>, cells: seq<string>, clusters: seq<string>)
    requires |cells| == |c2s| == |clusters|
    requires forall j :: 0 <= j < |cells| ==> cells[j] == "-" && clusters[j] == c1 + c2s[j]
    ensures RowFilters(c1, c2s, cells) == RejectFilters(clusters)
  {
    if cells != [] {
      AllRejects(c1, c2s[1..], cells[1..], clusters[1..]);
    }
  }

  /** A line that ends a cluster field: the end of the file, or a line
      that is exactly a newline. */
  predicate EndsField(line: string) {
    line == [] || line == "\n"
  }

  /** One line inside a cluster field: a blank or comment line changes
      nothing, a row of the right width adds its cells' filters, and a row
      of another width is a ParseError. */
  function ClusterRow(ss: SoundSystem, c2s: seq<string>, line: string): (r: Result<SoundSystem>)
    ensures r.Ok? ==> OnlyFilters(ss, r.value) && r.value.filters == ss.filters + LineFilters(c2s, line)
    ensures r.Err? ==> r.error.ParseError?
    ensures Clean(line) == [] ==> r == Ok(ss)
    ensures Clean(line) != [] ==> (r.Ok? <==> |Words(Clean(line))| == |c2s| + 1)
    ensures r.Ok? <==> FitsRow(c2s, line)
  {
    WordCountIsWords(Clean(line));
    var c := Clean(line);
    if c == [] then Ok(ss)
    else
      var row := Words(c);
      assert row != [] by {
        WordsOfClean(c);
      }
      var cells := row[1..];
      if |cells| == |c2s| then Ok(AddCells(ss, row[0], c2s, cells))
      else if |cells| > |c2s| then Err(ParseError("Cluster field row too long: " + c))
      else Err(ParseError("Cluster field row too short: " + c))
  }

  /** The filters a row line adds: its cells', in column order, when it
      has a label and one cell per column; none otherwise (a blank line has
      no tokens). */
  function LineFilters(c2s: seq<string>, line: string): seq<Filter> {
    var row := Words(Clean(line));
    if |row| == |c2s| + 1 then RowFilters(row[0], c2s, row[1..]) else []
  }

  /** The filters the row lines from `k` up to (not including) `e` add, in
      order. */
  function FieldFilters(c2s: seq<string>, lines: seq<string>, k: nat, e: nat): seq<Filter>
    decreases e - k
  {
    if e <= k then [] else LineFilters(c2s, ReadLine(lines, k)) + FieldFilters(c2s, lines, k + 1, e)
  }

  /** The rows of a cluster field with column names `c2s`, from line `k`
      on. It returns the index of the line that ended the field. */
  function ClusterRows(ss: SoundSystem, c2s: seq<string>, lines: seq<string>, k: nat)
    : (r: Result<(SoundSystem, nat)>)
    requires k <= |lines|
    ensures r.Ok? ==> k <= r.value.1 <= |lines| && EndsField(ReadLine(lines, r.value.1))
    ensures r.Ok? ==> NoEndBetween(lines, k, r.value.1)
    // every row before the end line is blank or has one cell per column
    ensures r.Ok? ==> RowsFit(c2s, lines, k, r.value.1)
    ensures r.Ok? ==> OnlyFilters(ss, r.value.0)
    // the rows' filters are appended in line order
    ensures r.Ok? ==> r.value.0.filters == ss.filters + FieldFilters(c2s, lines, k, r.value.1)
    ensures r.Err? ==> r.error.ParseError?
    ensures !EndsField(ReadLine(lines, k)) && ClusterRow(ss, c2s, ReadLine(lines, k)).Err? ==> r.Err?
    decreases |lines| - k
  {
    var line := ReadLine(lines, k);
    if EndsField(line) then Ok((ss, k))
    else
      match ClusterRow(ss, c2s, line)
      case Err(e) => Err(e)
      case Ok(s1) =>
        var r := ClusterRows(s1, c2s, lines, k + 1);
        if r.Err? then r
        else
          NoEndExtend(lines, k, r.value.1);
          RowsFitExtend(c2s, lines, k, r.value.1);
          FieldFiltersStep(ss.filters, c2s, lines, k, r.value.1);
          r
  }

  lemma FieldFiltersStep(fs: seq<Filter>, c2s: seq<string>, lines: seq<string>, k: nat, e: nat)
    requires k < e
    ensures fs + LineFilters(c2s, ReadLine(lines, k)) + FieldFilters(c2s, lines, k + 1, e) ==
      fs + FieldFilters(c2s, lines, k, e)
  {
    AppendAssoc(fs, LineFilters(c2s, ReadLine(lines, k)), FieldFilters(c2s, lines, k + 1, e));
  }

  /** Each line from `k` up to (not including) `e` is blank once cleaned
      or holds a label and one cell per column. */
  predicate RowsFit(c2s: seq<string>, lines: seq<string>, k: nat, e: nat) {
    forall j :: k <= j < e ==> FitsRow(c2s, ReadLine(lines, j))
  }

  /** A line is blank once cleaned, or its tokens are a label and one cell
      per column (`WordCountIsWords`: the count is `len(line.split())`). */
  predicate FitsRow(c2s: seq<string>, line: string) {
    Clean(line) == [] || WordCount(Clean(line)) == |c2s| + 1
  }

  lemma RowsFitExtend(c2s: seq<string>, lines: seq<string>, k: nat, e: nat)
    requires FitsRow(c2s, ReadLine(lines, k)) && RowsFit(c2s, lines, k + 1, e)
    ensures RowsFit(c2s, lines, k, e)
  {
    forall j | k <= j < e
      ensures FitsRow(c2s, ReadLine(lines, j))
    {
      if j != k {
        assert k + 1 <= j < e;
      }
    }
  }

  /** No line from `k` up to (not including) `e` ends a cluster field. */
  predicate NoEndBetween(lines: seq<string>, k: nat, e: nat) {
    forall j :: k <= j < e ==> !EndsField(ReadLine(lines, j))
  }

  lemma NoEndExtend(lines: seq<string>, k: nat, e: nat)
    requires !EndsField(ReadLine(lines, k)) && NoEndBetween(lines, k + 1, e)
    ensures NoEndBetween(lines, k, e)
  {
  }

  /** The converse: a row of the wrong width before the field's first end
      line makes the field fail. */
  lemma ClusterRowsBadRow(ss: SoundSystem, c2s: seq<string>, lines: seq<string>, k: nat, j: nat)
    requires k <= j < |lines| && NoEndBetween(lines, k, j + 1) && !FitsRow(c2s, lines[j])
    ensures ClusterRows(ss, c2s, lines, k).Err?
  {
    assert ReadLine(lines, j) == lines[j];
  }

  /** A stripped, non-empty line has at least one token. */
  lemma WordsOfClean(c: string)
    requires c != [] && !IsSpace(c[0])
    ensures Words(c) != []
  {
  }

  /** The column names of a cluster-field header: its tokens after the
      first (`line.split()[1:]`). */
  function ColumnNames(header: string): seq<string> {
    var ws := Words(header);
    if ws == [] then [] else ws[1..]
  }

  /** `parse_clusterfield(line, fh)` with the header already read (line
      `k`): the rows follow it. */
  function ParseClusterField(def: Definition, header: string, lines: seq<string>, k: nat)
    : (r: Result<(Definition, nat)>)
    requires k < |lines|
    ensures r.Ok? ==> k < r.value.1 <= |lines| && EndsField(ReadLine(lines, r.value.1))
    // the field ends at the first end line after the header
    ensures r.Ok? ==> NoEndBetween(lines, k + 1, r.value.1)
    // and every row in it has one cell per column
    ensures r.Ok? ==> RowsFit(ColumnNames(header), lines, k + 1, r.value.1)
    ensures r.Ok? ==> r.value.0 == def.(ss := r.value.0.ss)
    ensures r.Ok? ==> OnlyFilters(def.ss, r.value.0.ss)
    // the grid's cells become filters, row by row
    ensures r.Ok? ==> r.value.0.ss.filters == def.ss.filters + FieldFilters(ColumnNames(header), lines, k + 1, r.value.1)
    ensures r.Err? ==> r.error.ParseError?
  {
    var e :- ClusterRows(def.ss, ColumnNames(header), lines, k + 1);
    Ok((def.(ss := e.0), e.1))
  }

  /* ---------------------------------------------------------------- */
  /* Line dispatch: `parse`                                            */
  /* ---------------------------------------------------------------- */

  /** The kinds of non-blank line, in the order `parse` tests them. */
  datatype Directive =
    | WithLine | RandomRateLine | FilterLine | RejectLine | WordsLine | LettersLine
    | ClusterLine | ClassLine | BadLine

  /** The directive a cleaned, non-blank line holds: the first matching
      prefix, then a leading `%`, then an `=` anywhere. */
  function Classify(c: string): (k: Directive)
    requires c != []
    ensures k == BadLine <==>
      !StartsWith(c, "with:") && !StartsWith(c, "random-rate:") && !StartsWith(c, "filter:") &&
      !StartsWith(c, "reject:") && !StartsWith(c, "words:") && !StartsWith(c, "letters:") &&
      c[0] != '%' && '=' !in c
    ensures k == ClassLine ==> '=' in c && c[0] != '%'
    ensures k == ClusterLine ==> c[0] == '%'
    ensures StartsWith(c, "with:") <==> k == WithLine
    ensures k == RandomRateLine ==> StartsWith(c, "random-rate:")
    ensures k == FilterLine ==> StartsWith(c, "filter:")
    ensures k == RejectLine ==> StartsWith(c, "reject:")
    ensures k == WordsLine ==> StartsWith(c, "words:")
    ensures k == LettersLine ==> StartsWith(c, "letters:")
  {
    if StartsWith(c, "with:") then WithLine
    else if StartsWith(c, "random-rate:") then RandomRateLine
    else if StartsWith(c, "filter:") then FilterLine
    else if StartsWith(c, "reject:") then RejectLine
    else if StartsWith(c, "words:") then WordsLine
    else if StartsWith(c, "letters:") then LettersLine
    else if c[0] == '%' then ClusterLine
    else if '=' in c then ClassLine
    else BadLine
  }

  /** One non-blank line (`c`, cleaned, read as line `k`). It returns the
      new state and the index of the last line it read. */
  function ParseLine(def: Definition, c: string, lines: seq<string>, k: nat,
                     natural: string -> string, weight: nat -> real)
    : (r: Result<(Definition, nat)>)
    requires Good(def) && c != [] && k < |lines|
    ensures r.Ok? ==> Good(r.value.0) && k <= r.value.1 <= |lines|
    ensures Classify(c) == BadLine ==> r == Err(ParseError(c))
    ensures Classify(c) != ClusterLine && r.Ok? ==> r.value.1 == k
  {
    match Classify(c)
    case WithLine => var d :- ParseOption(def, Strip(c[5..])); Ok((d, k))
    case RandomRateLine => var d :- ParseRandomRate(def, Strip(c[12..])); Ok((d, k))
    case FilterLine => var d :- ParseFilter(def, Strip(c[7..])); Ok((d, k))
    case RejectLine => Ok((ParseReject(def, Strip(c[7..])), k))
    case WordsLine => Ok((ParseWords(def, Strip(c[6..]), weight), k))
    case LettersLine => Ok((ParseLetters(def, Strip(c[8..])), k))
    case ClusterLine =>
      var e :- ParseClusterField(def, c, lines, k);
      Ok(e)
    case ClassLine => var d :- ParseClass(def, c, natural); Ok((d, k))
    case BadLine => Err(ParseError(c))
  }

  /** A `with:` line sets the options it names, and fails on the first
      unknown one. */
  lemma ParseLineWith(def: Definition, c: string, lines: seq<string>, k: nat,
                      natural: string -> string, weight: nat -> real)
    requires Good(def) && c != [] && k < |lines| && Classify(c) == WithLine
    ensures var r := ParseLine(def, c, lines, k, natural, weight);
      var os := Words(Strip(c[5..]));
      (r.Ok? <==> forall i :: 0 <= i < |os| ==> KnownOption(os[i])) &&
      (r.Err? ==> exists i: nat :: FirstUnknown(os, i) && r.error == UnknownOption(os[i])) &&
      (r.Ok? ==>
         SameTables(def, r.value.0) &&
         (r.value.0.ss.useAssim <==> def.ss.useAssim || "std-assimilations" in os) &&
         (r.value.0.ss.useCoronalMetathesis <==> def.ss.useCoronalMetathesis || "coronal-metathesis" in os) &&
         r.value.0.ss.features == (if LastTable(os).Some? then LastTable(os) else def.ss.features))
  {
  }

  /** A `random-rate:` line sets the rate `int()` reads, and nothing else. */
  lemma ParseLineRandomRate(def: Definition, c: string, lines: seq<string>, k: nat,
                            natural: string -> string, weight: nat -> real)
    requires Good(def) && c != [] && k < |lines| && Classify(c) == RandomRateLine
    ensures var r := ParseLine(def, c, lines, k, natural, weight);
      var n := Numbers.ParseInt(Strip(c[12..]));
      (r.Ok? <==> n.Ok?) && (r.Ok? ==> r.value.0 == def.(ss := def.ss.(randpercent := n.value)))
  {
  }

  /** A `filter:` line appends its segments' filters in order, and fails
      exactly on a malformed segment. */
  lemma ParseLineFilter(def: Definition, c: string, lines: seq<string>, k: nat,
                        natural: string -> string, weight: nat -> real)
    requires Good(def) && c != [] && k < |lines| && Classify(c) == FilterLine
    ensures var r := ParseLine(def, c, lines, k, natural, weight);
      var segs := SplitOn(Strip(c[7..]), ';');
      (r.Ok? <==> AllWellFormed(segs)) &&
      (r.Ok? ==>
         r.value.0.ss.filters == def.ss.filters + SegmentFilters(segs) &&
         OnlyFilters(def.ss, r.value.0.ss) && SameTables(def, r.value.0))
  {
  }

  /** A `reject:` line appends one rejecting filter per token, and nothing
      else. */
  lemma ParseLineReject(def: Definition, c: string, lines: seq<string>, k: nat,
                        natural: string -> string, weight: nat -> real)
    requires Good(def) && c != [] && k < |lines| && Classify(c) == RejectLine
    ensures ParseLine(def, c, lines, k, natural, weight) ==
      Ok((def.(ss := def.ss.(filters := def.ss.filters + RejectFilters(Words(Strip(c[7..]))))), k))
  {
  }

  /** A `words:` line stores its macro-expanded tokens as rules, and
      nothing else. */
  lemma ParseLineWords(def: Definition, c: string, lines: seq<string>, k: nat,
                       natural: string -> string, weight: nat -> real)
    requires Good(def) && c != [] && k < |lines| && Classify(c) == WordsLine
    ensures ParseLine(def, c, lines, k, natural, weight) ==
      Ok((def.(ss := def.ss.(ruleset := PutRules(def.ss.ruleset, Words(ExpandMacros(def.macros, Strip(c[6..]))), weight))), k))
  {
  }

  /** A `letters:` line sets the letters and the sort order. */
  lemma ParseLineLetters(def: Definition, c: string, lines: seq<string>, k: nat,
                         natural: string -> string, weight: nat -> real)
    requires Good(def) && c != [] && k < |lines| && Classify(c) == LettersLine
    ensures var r := ParseLine(def, c, lines, k, natural, weight);
      r.Ok? && r.value.0.letters == Words(Strip(c[8..])) && r.value.0.ss.sorter == Some(Sorter(Strip(c[8..])))
  {
  }

  /** A `%` line reads the cluster field below it up to the first end line,
      appending the grid's filters. */
  lemma ParseLineCluster(def: Definition, c: string, lines: seq<string>, k: nat,
                         natural: string -> string, weight: nat -> real)
    requires Good(def) && c != [] && k < |lines| && Classify(c) == ClusterLine
    ensures var r := ParseLine(def, c, lines, k, natural, weight);
      (r.Err? ==> r.error.ParseError?) &&
      (r.Ok? ==>
         NoEndBetween(lines, k + 1, r.value.1) && EndsField(ReadLine(lines, r.value.1)) &&
         RowsFit(ColumnNames(c), lines, k + 1, r.value.1) &&
         r.value.0 == def.(ss := r.value.0.ss) && OnlyFilters(def.ss, r.value.0.ss) &&
         r.value.0.ss.filters == def.ss.filters + FieldFilters(ColumnNames(c), lines, k + 1, r.value.1))
  {
  }

  /** Any other line with an `=` defines a macro or a class. */
  lemma ParseLineClass(def: Definition, c: string, lines: seq<string>, k: nat,
                       natural: string -> string, weight: nat -> real)
    requires Good(def) && c != [] && k < |lines| && Classify(c) == ClassLine
    ensures var r := ParseLine(def, c, lines, k, natural, weight);
      CountChar(c, '=') == 1 ==> var parts := SplitOn(c, '=');
        var name := Strip(parts[0]);
        var values := Strip(parts[1]);
        (name == [] ==> r.Err?) &&
        (name != [] && name[0] == '$' ==> r.Ok? && MacroDefined(def, r.value.0, name, values)) &&
        (name != [] && name[0] != '$' ==>
           (r.Ok? <==> RuleToDict(if ':' in values then values else natural(values)).Ok?) &&
           (r.Ok? ==> ClassDefined(def, r.value.0, name, values)))
  {
  }

  /** The loop of `parse` from line `k` on: comments are removed, blank
      lines skipped, and every other line is one directive (a cluster field
      also reads its rows). The first error ends the parse. */
  function ParseFrom(def: Definition, lines: seq<string>, k: nat,
                     natural: string -> string, weight: nat -> real)
    : (r: Result<Definition>)
    requires Good(def) && k <= |lines| + 1
    ensures r.Ok? ==> Good(r.value)
    decreases |lines| + 1 - k, 1
  {
    var line := ReadLine(lines, k);
    if line == [] then Ok(def)
    else
      var c := Clean(line);
      if c == [] then ParseFrom(def, lines, k + 1, natural, weight)
      else ParseRest(def, c, lines, k, natural, weight)
  }

  /** The non-blank line `k` (cleaned to `c`), then the lines after the
      last one it read. */
  function ParseRest(def: Definition, c: string, lines: seq<string>, k: nat,
                     natural: string -> string, weight: nat -> real)
    : (r: Result<Definition>)
    requires Good(def) && c != [] && k < |lines|
    ensures r.Ok? ==> Good(r.value)
    ensures ParseLine(def, c, lines, k, natural, weight).Err? ==>
      r == Err(ParseLine(def, c, lines, k, natural, weight).error)
    decreases |lines| + 1 - k, 0
  {
    match ParseLine(def, c, lines, k, natural, weight)
    case Err(e) => Err(e)
    case Ok(e) => ParseFrom(e.0, lines, e.1 + 1, natural, weight)
  }

  /** `PhonologyDefinition(soundsys, fname).parse()` over the file's lines. */
  function Parse(ss: SoundSystem, lines: seq<string>, natural: string -> string, weight: nat -> real)
    : (r: Result<Definition>)
    requires Consistent(ss)
    ensures r.Ok? ==> Good(r.value)
  {
    ParseFrom(NewDefinition(ss), lines, 0, natural, weight)
  }

  /** A file of blank and comment-only lines leaves the definition as it
      was. */
  lemma {:induction false} BlankLinesChangeNothing(def: Definition, lines: seq<string>, k: nat,
                                                   natural: string -> string, weight: nat -> real)
    requires Good(def) && k <= |lines| + 1
    requires AllBlank(lines, k)
    ensures ParseFrom(def, lines, k, natural, weight) == Ok(def)
    decreases |lines| + 1 - k
  {
    if k < |lines| && lines[k] != [] {
      BlankLineStep(def, lines, k, natural, weight);
      BlankLinesChangeNothing(def, lines, k + 1, natural, weight);
    } else {
      SkipBlankLine(def, lines, k, natural, weight);
    }
  }

  /** A blank, non-empty line at `k` is skipped, and the lines after it are blank too. */
  lemma BlankLineStep(def: Definition, lines: seq<string>, k: nat,
                      natural: string -> string, weight: nat -> real)
    requires Good(def) && k < |lines| && lines[k] != [] && AllBlank(lines, k)
    ensures AllBlank(lines, k + 1)
    ensures ParseFrom(def, lines, k, natural, weight) == ParseFrom(def, lines, k + 1, natural, weight)
  {
    BlankStep(lines, k);
    SkipBlankLine(def, lines, k, natural, weight);
  }

  /** Every line from `k` on is blank once its comment is removed. */
  predicate AllBlank(lines: seq<string>, k: nat) {
    forall j :: k <= j < |lines| ==> Clean(lines[j]) == []
  }

  lemma BlankStep(lines: seq<string>, k: nat)
    requires AllBlank(lines, k) && k < |lines|
    ensures Clean(ReadLine(lines, k)) == [] && AllBlank(lines, k + 1)
  {
  }

  /** One step of the parse loop over a blank line or the end of the file. */
  lemma SkipBlankLine(def: Definition, lines: seq<string>, k: nat,
                      natural: string -> string, weight: nat -> real)
    requires Good(def) && k <= |lines| + 1
    ensures ReadLine(lines, k) == [] ==> ParseFrom(def, lines, k, natural, weight) == Ok(def)
    ensures ReadLine(lines, k) != [] ==> k < |lines|
    ensures ReadLine(lines, k) != [] && Clean(ReadLine(lines, k)) == [] ==>
      ParseFrom(def, lines, k, natural, weight) == ParseFrom(def, lines, k + 1, natural, weight)
  {
  }

  /** The first line that is no directive ends the parse with that line as
      the error, whatever follows it. */
  lemma BadLineAborts(def: Definition, lines: seq<string>, k: nat,
                      natural: string -> string, weight: nat -> real)
    requires Good(def) && k < |lines|
    requires Clean(lines[k]) != [] && Classify(Clean(lines[k])) == BadLine
    ensures ParseFrom(def, lines, k, natural, weight) == Err(ParseError(Clean(lines[k])))
  {
  }
}

=== FILE: results.dfy ===
/** Outcomes shared by every part of the word generator.

    Python signals failure with exceptions (RuleError, ParseError, UnknownOption,
    ValueError, IndexError) and, in the collation engine, with sys.exit(1).
    Here each of them is one variant of `Error`, carried by `Result`. */
module Results {

  datatype Option<+T> = None | Some(value: T)

  datatype Error =
    | RuleError(message: string)       // wordgen.RuleError
    | ParseError(message: string)      // PhDefParser.ParseError
    | UnknownOption(option: string)    // PhDefParser.UnknownOption
    | ValueError(message: string)      // failed tuple unpacking, float() or int()
    | IndexError(message: string)      // indexing an empty string or list
    | UnknownLetter(word: string)      // ArbSorter.word_as_values calls sys.exit(1)
    | UnknownNotation(notation: string) // SmartClusters.initialize
    | NoFeatureTable                   // the module-global phdb was never initialised
    | NothingSelected                  // a weighted selection fell off the end (None)
    | OutOfDraws                       // the supplied random draws ran out

  datatype Result<+T> = Ok(value: T) | Err(error: Error) {

    predicate IsFailure() {
      Err?
    }

    function PropagateFailure<U>(): Result<U>
      requires Err?
    {
      Err(error)
    }

    function Extract(): T
      requires Ok?
    {
      value
    }
  }
}

=== FILE: smart_clusters.dfy ===
/** The phonological feature table and the rewrites built on it. The source
    keeps the table in an in-memory SQL database and answers each question
    with a query; here the table is a list of records in catalogue order and
    every query is a first-match search over it. A scalar sub-query
    (`select place from phdb where phoneme = ?`) yields the first record of
    that symbol, and NULL (no record) makes every comparison false. */
module SmartClusters {
  import opened Results

  datatype Voice = Voiced | Voiceless

  datatype Place = Bilabial | Labiodental | Alveolar | Postalveolar | Retroflex | Velar | Uvular

  datatype Manner = Stop | Fricative | Nasal | Sibilant | LateralFricative | LateralAffricate | Affricate

  /** One catalogue row: the symbol in IPA, the symbol in digraph notation,
      and its articulatory features. */
  datatype Entry = Entry(ipa: string, digraph: string, voice: Voice, place: Place, manner: Manner)

  /** One row of the table built by `initialize`. */
  datatype Phone = Phone(symbol: string, voice: Voice, place: Place, manner: Manner)

  /** The fixed catalogue, in its declared order. */
  const DATA: seq<Entry> := [
      Entry("p", "p", Voiceless, Bilabial, Stop),
      Entry("b", "b", Voiced, Bilabial, Stop),
      Entry("ɸ", "ph", Voiceless, Bilabial, Fricative),
      Entry("β", "bh", Voiced, Bilabial, Fricative),
      Entry("f", "f", Voiceless, Labiodental, Fricative),
      Entry("v", "v", Voiced, Labiodental, Fricative),
      Entry("m", "m", Voiced, Bilabial, Nasal),
      Entry("m", "m", Voiced, Labiodental, Nasal),
      Entry("t", "t", Voiceless, Alveolar, Stop),
      Entry("d", "d", Voiced, Alveolar, Stop),
      Entry("s", "s", Voiceless, Alveolar, Sibilant),
      Entry("z", "z", Voiced, Alveolar, Sibilant),
      Entry("θ", "th", Voiceless, Alveolar, Fricative),
      Entry("ð", "dh", Voiced, Alveolar, Fricative),
      Entry("ɬ", "lh", Voiceless, Alveolar, LateralFricative),
      Entry("ɮ", "ldh", Voiced, Alveolar, LateralFricative),
      Entry("tɬ", "tl", Voiceless, Alveolar, LateralAffricate),
      Entry("dɮ", "dl", Voiced, Alveolar, LateralAffricate),
      Entry("ts", "ts", Voiceless, Alveolar, Affricate),
      Entry("dz", "dz", Voiced, Alveolar, Affricate),
      Entry("ʃ", "sh", Voiceless, Postalveolar, Sibilant),
      Entry("ʒ", "zh", Voiced, Postalveolar, Sibilant),
      Entry("tʃ", "ch", Voiceless, Postalveolar, Affricate),
      Entry("dʒ", "j", Voiced, Postalveolar, Affricate),
      Entry("n", "n", Voiced, Alveolar, Nasal),
      Entry("ʈ", "rt", Voiceless, Retroflex, Stop),
      Entry("ɖ", "rd", Voiced, Retroflex, Stop),
      Entry("ʂ", "sr", Voiceless, Retroflex, Sibilant),
      Entry("ʐ", "zr", Voiced, Retroflex, Sibilant),
      Entry("ʈʂ", "rts", Voiceless, Retroflex, Affricate),
      Entry("ɖʐ", "rdz", Voiced, Retroflex, Affricate),
      Entry("ɳ", "rn", Voiced, Retroflex, Nasal),
      Entry("k", "k", Voiceless, Velar, Stop),
      Entry("g", "g", Voiced, Velar, Stop),
      Entry("x", "kh", Voiceless, Velar, Fricative),
      Entry("ɣ", "gh", Voiced, Velar, Fricative),
      Entry("ŋ", "ng", Voiced, Velar, Nasal),
      Entry("q", "q", Voiceless, Uvular, Stop),
      Entry("ɢ", "gq", Voiced, Uvular, Stop),
      Entry("χ", "qh", Voiceless, Uvular, Fricative),
      Entry("ʁ", "gqh", Voiced, Uvular, Fricative),
      Entry("ɴ", "nq", Voiced, Uvular, Nasal)  ]

  /** `initialize(notation)`: one record per catalogue row, keeping the
      symbol column of the chosen notation; any other notation is an error. */
  function Initialize(notation: string): (r: Result<seq<Phone>>)
    ensures r.Err? <==> notation != "ipa" && notation != "digraph"
    ensures r.Ok? ==> |r.value| == |DATA|
    ensures r.Ok? ==> forall i :: 0 <= i < |DATA| ==>
      r.value[i].voice == DATA[i].voice && r.value[i].place == DATA[i].place &&
      r.value[i].manner == DATA[i].manner &&
      r.value[i].symbol == (if notation == "ipa" then DATA[i].ipa else DATA[i].digraph)
  {
    if notation == "ipa" then Ok(Column(DATA, true))
    else if notation == "digraph" then Ok(Column(DATA, false))
    else Err(UnknownNotation(notation))
  }

  /** The catalogue projected onto one notation. */
  function Column(data: seq<Entry>, ipa: bool): (t: seq<Phone>)
  {
    seq(|data|, i requires 0 <= i < |data| =>
      Phone(if ipa then data[i].ipa else data[i].digraph, data[i].voice, data[i].place, data[i].manner))
  }

  /** The first index from `i` on whose record satisfies `p`. */
  function FindFrom(t: seq<Phone>, p: Phone -> bool, i: nat): (r: Option<nat>)
    requires i <= |t|
    ensures r.Some? ==> i <= r.value < |t| && p(t[r.value])
    ensures r.Some? ==> forall j :: i <= j < r.value ==> !p(t[j])
    ensures r.None? ==> forall j :: i <= j < |t| ==> !p(t[j])
    decreases |t| - i
  {
    if i == |t| then None
    else if p(t[i]) then Some(i)
    else FindFrom(t, p, i + 1)
  }

  /** A query's result rows in table order: the first record satisfying `p`. */
  function FindFirst(t: seq<Phone>, p: Phone -> bool): (r: Option<nat>)
    ensures r.Some? ==> r.value < |t| && p(t[r.value])
    ensures r.Some? ==> forall j :: 0 <= j < r.value ==> !p(t[j])
    ensures r.None? ==> forall j :: 0 <= j < |t| ==> !p(t[j])
  {
    FindFrom(t, p, 0)
  }

  /** The least index satisfying `p` is what `FindFirst` returns. */
  lemma FindFirstAt(t: seq<Phone>, p: Phone -> bool, i: nat)
    requires i < |t| && p(t[i])
    requires forall j :: 0 <= j < i ==> !p(t[j])
    ensures FindFirst(t, p) == Some(i)
  {
  }

  /** `select ... from phdb where phoneme = sym`, used as a scalar: the first
      record of `sym`, or NULL. */
  function Lookup(t: seq<Phone>, sym: string): (r: Option<Phone>)
    ensures r.Some? ==> exists i :: 0 <= i < |t| && t[i] == r.value
    ensures r.Some? ==> r.value.symbol == sym
    ensures r.None? <==> forall j :: 0 <= j < |t| ==> t[j].symbol != sym
  {
    match FindFirst(t, (ph: Phone) => ph.symbol == sym)
    case Some(i) => Some(t[i])
    case None => None
  }

  /** The first record of `sym` is what `Lookup` returns. */
  lemma LookupAt(t: seq<Phone>, sym: string, i: nat)
    requires i < |t| && t[i].symbol == sym
    requires forall j :: 0 <= j < i ==> t[j].symbol != sym
    ensures Lookup(t, sym) == Some(t[i])
  {
    FindFirstAt(t, (ph: Phone) => ph.symbol == sym, i);
  }

  /** The first nasal of the table at `place`. */
  predicate NasalAt(ph: Phone, place: Place) {
    ph.manner == Nasal && ph.place == place
  }

  /** Whether nasal assimilation rewrites `p1` before `p2`: `p1` is a nasal,
      `p2` is in the table, and some nasal shares `p2`'s place. */
  predicate NasalAssimilates(t: seq<Phone>, p1: string, p2: string) {
    Lookup(t, p1).Some? && Lookup(t, p1).value.manner == Nasal && Lookup(t, p2).Some? &&
    exists j :: 0 <= j < |t| && NasalAt(t[j], Lookup(t, p2).value.place)
  }

  /** `nasal_assimilate(ph1, ph2)`. */
  function NasalAssimilate(t: seq<Phone>, p1: string, p2: string): (r: string)
    ensures !NasalAssimilates(t, p1, p2) ==> r == p1
    ensures NasalAssimilates(t, p1, p2) ==>
      exists k :: 0 <= k < |t| && r == t[k].symbol && NasalAt(t[k], Lookup(t, p2).value.place) &&
        forall j :: 0 <= j < k ==> !NasalAt(t[j], Lookup(t, p2).value.place)
  {
    match (Lookup(t, p1), Lookup(t, p2))
    case (Some(a), Some(b)) =>
      if a.manner != Nasal then p1
      else
        (match FindFirst(t, (ph: Phone) => NasalAt(ph, b.place))
         case Some(k) => t[k].symbol
         case None => p1)
    case _ => p1
  }

  /** The first nasal at `p2`'s place is what a nasal `p1` becomes. */
  lemma NasalAssimilateAt(t: seq<Phone>, p1: string, p2: string, a: Phone, b: Phone, k: nat)
    requires Lookup(t, p1) == Some(a) && a.manner == Nasal && Lookup(t, p2) == Some(b)
    requires k < |t| && NasalAt(t[k], b.place)
    requires forall j :: 0 <= j < k ==> !NasalAt(t[j], b.place)
    ensures NasalAssimilate(t, p1, p2) == t[k].symbol
  {
    assert NasalAssimilates(t, p1, p2);
    var k' :| 0 <= k' < |t| && NasalAssimilate(t, p1, p2) == t[k'].symbol &&
      NasalAt(t[k'], b.place) && forall j :: 0 <= j < k' ==> !NasalAt(t[j], b.place);
    assert k' == k;
  }

  /** A record with `a`'s place and manner and `b`'s voicing. */
  predicate VoiceMatch(ph: Phone, a: Phone, b: Phone) {
    ph.place == a.place && ph.manner == a.manner && ph.voice == b.voice
  }

  /** Whether voice assimilation rewrites `p1` before `p2`: both are in the
      table, `p2` is not a nasal, and a record with `p1`'s place and manner
      and `p2`'s voicing exists. */
  predicate VoiceAssimilates(t: seq<Phone>, p1: string, p2: string) {
    Lookup(t, p1).Some? && Lookup(t, p2).Some? && Lookup(t, p2).value.manner != Nasal &&
    exists j :: 0 <= j < |t| && VoiceMatch(t[j], Lookup(t, p1).value, Lookup(t, p2).value)
  }

  /** `voice_assimilate(ph1, ph2)`. */
  function VoiceAssimilate(t: seq<Phone>, p1: string, p2: string): (r: string)
    ensures !VoiceAssimilates(t, p1, p2) ==> r == p1
    ensures VoiceAssimilates(t, p1, p2) ==>
      exists k :: 0 <= k < |t| && r == t[k].symbol &&
        VoiceMatch(t[k], Lookup(t, p1).value, Lookup(t, p2).value) &&
        forall j :: 0 <= j < k ==> !VoiceMatch(t[j], Lookup(t, p1).value, Lookup(t, p2).value)
  {
    match (Lookup(t, p1), Lookup(t, p2))
    case (Some(a), Some(b)) =>
      if b.manner == Nasal then p1
      else
        (match FindFirst(t, (ph: Phone) => VoiceMatch(ph, a, b))
         case Some(k) => t[k].symbol
         case None => p1)
    case _ => p1
  }

  /** The first record with `a`'s place and manner and `b`'s voicing is what
      `p1` becomes before a non-nasal `p2`. */
  lemma VoiceAssimilateAt(t: seq<Phone>, p1: string, p2: string, a: Phone, b: Phone, k: nat)
    requires Lookup(t, p1) == Some(a) && Lookup(t, p2) == Some(b) && b.manner != Nasal
    requires k < |t| && VoiceMatch(t[k], a, b)
    requires forall j :: 0 <= j < k ==> !VoiceMatch(t[j], a, b)
    ensures VoiceAssimilate(t, p1, p2) == t[k].symbol
  {
    assert VoiceAssimilates(t, p1, p2);
    var k' :| 0 <= k' < |t| && VoiceAssimilate(t, p1, p2) == t[k'].symbol &&
      VoiceMatch(t[k'], a, b) && forall j :: 0 <= j < k' ==> !VoiceMatch(t[j], a, b);
    assert k' == k;
  }

  predicate IsAlveolarRecord(ph: Phone, sym: string) {
    ph.symbol == sym && ph.place == Alveolar
  }

  predicate IsMetathesisTarget(ph: Phone, sym: string) {
    ph.symbol == sym && ph.place in {Velar, Bilabial} && ph.manner in {Stop, Nasal}
  }

  /** Whether coronal metathesis swaps `p1 p2`: `p1` is alveolar, `p2` is a
      velar or bilabial stop or nasal, and the two share their manner. */
  predicate Metathesizes(t: seq<Phone>, p1: string, p2: string) {
    (exists i :: 0 <= i < |t| && IsAlveolarRecord(t[i], p1)) &&
    (exists j :: 0 <= j < |t| && IsMetathesisTarget(t[j], p2)) &&
    Lookup(t, p1).Some? && Lookup(t, p2).Some? &&
    Lookup(t, p2).value.manner == Lookup(t, p1).value.manner
  }

  /** `coronal_metathesis(ph1, ph2)`. */
  function CoronalMetathesis(t: seq<Phone>, p1: string, p2: string): (r: (string, string))
    ensures Metathesizes(t, p1, p2) ==> r == (p2, p1)
    ensures !Metathesizes(t, p1, p2) ==> r == (p1, p2)
  {
    if FindFirst(t, (ph: Phone) => IsAlveolarRecord(ph, p1)).None? then (p1, p2)
    else
      var a := Lookup(t, p1);
      var b := Lookup(t, p2);
      if FindFirst(t, (ph: Phone) => IsMetathesisTarget(ph, p2)).Some? &&
         a.Some? && b.Some? && b.value.manner == a.value.manner
      then (p2, p1)
      else (p1, p2)
  }

  /** `apply_assimilations(word)`: every element but the last is voice- and
      then nasal-assimilated against its successor in the ORIGINAL word;
      the last element is kept. */
  function ApplyAssimilations(t: seq<Phone>, w: seq<string>): (r: seq<string>)
    ensures |r| == |w|
    ensures |w| > 0 ==> r[|w| - 1] == w[|w| - 1]
    ensures forall i {:trigger r[i]} :: 0 <= i < |w| - 1 ==>
      r[i] == NasalAssimilate(t, VoiceAssimilate(t, w[i], w[i + 1]), w[i + 1])
  {
    if |w| < 2 then w
    else [NasalAssimilate(t, VoiceAssimilate(t, w[0], w[1]), w[1])] + ApplyAssimilations(t, w[1..])
  }

  /** `apply_coronal_metathesis(word)`: each step writes both halves of the
      pair, but reads the ORIGINAL word, so position `i` ends up with the
      first half of the pair starting at `i` and only the last position keeps
      a second half. */
  function ApplyCoronalMetathesis(t: seq<Phone>, w: seq<string>): (r: seq<string>)
    ensures |r| == |w|
    ensures |w| < 2 ==> r == w
    ensures forall i :: 0 <= i < |w| - 1 ==> r[i] == CoronalMetathesis(t, w[i], w[i + 1]).0
    ensures |w| >= 2 ==> r[|w| - 1] == CoronalMetathesis(t, w[|w| - 2], w[|w| - 1]).1
  {
    if |w| < 2 then w
    else if |w| == 2 then
      var p := CoronalMetathesis(t, w[0], w[1]);
      [p.0, p.1]
    else
      [CoronalMetathesis(t, w[0], w[1]).0] + ApplyCoronalMetathesis(t, w[1..])
  }

  /** The metathesis pass as evidently intended: each pair is read from the
      word as the earlier swaps left it, so a swap moves phonemes and never
      loses one. */
  function ApplyCoronalMetathesisInPlace(t: seq<Phone>, w: seq<string>): (r: seq<string>)
    ensures |r| == |w|
    ensures multiset(r) == multiset(w)
    ensures |w| < 2 ==> r == w
    decreases |w|
  {
    if |w| < 2 then w
    else
      var p := CoronalMetathesis(t, w[0], w[1]);
      var rest := ApplyCoronalMetathesisInPlace(t, [p.1] + w[2..]);
      SwapKeepsPhonemes(w, p.0, p.1, rest);
      [p.0] + rest
  }

  /** Putting one of the first two phonemes in front of a permutation of the
      other and the rest gives a permutation of the word. */
  lemma SwapKeepsPhonemes(w: seq<string>, a: string, b: string, rest: seq<string>)
    requires |w| >= 2 && ((a, b) == (w[0], w[1]) || (a, b) == (w[1], w[0]))
    requires multiset(rest) == multiset([b] + w[2..])
    ensures multiset([a] + rest) == multiset(w)
  {
    assert w == [w[0]] + [w[1]] + w[2..];
    assert multiset(w) == multiset{w[0]} + multiset{w[1]} + multiset(w[2..]);
    assert multiset([a] + rest) == multiset{a} + multiset{b} + multiset(w[2..]);
  }
}

=== FILE: text.dfy ===
/** The Python string operations the word generator relies on: `str.split()`,
    `str.strip()`, `str.split(sep)`, `in`, and the two regular-expression uses
    that reduce to literal text (`re.sub(r'#.*', '', line)` and `re.sub(pat,
    repl, word)` for a pattern free of metacharacters). */
module Text {

  /** Python's `str.isspace` for one character: the separators that
      `str.split()` and `str.strip()` use. */
  predicate IsSpace(c: char) {
    c in {' ', '\t', '\n', '\r', '\U{000B}', '\U{000C}', '\U{001C}', '\U{001D}',
          '\U{001E}', '\U{001F}', '\U{0085}', '\U{00A0}', '\U{1680}', '\U{2028}',
          '\U{2029}', '\U{202F}', '\U{205F}', '\U{3000}'}
    || ('\U{2000}' <= c <= '\U{200A}')
  }

  predicate NoSpace(s: string) {
    forall i :: 0 <= i < |s| ==> !IsSpace(s[i])
  }

  predicate AllSpace(s: string) {
    forall i :: 0 <= i < |s| ==> IsSpace(s[i])
  }

  /** The characters of `s` that are not whitespace, in order. */
  function RemoveSpaces(s: string): string {
    if s == [] then []
    else if IsSpace(s[0]) then RemoveSpaces(s[1..])
    else [s[0]] + RemoveSpaces(s[1..])
  }

  function Concat(parts: seq<string>): string {
    if parts == [] then [] else parts[0] + Concat(parts[1..])
  }

  lemma {:induction false} ConcatAppend(a: seq<string>, b: seq<string>)
    ensures Concat(a + b) == Concat(a) + Concat(b)
  {
    if a == [] {
      assert a + b == b;
    } else {
      assert (a + b)[1..] == a[1..] + b;
      ConcatAppend(a[1..], b);
    }
  }

  lemma {:induction false} RemoveSpacesAppend(a: string, b: string)
    ensures RemoveSpaces(a + b) == RemoveSpaces(a) + RemoveSpaces(b)
  {
    if a == [] {
      assert a + b == b;
    } else {
      assert (a + b)[1..] == a[1..] + b;
      RemoveSpacesAppend(a[1..], b);
    }
  }

  lemma {:induction false} RemoveSpacesOfNoSpace(s: string)
    requires NoSpace(s)
    ensures RemoveSpaces(s) == s
  {
    if s != [] {
      RemoveSpacesOfNoSpace(s[1..]);
    }
  }

  /** Number of leading whitespace characters. */
  function LeadingSpaces(s: string): (k: nat)
    ensures k <= |s|
    ensures AllSpace(s[..k])
    ensures k < |s| ==> !IsSpace(s[k])
  {
    if s == [] || !IsSpace(s[0]) then 0 else 1 + LeadingSpaces(s[1..])
  }

  /** Number of trailing whitespace characters. */
  function TrailingSpaces(s: string): (k: nat)
    ensures k <= |s|
    ensures AllSpace(s[|s| - k..])
    ensures k < |s| ==> !IsSpace(s[|s| - k - 1])
  {
    if s == [] || !IsSpace(s[|s| - 1]) then 0
    else
      var t := s[..|s| - 1];
      var k := TrailingSpaces(t);
      assert s[|s| - 1 - k..] == t[|t| - k..] + [s[|s| - 1]];
      AllSpaceSnoc(t[|t| - k..], s[|s| - 1]);
      assert k < |t| ==> s[|s| - k - 2] == t[|t| - k - 1];
      1 + k
  }

  lemma AllSpaceSnoc(a: string, c: char)
    requires AllSpace(a) && IsSpace(c)
    ensures AllSpace(a + [c])
  {
    assert forall i :: 0 <= i < |a| ==> (a + [c])[i] == a[i];
  }

  /** Python's `str.strip()`: the infix left after removing whitespace at
      both ends. */
  function Strip(s: string): (r: string)
    ensures |r| <= |s|
    ensures r == [] || (!IsSpace(r[0]) && !IsSpace(r[|r| - 1]))
    ensures r == [] <==> AllSpace(s)
    ensures NoSpace(s) ==> r == s
    ensures RemoveSpaces(r) == RemoveSpaces(s)
  {
    var i := LeadingSpaces(s);
    if i == |s| then
      assert s[..i] == s;
      AllSpaceRemoved(s);
      []
    else
      var j := TrailingSpaces(s[i..]);
      var r := s[i..][..|s| - i - j];
      StripInner(s, i, j, r);
      r
  }

  /** What `Strip` keeps when `s` has a non-blank character. */
  lemma StripInner(s: string, i: nat, j: nat, r: string)
    requires i == LeadingSpaces(s) && i < |s|
    requires j == TrailingSpaces(s[i..]) && j <= |s| - i
    requires r == s[i..][..|s| - i - j]
    ensures r != [] && !IsSpace(r[0]) && !IsSpace(r[|r| - 1])
    ensures !AllSpace(s)
    ensures NoSpace(s) ==> r == s
    ensures RemoveSpaces(r) == RemoveSpaces(s)
  {
    var t := s[i..];
    assert !IsSpace(t[0]);
    assert j < |t|;
    assert r[0] == t[0] && r[|r| - 1] == t[|t| - j - 1];
    assert !IsSpace(s[i]);
    SplitThree(s, i, |t| - j);
    SpacesAround(s[..i], r, t[|t| - j..]);
    if NoSpace(s) {
      EdgesOfNoSpace(s);
      assert t == s;
      EdgesOfNoSpace(t);
    }
  }

  /** Removing whitespace keeps every other character. */
  lemma {:induction false} InRemoveSpaces(s: string, c: char)
    requires !IsSpace(c)
    ensures c in RemoveSpaces(s) <==> c in s
  {
    if s != [] {
      InRemoveSpaces(s[1..], c);
      assert s == [s[0]] + s[1..];
    }
  }

  /** Stripping adds no character that is not whitespace. */
  lemma StripKeepsOut(s: string, c: char)
    requires !IsSpace(c) && c !in s
    ensures c !in Strip(s)
  {
    InRemoveSpaces(s, c);
    InRemoveSpaces(Strip(s), c);
  }

  lemma EdgesOfNoSpace(s: string)
    requires NoSpace(s)
    ensures LeadingSpaces(s) == 0 && TrailingSpaces(s) == 0
  {
  }

  lemma SplitThree(s: string, i: nat, n: nat)
    requires i + n <= |s|
    ensures s == s[..i] + s[i..][..n] + s[i..][n..]
  {
  }

  /** Removing whitespace ignores blanks around a string. */
  lemma SpacesAround(a: string, r: string, b: string)
    requires AllSpace(a) && AllSpace(b)
    ensures RemoveSpaces(a + r + b) == RemoveSpaces(r)
  {
    AllSpaceRemoved(a);
    AllSpaceRemoved(b);
    RemoveSpacesAppend(a + r, b);
    RemoveSpacesAppend(a, r);
  }

  lemma {:induction false} AllSpaceRemoved(s: string)
    requires AllSpace(s)
    ensures RemoveSpaces(s) == []
  {
    if s != [] {
      AllSpaceRemoved(s[1..]);
    }
  }

  /** Length of the longest whitespace-free prefix. */
  function TokenEnd(s: string): (k: nat)
    ensures k <= |s|
    ensures NoSpace(s[..k])
    ensures k < |s| ==> IsSpace(s[k])
  {
    if s == [] || IsSpace(s[0]) then 0
    else
      var k := TokenEnd(s[1..]);
      assert s[..k + 1] == [s[0]] + s[1..][..k];
      k + 1
  }

  /** Python's `str.split()` with no argument: the maximal whitespace-free
      runs of `s`, in order. */
  function Words(s: string): (ws: seq<string>)
    ensures forall i :: 0 <= i < |ws| ==> ws[i] != [] && NoSpace(ws[i])
    ensures Concat(ws) == RemoveSpaces(s)
    decreases |s|
  {
    if s == [] then []
    else if IsSpace(s[0]) then Words(s[1..])
    else
      var k := TokenEnd(s);
      assert s == s[..k] + s[k..];
      RemoveSpacesAppend(s[..k], s[k..]);
      RemoveSpacesOfNoSpace(s[..k]);
      [s[..k]] + Words(s[k..])
  }

  /** The number of tokens `split()` gives, counted without building them. */
  function WordCount(s: string): nat
    decreases |s|
  {
    if s == [] then 0
    else if IsSpace(s[0]) then WordCount(s[1..])
    else 1 + WordCount(s[TokenEnd(s)..])
  }

  lemma {:induction false} WordCountIsWords(s: string)
    ensures WordCount(s) == |Words(s)|
    decreases |s|
  {
    if s != [] {
      if IsSpace(s[0]) {
        WordCountIsWords(s[1..]);
      } else {
        WordCountIsWords(s[TokenEnd(s)..]);
      }
    }
  }

  /** A whitespace-free, non-empty string is one word. */
  lemma WordsOfToken(s: string)
    requires s != [] && NoSpace(s)
    ensures Words(s) == [s]
  {
    var k := TokenEnd(s);
    assert k == |s|;
    assert s[..k] == s && s[k..] == [];
  }

  /** A token ends at the first whitespace after it. */
  lemma {:induction false} TokenEndBeforeSpace(a: string, x: string)
    requires x != [] && IsSpace(x[0])
    ensures TokenEnd(a + x) == TokenEnd(a)
  {
    if a == [] {
      assert a + x == x;
    } else if !IsSpace(a[0]) {
      assert (a + x)[1..] == a[1..] + x;
      TokenEndBeforeSpace(a[1..], x);
    }
  }

  /** `str.split()` cuts at every whitespace character: what comes before
      it and what comes after it are split apart. With `WordsOfToken` and
      `WordsOfSpace` this determines `Words` completely: its tokens are
      exactly the maximal whitespace-free runs. */
  lemma {:induction false} WordsAtSpace(a: string, c: char, b: string)
    requires IsSpace(c)
    ensures Words(a + [c] + b) == Words(a) + Words(b)
    decreases |a|
  {
    var s := a + [c] + b;
    if a == [] {
      assert s == [c] + b;
      assert s[1..] == b;
    } else if IsSpace(a[0]) {
      assert s[1..] == a[1..] + [c] + b;
      WordsAtSpace(a[1..], c, b);
    } else {
      TokenEndBeforeSpace(a, [c] + b);
      assert s == a + ([c] + b);
      var k := TokenEnd(a);
      assert s[..k] == a[..k];
      assert s[k..] == a[k..] + [c] + b;
      WordsAtSpace(a[k..], c, b);
    }
  }

  /** Text of whitespace only has no words. */
  lemma {:induction false} WordsOfSpace(s: string)
    requires AllSpace(s)
    ensures Words(s) == []
  {
    if s != [] {
      WordsOfSpace(s[1..]);
    }
  }

  /** The position of the first `c` in `s`. */
  function IndexOf(s: string, c: char): (k: nat)
    requires c in s
    ensures k < |s| && s[k] == c && c !in s[..k]
  {
    if s[0] == c then 0
    else
      assert c in s[1..] by { var j :| 0 <= j < |s| && s[j] == c; assert s[1..][j - 1] == c; }
      var k := IndexOf(s[1..], c);
      assert s[..k + 1] == [s[0]] + s[1..][..k];
      k + 1
  }

  function CountChar(s: string, c: char): nat {
    if s == [] then 0 else (if s[0] == c then 1 else 0) + CountChar(s[1..], c)
  }

  /** Inverse of `SplitOn`: the parts joined with `c` between them. */
  function JoinWith(parts: seq<string>, c: char): string
    requires |parts| >= 1
  {
    if |parts| == 1 then parts[0] else parts[0] + [c] + JoinWith(parts[1..], c)
  }

  lemma JoinWithTwo(parts: seq<string>, c: char)
    requires |parts| == 2
    ensures JoinWith(parts, c) == parts[0] + [c] + parts[1]
  {
    assert JoinWith(parts[1..], c) == parts[1];
  }

  /** Python's `str.split(c)` for a one-character separator. */
  function SplitOn(s: string, c: char): (parts: seq<string>)
    ensures |parts| == CountChar(s, c) + 1
    ensures forall i :: 0 <= i < |parts| ==> c !in parts[i]
    ensures JoinWith(parts, c) == s
    decreases |s|
  {
    if c !in s then
      NoCharCount(s, c);
      [s]
    else
      var k := IndexOf(s, c);
      assert s == s[..k] + [c] + s[k + 1..];
      CountCharAppend(s[..k] + [c], s[k + 1..], c);
      CountCharAppend(s[..k], [c], c);
      NoCharCount(s[..k], c);
      var rest := SplitOn(s[k + 1..], c);
      assert ([s[..k]] + rest)[1..] == rest;
      [s[..k]] + rest
  }

  lemma {:induction false} NoCharCount(s: string, c: char)
    requires c !in s
    ensures CountChar(s, c) == 0
  {
    if s != [] {
      assert c !in s[1..];
      NoCharCount(s[1..], c);
    }
  }

  lemma {:induction false} CountCharAppend(a: string, b: string, c: char)
    ensures CountChar(a + b, c) == CountChar(a, c) + CountChar(b, c)
  {
    if a == [] {
      assert a + b == b;
    } else {
      assert (a + b)[1..] == a[1..] + b;
      CountCharAppend(a[1..], b, c);
    }
  }

  /** Splitting the join of separator-free parts gives the parts back. */
  lemma {:induction false} SplitJoin(parts: seq<string>, c: char)
    requires |parts| >= 1
    requires forall i :: 0 <= i < |parts| ==> c !in parts[i]
    ensures SplitOn(JoinWith(parts, c), c) == parts
  {
    if |parts| > 1 {
      SplitFirst(parts[0], JoinWith(parts[1..], c), c);
      SplitJoin(parts[1..], c);
      assert parts == [parts[0]] + parts[1..];
    }
  }

  /** Splitting cuts at the first separator. */
  lemma SplitFirst(p: string, rest: string, c: char)
    requires c !in p
    ensures SplitOn(p + [c] + rest, c) == [p] + SplitOn(rest, c)
  {
    var s := p + [c] + rest;
    assert s[|p|] == c;
    var k := IndexOf(s, c);
    assert s[..|p|] == p;
    assert k == |p|;
    assert s[..k] == p && s[k + 1..] == rest;
  }

  predicate StartsWith(s: string, p: string) {
    |p| <= |s| && s[..|p|] == p
  }

  /** Python's `p in s` for strings: `p` occurs somewhere in `s`. */
  predicate Contains(s: string, p: string)
    decreases |s|
  {
    StartsWith(s, p) || (s != [] && Contains(s[1..], p))
  }

  lemma {:induction false} ContainsPrepend(x: string, s: string, p: string)
    requires Contains(s, p)
    ensures Contains(x + s, p)
  {
    if x == [] {
      assert x + s == s;
    } else {
      assert (x + s)[1..] == x[1..] + s;
      ContainsPrepend(x[1..], s, p);
      assert Contains((x + s)[1..], p);
      assert x + s != [];
    }
  }

  lemma {:induction false} ContainsAppend(s: string, y: string, p: string)
    requires Contains(s, p)
    ensures Contains(s + y, p)
    decreases |s|
  {
    if StartsWith(s, p) {
      assert (s + y)[..|p|] == s[..|p|];
    } else {
      assert (s + y)[1..] == s[1..] + y;
      ContainsAppend(s[1..], y, p);
    }
  }

  /** `re.sub(p, r, s)` for an empty pattern: the replacement is inserted
      before every character and at the end. */
  function InsertEverywhere(s: string, r: string): (t: string)
    ensures forall c :: c in t ==> c in s || c in r
  {
    if s == [] then r else r + [s[0]] + InsertEverywhere(s[1..], r)
  }

  /** `re.sub(p, r, s)` where `p` and `r` are plain text: every leftmost,
      non-overlapping occurrence of `p` replaced by `r`. */
  function ReplaceAll(s: string, p: string, r: string): (t: string)
    // nothing but the text and the replacement ends up in the result
    ensures forall c :: c in t ==> c in s || c in r
    // with a pattern longer than its replacement, the text does not grow
    ensures p != [] && |r| <= |p| ==> |t| <= |s|
    decreases |s|
  {
    if p == [] then InsertEverywhere(s, r)
    else if s == [] then []
    else if StartsWith(s, p) then
      var rest := ReplaceAll(s[|p|..], p, r);
      assert forall c :: c in s[|p|..] ==> c in s;
      r + rest
    else
      var rest := ReplaceAll(s[1..], p, r);
      assert forall c :: c in s[1..] ==> c in s;
      [s[0]] + rest
  }

  /** A pattern that does not occur leaves the text unchanged. */
  lemma {:induction false} ReplaceAbsent(s: string, p: string, r: string)
    requires p != [] && !Contains(s, p)
    ensures ReplaceAll(s, p, r) == s
  {
    if s != [] {
      ReplaceAbsent(s[1..], p, r);
    }
  }

  /** When the pattern occurs, the replacement occurs in the result. */
  lemma {:induction false} ReplacePresent(s: string, p: string, r: string)
    requires p != [] && Contains(s, p)
    ensures Contains(ReplaceAll(s, p, r), r)
    decreases |s|
  {
    if StartsWith(s, p) {
      assert StartsWith(r + ReplaceAll(s[|p|..], p, r), r);
    } else {
      ReplacePresent(s[1..], p, r);
      ContainsPrepend([s[0]], ReplaceAll(s[1..], p, r), r);
    }
  }

  /** Replacement is leftmost-first and keeps going: when `p` first occurs
      right after `x`, the text before it is kept, that occurrence becomes
      `r`, and the rest of the text is replaced in turn. With
      `ReplaceAbsent` this determines `ReplaceAll` for every non-empty
      pattern. */
  lemma {:induction false} ReplaceLeftmost(s: string, p: string, r: string, x: string, y: string)
    requires p != [] && s == x + p + y
    requires NoMatchBefore(s, p, |x|)
    ensures ReplaceAll(s, p, r) == x + r + ReplaceAll(y, p, r)
    decreases |x|
  {
    if x == [] {
      JoinParts(x, p, y);
      ReplaceHit(s, p, r);
    } else {
      JoinParts(x, p, y);
      NoMatchBeforeTail(s, p, |x|);
      ReplaceSkip(s, p, r);
      ReplaceLeftmost(s[1..], p, r, x[1..], y);
      ConsJoin(x, r, ReplaceAll(y, p, r));
    }
  }

  /** `p` starts nowhere before position `n` of `s`. */
  predicate NoMatchBefore(s: string, p: string, n: nat)
    requires n <= |s|
  {
    forall k :: 0 <= k < n ==> !StartsWith(s[k..], p)
  }

  lemma NoMatchBeforeTail(s: string, p: string, n: nat)
    requires 0 < n <= |s| && NoMatchBefore(s, p, n)
    ensures !StartsWith(s, p) && NoMatchBefore(s[1..], p, n - 1)
  {
    assert s[0..] == s;
    forall k | 0 <= k < n - 1
      ensures !StartsWith(s[1..][k..], p)
    {
      assert s[1..][k..] == s[k + 1..];
    }
  }

  lemma JoinParts(x: string, p: string, y: string)
    ensures StartsWith(p + y, p) && (p + y)[|p|..] == y
    ensures x != [] ==> (x + p + y)[1..] == x[1..] + p + y && (x + p + y)[0] == x[0]
    ensures x == [] ==> x + p + y == p + y
  {
    assert (p + y)[..|p|] == p;
  }

  lemma ConsJoin(x: string, r: string, t: string)
    requires x != []
    ensures [x[0]] + (x[1..] + r + t) == x + r + t
  {
  }

  lemma ReplaceHit(s: string, p: string, r: string)
    requires p != [] && StartsWith(s, p)
    ensures ReplaceAll(s, p, r) == r + ReplaceAll(s[|p|..], p, r)
  {
  }

  lemma ReplaceSkip(s: string, p: string, r: string)
    requires p != [] && s != [] && !StartsWith(s, p)
    ensures ReplaceAll(s, p, r) == [s[0]] + ReplaceAll(s[1..], p, r)
  {
  }

  /** Length of the prefix of `s` that holds no newline. */
  function LineEnd(s: string): (k: nat)
    ensures k <= |s|
    ensures '\n' !in s[..k]
    ensures k < |s| ==> s[k] == '\n'
  {
    if s == [] || s[0] == '\n' then 0
    else
      var k := LineEnd(s[1..]);
      assert s[..k + 1] == [s[0]] + s[1..][..k];
      k + 1
  }

  /** `re.sub(r'#.*', '', s)`: every `#` and the rest of its line removed
      (`.` does not match a newline, so the newline itself stays). */
  function StripComments(s: string): (r: string)
    ensures '#' !in r
    ensures '#' !in s ==> r == s
    ensures |r| <= |s|
    // on one line, everything before the first `#` is kept
    ensures '#' in s && '\n' !in s ==> r == s[..IndexOf(s, '#')]
    decreases |s|
  {
    if s == [] then []
    else if s[0] == '#' then
      var k := LineEnd(s);
      StripComments(s[k..])
    else
      [s[0]] + StripComments(s[1..])
  }
}

=== FILE: wordgen.dfy ===
/** wordgen.SoundSystem: phoneme classes, weighted rules and ordered filters,
    and the loop that turns them into a list of distinct words.

    Every call to the random source is an explicit draw: `randint(0, 100)`
    reads the next entry of `percents`, and each `random.random()` behind a
    weighted selection reads the next entry of `units`. Running out of
    either is the error `OutOfDraws`. */
module WordGen {
  import opened Results
  import opened Text
  import opened Lex
  import opened Dicts
  import opened Distribution
  import opened SmartClusters
  import opened Collation
  import Numbers

  /* ---------------------------------------------------------------- */
  /* Weighted selection over a dict: `select(dic)`                     */
  /* ---------------------------------------------------------------- */

  /** `select(dic)` where `random.random()` returned `u`: the draw is
      `uniform(0, total - 1)` and the first key whose running weight total
      exceeds it is returned; None when the walk falls off the end. */
  function SelectFromDict<K>(d: Dict<K, real>, u: real): (r: Option<K>)
    ensures r.Some? ==> r.value in Keys(d)
    ensures r.Some? <==> PickIndex(Values(d), Uniform(0.0, Sum(Values(d)) - 1.0, u)).Some?
  {
    match PickIndex(Values(d), Uniform(0.0, Sum(Values(d)) - 1.0, u))
    case Some(i) => Some(d[i].0)
    case None => None
  }

  /** The module-level `select` and `WeightedSelector.select` agree: both
      pick from the dict's items in order with the same draw. */
  lemma SelectAgrees<K>(d: Dict<K, real>, u: real)
    ensures SelectFromDict(d, u) == Select(MakeSelector(d), u)
  {
    assert MakeSelector(d).weights == Values(d);
    assert MakeSelector(d).keys == Keys(d);
  }

  /** A unit draw scaled to `[0, b]` stays in `[0, b]`. */
  lemma ScaledDraw(b: real, u: real)
    requires b >= 0.0 && 0.0 <= u <= 1.0
    ensures 0.0 <= Uniform(0.0, b, u) <= b
  {
    assert Uniform(0.0, b, u) == b * u;
    assert b * (1.0 - u) >= 0.0;
  }

  /** With weights totalling at least 1 and a unit draw, `select` returns a
      key. */
  lemma SelectFromDictPicks<K>(d: Dict<K, real>, u: real)
    requires Sum(Values(d)) >= 1.0 && 0.0 <= u <= 1.0
    ensures SelectFromDict(d, u).Some?
  {
    SelectAgrees(d, u);
    SelectNeverFails(MakeSelector(d), u);
  }

  /** With a unit draw and weights totalling at least 1, a key of weight
      zero is never returned. */
  lemma SelectFromDictSkipsZero<K>(d: Dict<K, real>, u: real, i: nat)
    requires Sum(Values(d)) >= 1.0 && 0.0 <= u <= 1.0
    requires i < |d| && d[i].1 == 0.0
    ensures PickIndex(Values(d), Uniform(0.0, Sum(Values(d)) - 1.0, u)) != Some(i)
  {
    var pick := Uniform(0.0, Sum(Values(d)) - 1.0, u);
    ScaledDraw(Sum(Values(d)) - 1.0, u);
    if PickIndex(Values(d), pick) == Some(i) {
      ZeroWeightNeverPicked(Values(d), pick, i);
    }
  }

  /* ---------------------------------------------------------------- */
  /* Class specifications: `rule2dict`                                 */
  /* ---------------------------------------------------------------- */

  /** One `value:weight` item of a class specification. An item without a
      colon is a RuleError; more than one colon fails the tuple unpacking
      and a weight that is not a number fails `float()`, both ValueErrors. */
  function ParseItem(item: string): (r: Result<(string, real)>)
    ensures r.Err? && r.error.RuleError? <==> ':' !in item
    ensures r.Err? && !r.error.RuleError? ==> r.error.ValueError?
    ensures r.Ok? ==> |r.value.0| < |item| && ':' !in r.value.0
    ensures r.Ok? ==> item[..|r.value.0|] == r.value.0 && item[|r.value.0|] == ':'
    ensures r.Ok? ==> ':' !in item[|r.value.0| + 1..]
    ensures r.Ok? ==> Numbers.ParseFloat(item[|r.value.0| + 1..]) == Ok(r.value.1)
  {
    if ':' !in item then Err(RuleError(item + " not a valid phoneme and weight"))
    else
      var parts := SplitOn(item, ':');
      if |parts| != 2 then Err(ValueError("too many values to unpack"))
      else
        assert item == parts[0] + [':'] + parts[1] by {
          assert JoinWith(parts, ':') == item;
          assert JoinWith(parts[1..], ':') == parts[1];
        }
        assert item[..|parts[0]|] == parts[0];
        assert item[|parts[0]| + 1..] == parts[1];
        var w :- Numbers.ParseFloat(parts[1]);
        Ok((parts[0], w))
  }

  /** An item written as `key:n` for a colon-free key and a whole number
      reads back as that key and weight. */
  lemma ParseItemRoundTrip(key: string, n: nat)
    requires ':' !in key
    ensures ParseItem(key + ":" + Numbers.NatToString(n)) == Ok((key, n as real))
  {
    var item := key + ":" + Numbers.NatToString(n);
    Numbers.ParseFloatRoundTrip(n);
    Numbers.DigitsOfNatToString(n);
    assert ':' !in Numbers.NatToString(n) by {
      forall i | 0 <= i < |Numbers.NatToString(n)|
        ensures Numbers.NatToString(n)[i] != ':'
      {
        assert Numbers.IsDigit(Numbers.NatToString(n)[i]);
      }
    }
    var parts := [key, Numbers.NatToString(n)];
    assert JoinWith(parts, ':') == item by {
      assert JoinWith(parts[1..], ':') == parts[1];
    }
    SplitJoin(parts, ':');
    assert ':' in item by {
      assert item[|key|] == ':';
    }
  }

  /** The weight the last well-formed item for `k` gives it: later items
      for the same key overwrite earlier ones. */
  function LastWeight(items: seq<string>, k: string): Option<real> {
    if items == [] then None
    else
      match ParseItem(items[|items| - 1])
      case Ok(kw) =>
        if kw.0 == k then Some(kw.1) else LastWeight(items[..|items| - 1], k)
      case Err(_) => LastWeight(items[..|items| - 1], k)
  }

  /** The loop of `rule2dict` over the items: the first bad item ends it
      with its error; otherwise every item is stored in order. */
  function ItemsToDict(items: seq<string>): (r: Result<Dict<string, real>>)
    ensures r.Ok? ==> DistinctKeys(r.value)
    ensures r.Ok? <==> forall i :: 0 <= i < |items| ==> ParseItem(items[i]).Ok?
  {
    if items == [] then Ok([])
    else
      FrontItems(items);
      var d :- ItemsToDict(items[..|items| - 1]);
      var kw :- ParseItem(items[|items| - 1]);
      Ok(Put(d, kw.0, kw.1))
  }

  /** The error `rule2dict` reports is that of the first item that fails to
      parse. */
  lemma {:induction false} ItemsToDictError(items: seq<string>)
    requires ItemsToDict(items).Err?
    ensures exists i :: 0 <= i < |items| && FirstBadItem(items, i, ItemsToDict(items).error)
  {
    var n := |items| - 1;
    var front := items[..n];
    FrontItems(items);
    var e := ItemsToDict(items).error;
    if ItemsToDict(front).Err? {
      ItemsToDictError(front);
      var i :| 0 <= i < |front| && FirstBadItem(front, i, e);
      assert FirstBadItem(items, i, e);
    } else {
      assert FirstBadItem(items, n, e);
    }
  }

  /** Item `i` is the first that fails to parse, and fails with `e`. */
  predicate FirstBadItem(items: seq<string>, i: nat, e: Error)
    requires i < |items|
  {
    ParseItem(items[i]) == Err(e) && forall j :: 0 <= j < i ==> ParseItem(items[j]).Ok?
  }

  lemma FrontItems(items: seq<string>)
    requires items != []
    ensures forall j :: 0 <= j < |items| - 1 ==> items[..|items| - 1][j] == items[j]
  {
  }

  /** `rule2dict(rule)`: the whitespace-separated items as a dict. */
  function RuleToDict(rule: string): (r: Result<Dict<string, real>>)
    ensures r.Ok? <==> forall i :: 0 <= i < |Words(rule)| ==> ParseItem(Words(rule)[i]).Ok?
    ensures r.Ok? ==> DistinctKeys(r.value)
    ensures r.Ok? ==> forall k :: Get(r.value, k) == LastWeight(Words(rule), k)
  {
    var items := Words(rule);
    var r := ItemsToDict(items);
    if r.Ok? then
      assert forall k :: Get(r.value, k) == LastWeight(items, k) by {
        forall k
          ensures Get(r.value, k) == LastWeight(items, k)
        {
          ItemsToDictLastWins(items, k);
        }
      }
      r
    else r
  }

  /** Looking a key up in the parsed dict gives the weight of the last item
      for that key, or nothing if no item names it. */
  lemma {:induction false} ItemsToDictLastWins(items: seq<string>, k: string)
    requires ItemsToDict(items).Ok?
    ensures Get(ItemsToDict(items).value, k) == LastWeight(items, k)
  {
    if items != [] {
      var front := items[..|items| - 1];
      var last := items[|items| - 1];
      assert ItemsToDict(front).Ok? && ParseItem(last).Ok?;
      var d := ItemsToDict(front).value;
      var kw := ParseItem(last).value;
      assert ItemsToDict(items).value == Put(d, kw.0, kw.1);
      ItemsToDictLastWins(front, k);
      PutFrame(d, kw.0, kw.1);
      assert LastWeight(items, k) == if kw.0 == k then Some(kw.1) else LastWeight(front, k);
    }
  }

  /* ---------------------------------------------------------------- */
  /* The sound system                                                  */
  /* ---------------------------------------------------------------- */

  /** A filter: a pattern and its replacement. */
  type Filter = (string, string)

  /** The state of a `SoundSystem`, plus the feature table that
      `SmartClusters.initialize` would have loaded (None when it never
      was). */
  datatype SoundSystem = SoundSystem(
    phonemeset: Dict<string, Selector<string>>,
    ruleset: Dict<string, real>,
    filters: seq<Filter>,
    randpercent: int,
    useAssim: bool,
    useCoronalMetathesis: bool,
    sorter: Option<Sorter>,
    features: Option<seq<Phone>>)

  /** What the operations below keep: dicts with distinct keys, and every
      class selector as its constructor built it. */
  ghost predicate Consistent(ss: SoundSystem) {
    DistinctKeys(ss.phonemeset) && DistinctKeys(ss.ruleset) &&
    forall i :: 0 <= i < |ss.phonemeset| ==> Distribution.Valid(ss.phonemeset[i].1)
  }

  /** `SoundSystem()`: no classes, rules or filters, a random rate of 10 per
      cent, both sound changes off and no sort order. */
  function NewSoundSystem(): (ss: SoundSystem)
    ensures Consistent(ss)
    ensures Keys(ss.phonemeset) == [] && Keys(ss.ruleset) == [] && ss.filters == []
    ensures ss.randpercent == 10 && !ss.useAssim && !ss.useCoronalMetathesis
    ensures ss.sorter.None? && ss.features.None?
  {
    SoundSystem([], [], [], 10, false, false, None, None)
  }

  /** The selector of class `c` (a one-character name, as rules use). */
  function Class(ss: SoundSystem, c: char): (r: Option<Selector<string>>)
    requires Consistent(ss)
    ensures r.Some? ==> Distribution.Valid(r.value) && ([c], r.value) in ss.phonemeset
    ensures r.None? <==> [c] !in Keys(ss.phonemeset)
  {
    var r := Get(ss.phonemeset, [c]);
    if r.Some? then
      var i :| 0 <= i < |ss.phonemeset| && ss.phonemeset[i] == ([c], r.value);
      r
    else r
  }

  /** `add_ph_unit(name, selection)`: a selection without any colon is first
      given natural weights (`natural` stands for `natural_weights`, whose
      logarithms and jitter are not modelled); the class is then (re)defined
      by the parsed dict. Nothing else changes. */
  function AddPhUnit(ss: SoundSystem, name: string, selection: string, natural: string -> string)
    : (r: Result<SoundSystem>)
    requires Consistent(ss)
    ensures r.Ok? ==> Consistent(r.value) && name in Keys(r.value.phonemeset)
    ensures ':' in selection ==> (r.Ok? <==> RuleToDict(selection).Ok?)
    ensures ':' !in selection ==> (r.Ok? <==> RuleToDict(natural(selection)).Ok?)
    ensures ':' in selection && r.Ok? ==>
      Get(r.value.phonemeset, name) == Some(MakeSelector(RuleToDict(selection).value))
    ensures r.Ok? ==> forall k :: k != name ==> Get(r.value.phonemeset, k) == Get(ss.phonemeset, k)
    ensures r.Ok? ==> r.value.(phonemeset := ss.phonemeset) == ss
  {
    var spec := if ':' !in selection then natural(selection) else selection;
    var d :- RuleToDict(spec);
    var ps := Put(ss.phonemeset, name, MakeSelector(d));
    PutFrame(ss.phonemeset, name, MakeSelector(d));
    PutKeepsSelectors(ss.phonemeset, name, MakeSelector(d));
    Ok(ss.(phonemeset := ps))
  }

  /** Storing a valid selector in a dict of valid selectors keeps every
      selector valid. */
  lemma PutKeepsSelectors(ps: Dict<string, Selector<string>>, name: string, sel: Selector<string>)
    requires DistinctKeys(ps) && Distribution.Valid(sel)
    requires forall i :: 0 <= i < |ps| ==> Distribution.Valid(ps[i].1)
    ensures forall i :: 0 <= i < |Put(ps, name, sel)| ==> Distribution.Valid(Put(ps, name, sel)[i].1)
  {
    var r := Put(ps, name, sel);
    forall i | 0 <= i < |r|
      ensures Distribution.Valid(r[i].1)
    {
      if name !in Keys(ps) && i == |ps| {
      } else if r[i].0 == name {
      } else {
        assert r[i] == ps[i];
      }
    }
  }

  /** `add_rule(rule, weight)`: stores the rule's weight, replacing any
      earlier weight for the same rule; nothing else changes. */
  function AddRule(ss: SoundSystem, rule: string, weight: real): (r: SoundSystem)
    requires Consistent(ss)
    ensures Consistent(r)
    ensures Get(r.ruleset, rule) == Some(weight)
    ensures forall k :: k != rule ==> Get(r.ruleset, k) == Get(ss.ruleset, k)
    ensures r.(ruleset := ss.ruleset) == ss
  {
    PutFrame(ss.ruleset, rule, weight);
    ss.(ruleset := Put(ss.ruleset, rule, weight))
  }

  /** `add_filter(pat, repl)`: appends one filter; the replacement `!`
      means delete, so it is stored as the empty string. */
  function AddFilter(ss: SoundSystem, pat: string, repl: string): (r: SoundSystem)
    ensures |r.filters| == |ss.filters| + 1 && r.filters[..|ss.filters|] == ss.filters
    ensures r.filters[|ss.filters|].0 == pat
    ensures r.filters[|ss.filters|].1 == [] <==> repl == "!" || repl == []
    ensures repl != "!" ==> r.filters[|ss.filters|].1 == repl
    ensures r.(filters := ss.filters) == ss
  {
    ss.(filters := ss.filters + [(pat, if repl == "!" then "" else repl)])
  }

  /* ---------------------------------------------------------------- */
  /* Filters: `apply_filters`                                          */
  /* ---------------------------------------------------------------- */

  /** The sentinel a filter writes to discard a word. */
  const REJECT: string := "REJECT"

  /** The outcome of the filter loop. */
  datatype Outcome = Accepted(word: string) | Rejected

  /** The word after the filters `fs`, each replacing every occurrence of
      its pattern in turn, with no check for the sentinel. */
  function Substituted(fs: seq<Filter>, w: string): string {
    if fs == [] then w else Substituted(fs[1..], ReplaceAll(w, fs[0].0, fs[0].1))
  }

  /** The filter loop: each filter replaces every occurrence of its pattern,
      and as soon as the word contains the sentinel the loop stops. */
  function RunFilters(fs: seq<Filter>, w: string): (r: Outcome)
    ensures fs == [] ==> r == Accepted(w)
    ensures fs != [] && r.Accepted? ==> !Contains(r.word, REJECT)
    // an accepted word has been through every substitution, in order
    ensures r.Accepted? ==> r.word == Substituted(fs, w)
  {
    if fs == [] then Accepted(w)
    else
      var w' := ReplaceAll(w, fs[0].0, fs[0].1);
      if Contains(w', REJECT) then Rejected else RunFilters(fs[1..], w')
  }

  /** Filters compose in order, and a rejection skips every later filter. */
  lemma {:induction false} RunFiltersAppend(a: seq<Filter>, b: seq<Filter>, w: string)
    ensures RunFilters(a + b, w) ==
      match RunFilters(a, w)
      case Rejected => Rejected
      case Accepted(v) => RunFilters(b, v)
  {
    if a == [] {
      assert a + b == b;
    } else {
      assert (a + b)[0] == a[0] && (a + b)[1..] == a[1..] + b;
      var w' := ReplaceAll(w, a[0].0, a[0].1);
      if !Contains(w', REJECT) {
        RunFiltersAppend(a[1..], b, w');
      }
    }
  }

  /** The loop rejects exactly when the word after some first `n` filters
      contains the sentinel. */
  lemma {:induction false} RunFiltersRejects(fs: seq<Filter>, w: string)
    ensures RunFilters(fs, w) == Rejected <==>
      exists n :: 1 <= n <= |fs| && Contains(Substituted(fs[..n], w), REJECT)
  {
    if fs != [] {
      var w' := ReplaceAll(w, fs[0].0, fs[0].1);
      FirstSubstitution(fs, w);
      if Contains(w', REJECT) {
        assert Substituted(fs[..1], w) == w';
      } else {
        RunFiltersRejects(fs[1..], w');
        forall n | 1 <= n <= |fs|
          ensures Substituted(fs[..n], w) == Substituted(fs[1..][..n - 1], w')
        {
          TakeTail(fs, n);
        }
        if exists n :: 1 <= n <= |fs| && Contains(Substituted(fs[..n], w), REJECT) {
          var n :| 1 <= n <= |fs| && Contains(Substituted(fs[..n], w), REJECT);
          assert 1 <= n - 1 <= |fs[1..]|;
        }
        if exists m :: 1 <= m <= |fs[1..]| && Contains(Substituted(fs[1..][..m], w'), REJECT) {
          var m :| 1 <= m <= |fs[1..]| && Contains(Substituted(fs[1..][..m], w'), REJECT);
          assert Substituted(fs[..m + 1], w) == Substituted(fs[1..][..m], w');
        }
      }
    }
  }

  /** The first `n` filters substitute the first filter's result with the
      next `n - 1`. */
  lemma FirstSubstitution(fs: seq<Filter>, w: string)
    requires fs != []
    ensures forall n :: 1 <= n <= |fs| ==>
      Substituted(fs[..n], w) == Substituted(fs[..n][1..], ReplaceAll(w, fs[0].0, fs[0].1))
  {
    forall n | 1 <= n <= |fs|
      ensures Substituted(fs[..n], w) == Substituted(fs[..n][1..], ReplaceAll(w, fs[0].0, fs[0].1))
    {
      assert fs[..n][0] == fs[0];
    }
  }

  lemma TakeTail<T>(s: seq<T>, n: nat)
    requires 1 <= n <= |s|
    ensures s[..n][1..] == s[1..][..n - 1]
  {
  }

  /** A word that reaches a `reject:` filter (pattern `p`, replacement the
      sentinel) while containing `p` is rejected. */
  lemma RejectFilterRejects(fs: seq<Filter>, i: nat, w: string, v: string)
    requires i < |fs| && fs[i].1 == REJECT && fs[i].0 != []
    requires RunFilters(fs[..i], w) == Accepted(v) && Contains(v, fs[i].0)
    ensures RunFilters(fs, w) == Rejected
  {
    assert fs == fs[..i] + fs[i..];
    RunFiltersAppend(fs[..i], fs[i..], w);
    ReplacePresent(v, fs[i].0, REJECT);
  }

  /** A single reject filter rejects exactly the words that contain its
      pattern (or already contain the sentinel). */
  lemma SingleRejectFilter(p: string, w: string)
    requires p != []
    ensures RunFilters([(p, REJECT)], w) == Rejected <==> Contains(w, p) || Contains(w, REJECT)
  {
    var w' := ReplaceAll(w, p, REJECT);
    if Contains(w, p) {
      ReplacePresent(w, p, REJECT);
    } else {
      ReplaceAbsent(w, p, REJECT);
    }
    assert [(p, REJECT)][1..] == [];
  }

  /** The part of `apply_filters` before the filters: with a sort order, the
      word is cut into graphemes, assimilated and/or metathesised as
      enabled, and joined again. The feature table must have been loaded
      for either pass to look anything up. */
  function SoundChanges(ss: SoundSystem, word: string): (r: Result<string>)
    ensures ss.sorter.None? ==> r == Ok(word)
    ensures ss.sorter.Some? && !ss.useAssim && !ss.useCoronalMetathesis ==> r == Ok(DropNewlines(word))
    ensures r.Err? ==> r.error == NoFeatureTable && ss.features.None?
    // without a table, a pass that is on fails once the word has two graphemes
    ensures ss.sorter.Some? ==> (r.Err? <==>
      ss.features.None? && (ss.useAssim || ss.useCoronalMetathesis) &&
      |Tokens(ss.sorter.value, word)| >= 2)
    // with a table, the graphemes go through the enabled passes in order
    ensures ss.sorter.Some? && ss.features.Some? ==>
      var t := ss.features.value;
      var w0 := Tokens(ss.sorter.value, word);
      var w1 := if ss.useAssim then ApplyAssimilations(t, w0) else w0;
      r == Ok(Concat(if ss.useCoronalMetathesis then ApplyCoronalMetathesis(t, w1) else w1))
  {
    match ss.sorter
    case None => Ok(word)
    case Some(so) =>
      var w0 := Tokens(so, word);
      var w1 :- if ss.useAssim then Assimilate(ss.features, w0) else Ok(w0);
      var w2 :- if ss.useCoronalMetathesis then Metathesize(ss.features, w1) else Ok(w1);
      assert !ss.useAssim && !ss.useCoronalMetathesis ==> w2 == w0;
      Ok(Concat(w2))
  }

  /** `sc.apply_assimilations(w)`: the table is consulted once the word has
      two graphemes. */
  function Assimilate(features: Option<seq<Phone>>, w: seq<string>): (r: Result<seq<string>>)
    ensures r.Err? <==> features.None? && |w| >= 2
    ensures r.Err? ==> r.error == NoFeatureTable
    ensures r.Ok? ==> |r.value| == |w|
    ensures r.Ok? && features.Some? ==> r.value == ApplyAssimilations(features.value, w)
  {
    match features
    case Some(t) => Ok(ApplyAssimilations(t, w))
    case None => if |w| >= 2 then Err(NoFeatureTable) else Ok(w)
  }

  /** `sc.apply_coronal_metathesis(w)`, likewise, as written: each pair is
      read from the word before the pass, so a swap is not seen by the next
      pair (see `ApplyCoronalMetathesis`). */
  function Metathesize(features: Option<seq<Phone>>, w: seq<string>): (r: Result<seq<string>>)
    ensures r.Err? <==> features.None? && |w| >= 2
    ensures r.Err? ==> r.error == NoFeatureTable
    ensures r.Ok? ==> |r.value| == |w|
    ensures r.Ok? && features.Some? ==> r.value == ApplyCoronalMetathesis(features.value, w)
  {
    match features
    case Some(t) => Ok(ApplyCoronalMetathesis(t, w))
    case None => if |w| >= 2 then Err(NoFeatureTable) else Ok(w)
  }

  /** `apply_filters(word)`: the sound changes, then the filters in order; a
      rejection is reported as the sentinel word itself. */
  function ApplyFilters(ss: SoundSystem, word: string): (r: Result<string>)
    ensures r.Err? <==> SoundChanges(ss, word).Err?
    ensures r.Ok? && r.value != REJECT ==>
      RunFilters(ss.filters, SoundChanges(ss, word).value) == Accepted(r.value)
    ensures r.Ok? && ss.filters != [] ==> (r.value == REJECT <==>
      RunFilters(ss.filters, SoundChanges(ss, word).value) == Rejected)
    ensures ss.filters == [] ==> r == SoundChanges(ss, word)
    // a word that passes has been through every filter's substitution
    ensures r.Ok? && r.value != REJECT ==> r.value == Substituted(ss.filters, SoundChanges(ss, word).value)
  {
    var w :- SoundChanges(ss, word);
    match RunFilters(ss.filters, w)
    case Rejected => Ok(REJECT)
    case Accepted(v) =>
      assert ss.filters != [] ==> !Contains(v, REJECT);
      assert ss.filters != [] ==> v != REJECT by {
        if v == REJECT {
          assert StartsWith(v, REJECT);
        }
      }
      Ok(v)
  }

  /** With no sort order, or with both sound changes off, only the filters
      touch a word without newlines. */
  lemma FiltersOnly(ss: SoundSystem, word: string)
    requires ss.sorter.None? || (!ss.useAssim && !ss.useCoronalMetathesis)
    requires '\n' !in word
    ensures SoundChanges(ss, word) == Ok(word)
    ensures ss.filters == [] ==> ApplyFilters(ss, word) == Ok(word)
  {
  }

  /* ---------------------------------------------------------------- */
  /* Rule expansion: `run_rule`                                        */
  /* ---------------------------------------------------------------- */

  /** The random draws not yet consumed: results of `randint(0, 100)` and of
      `random.random()`. */
  datatype Draws = Draws(percents: seq<int>, units: seq<real>)

  /** `d'` is what remains of `d` after some draws. */
  predicate Within(d': Draws, d: Draws) {
    |d'.percents| <= |d.percents| && |d'.units| <= |d.units|
  }

  /** An entry of the list `run_rule` builds: a symbol, or None where a
      class selection fell off the end of its weights. */
  type Piece = Option<string>

  /** The modifiers `?` and `!`, which are never emitted themselves. */
  predicate IsControl(c: char) {
    c == '?' || c == '!'
  }

  /** The symbol at `i` is optional: the next character is `?`. */
  predicate OptionalAt(rule: string, i: nat)
    requires i < |rule|
  {
    i < |rule| - 1 && rule[i + 1] == '?'
  }

  /** The symbol at `i` must not repeat: it is not the first and the next
      character is `!`. */
  predicate BangAt(rule: string, i: nat)
    requires i < |rule|
  {
    0 < i < |rule| - 1 && rule[i + 1] == '!'
  }

  /** The symbol a `!` position must repeat: the one before it, or the one
      before that when the one before is `?`. */
  function PrevSymbol(rule: string, i: nat): char
    requires 0 < i < |rule|
  {
    if rule[i - 1] == '?' && i >= 2 then rule[i - 2] else rule[i - 1]
  }

  /** A `!` position that raises RuleError: its symbol is not the previous
      symbol, or it is not a class. */
  predicate MisplacedBang(ss: SoundSystem, rule: string, i: nat)
    requires i < |rule|
  {
    !IsControl(rule[i]) && BangAt(rule, i) &&
    (rule[i] != PrevSymbol(rule, i) || [rule[i]] !in Keys(ss.phonemeset))
  }

  /** `p` is what the symbol `c` can produce: the character itself, or a
      member of class `c`. */
  ghost predicate FromSymbol(ss: SoundSystem, c: char, p: string)
    requires Consistent(ss)
  {
    p == [c] || (Class(ss, c).Some? && p in Class(ss, c).value.keys)
  }

  /** `p` is the piece the first unit draw of `d` gives symbol `c`: a
      selection from class `c`, or the literal character. */
  ghost predicate Drawn(ss: SoundSystem, c: char, d: Draws, p: Piece)
    requires Consistent(ss)
  {
    match Class(ss, c)
    case None => p == Some([c])
    case Some(sel) => d.units != [] && p == Select(sel, d.units[0])
  }

  /** A selection returns one of the selector's keys. */
  lemma SelectIsKey(sel: Selector<string>, u: real)
    requires Distribution.Valid(sel)
    ensures Select(sel, u).Some? ==> Select(sel, u).value in sel.keys
  {
  }

  /** One symbol emitted: a class selection, which reads one unit draw, or
      the literal character. */
  function Emit(ss: SoundSystem, c: char, d: Draws): (r: Result<(Piece, Draws)>)
    requires Consistent(ss)
    ensures r.Err? <==> Class(ss, c).Some? && d.units == []
    ensures r.Err? ==> r.error == OutOfDraws
    ensures r.Ok? ==> Drawn(ss, c, d, r.value.0) && Within(r.value.1, d)
    ensures r.Ok? && r.value.0.Some? ==> FromSymbol(ss, c, r.value.0.value)
  {
    match Class(ss, c)
    case None => Ok((Some([c]), d))
    case Some(sel) =>
      if d.units == [] then Err(OutOfDraws)
      else
        SelectIsKey(sel, d.units[0]);
        Ok((Select(sel, d.units[0]), d.(units := d.units[1..])))
  }

  /** The `!` loop: select, and select again while the result equals
      `last`. It fails only when every draw repeats `last`. */
  function Redraw(sel: Selector<string>, last: Piece, units: seq<real>): (r: Result<(Piece, seq<real>)>)
    requires Distribution.Valid(sel)
    ensures r.Err? <==> forall j :: 0 <= j < |units| ==> Select(sel, units[j]) == last
    ensures r.Err? ==> r.error == OutOfDraws
    ensures r.Ok? ==> r.value.0 != last && |r.value.1| < |units|
    decreases |units|
  {
    if units == [] then Err(OutOfDraws)
    else
      var x := Select(sel, units[0]);
      if x != last then Ok((x, units[1..]))
      else
        assert forall j :: 1 <= j < |units| ==> units[1..][j - 1] == units[j];
        Redraw(sel, last, units[1..])
  }

  /** The redrawn symbol is the first selection that differs from `last`,
      and the draws after it are left. */
  lemma {:induction false} RedrawFirstDiffering(sel: Selector<string>, last: Piece, units: seq<real>)
    requires Distribution.Valid(sel) && Redraw(sel, last, units).Ok?
    ensures var (p, rest) := Redraw(sel, last, units).value;
      var k := |units| - |rest| - 1;
      p == Select(sel, units[k]) && rest == units[k + 1..] &&
      forall j :: 0 <= j < k ==> Select(sel, units[j]) == last
    decreases |units|
  {
    var tail := units[1..];
    if Select(sel, units[0]) == last {
      assert Redraw(sel, last, units) == Redraw(sel, last, tail);
      RedrawFirstDiffering(sel, last, tail);
      var rest := Redraw(sel, last, tail).value.1;
      ShiftIndex(units, |rest|);
      AllButFirst(sel, last, units, |tail| - |rest|);
    } else {
      assert Redraw(sel, last, units) == Ok((Select(sel, units[0]), tail));
    }
  }

  /** Positions in `units[1..]` are one less than in `units`. */
  lemma ShiftIndex<T>(units: seq<T>, n: nat)
    requires n < |units| - 1
    ensures var kt := |units| - 1 - n - 1;
      |units| - n - 1 == kt + 1 && units[1..][kt] == units[kt + 1] && units[1..][kt + 1..] == units[kt + 2..]
  {
  }

  /** The draws before `k` repeat `last` when the first does and those of
      the tail before `k - 1` do. */
  lemma AllButFirst(sel: Selector<string>, last: Piece, units: seq<real>, k: nat)
    requires Distribution.Valid(sel) && 1 <= k <= |units| && Select(sel, units[0]) == last
    requires forall j :: 0 <= j < k - 1 ==> Select(sel, units[1..][j]) == last
    ensures forall j :: 0 <= j < k ==> Select(sel, units[j]) == last
  {
    forall j | 0 <= j < k
      ensures Select(sel, units[j]) == last
    {
      if j > 0 {
        assert units[1..][j - 1] == units[j];
      }
    }
  }

  /** Position `i` of `run_rule`'s loop, appending to `s`. */
  function Step(ss: SoundSystem, rule: string, i: nat, s: seq<Piece>, d: Draws)
    : (r: Result<(seq<Piece>, Draws)>)
    requires Consistent(ss) && i < |rule|
    ensures r.Ok? ==> Within(r.value.1, d)
    ensures r.Ok? ==> |s| <= |r.value.0| <= |s| + 1 && r.value.0[..|s|] == s
    ensures r.Ok? && |r.value.0| == |s| + 1 && r.value.0[|s|].Some? ==>
      FromSymbol(ss, rule[i], r.value.0[|s|].value)
    ensures (r.Err? && r.error.RuleError?) <==> MisplacedBang(ss, rule, i)
    // `?` and `!` emit nothing
    ensures IsControl(rule[i]) ==> r == Ok((s, d))
    // an optional symbol reads a percent draw and is emitted iff it is below the rate
    ensures !IsControl(rule[i]) && OptionalAt(rule, i) ==>
      if d.percents == [] then r == Err(OutOfDraws)
      else if d.percents[0] < ss.randpercent then
        r.Ok? ==> |r.value.0| == |s| + 1 && Drawn(ss, rule[i], d, r.value.0[|s|])
      else r == Ok((s, d.(percents := d.percents[1..])))
    // an anti-repeat symbol differs from the piece before it
    ensures !IsControl(rule[i]) && BangAt(rule, i) && r.Ok? ==>
      s != [] && |r.value.0| == |s| + 1 && r.value.0[|s|] != s[|s| - 1] &&
      Class(ss, rule[i]).Some?
    // any other symbol emits exactly one piece
    ensures !IsControl(rule[i]) && !OptionalAt(rule, i) && !BangAt(rule, i) ==>
      (r.Err? <==> Class(ss, rule[i]).Some? && d.units == []) &&
      (r.Ok? ==> |r.value.0| == |s| + 1 && Drawn(ss, rule[i], d, r.value.0[|s|]))
  {
    var c := rule[i];
    if IsControl(c) then Ok((s, d))
    else if OptionalAt(rule, i) then
      if d.percents == [] then Err(OutOfDraws)
      else
        var d1 := d.(percents := d.percents[1..]);
        if d.percents[0] < ss.randpercent then
          var e :- Emit(ss, c, d1);
          Ok((s + [e.0], e.1))
        else Ok((s, d1))
    else if BangAt(rule, i) then
      if c != PrevSymbol(rule, i) then
        Err(RuleError("Misplaced '!' option: in non-duplicate environment: " + rule))
      else
        match Class(ss, c)
        case None => Err(RuleError("Use of '!' here makes no sense: " + rule))
        case Some(sel) =>
          if d.units == [] then Err(OutOfDraws)
          else if s == [] then Err(IndexError("list index out of range"))
          else
            var e :- Redraw(sel, s[|s| - 1], d.units);
            RedrawFirstDiffering(sel, s[|s| - 1], d.units);
            SelectIsKey(sel, d.units[|d.units| - |e.1| - 1]);
            Ok((s + [e.0], d.(units := e.1)))
    else
      var e :- Emit(ss, c, d);
      Ok((s + [e.0], e.1))
  }

  /** The number of symbols (characters other than `?` and `!`) in
      `rule[i..]`. */
  function Symbols(rule: string, i: nat): nat
    requires i <= |rule|
    decreases |rule| - i
  {
    if i == |rule| then 0 else (if IsControl(rule[i]) then 0 else 1) + Symbols(rule, i + 1)
  }

  /** No symbol of `rule[i..]` is optional. */
  predicate NoOptional(rule: string, i: nat) {
    forall j :: i < j < |rule| ==> rule[j] != '?'
  }

  /** `p` is a character of the rule or a member of some class. */
  ghost predicate InRule(ss: SoundSystem, rule: string, p: string) {
    (|p| == 1 && p[0] in rule) || exists k :: 0 <= k < |ss.phonemeset| && p in ss.phonemeset[k].1.keys
  }

  lemma FromSymbolInRule(ss: SoundSystem, rule: string, i: nat, p: string)
    requires Consistent(ss) && i < |rule| && FromSymbol(ss, rule[i], p)
    ensures InRule(ss, rule, p)
  {
    if p != [rule[i]] {
      var sel := Class(ss, rule[i]).value;
      var k :| 0 <= k < |ss.phonemeset| && ss.phonemeset[k] == ([rule[i]], sel);
    }
  }

  /** `run_rule`'s loop from position `i` on, with `s` built so far. Pieces
      are only appended, at most one per symbol and exactly one per symbol
      when none is optional; a RuleError is raised only at a misplaced `!`,
      and every misplaced `!` prevents success. */
  function RunFrom(ss: SoundSystem, rule: string, i: nat, s: seq<Piece>, d: Draws)
    : (r: Result<(seq<Piece>, Draws)>)
    requires Consistent(ss) && i <= |rule|
    ensures r.Ok? ==> Within(r.value.1, d)
    ensures r.Ok? ==> |s| <= |r.value.0| <= |s| + Symbols(rule, i) && r.value.0[..|s|] == s
    ensures r.Ok? && NoOptional(rule, i) ==> |r.value.0| == |s| + Symbols(rule, i)
    ensures r.Ok? ==> forall j :: i <= j < |rule| ==> !MisplacedBang(ss, rule, j)
    ensures r.Err? && r.error.RuleError? ==> exists j :: i <= j < |rule| && MisplacedBang(ss, rule, j)
    decreases |rule| - i
  {
    if i == |rule| then Ok((s, d))
    else
      var e :- Step(ss, rule, i, s, d);
      var r := RunFrom(ss, rule, i + 1, e.0, e.1);
      if r.Ok? then
        assert r.value.0[..|s|] == s by {
          assert r.value.0[..|e.0|][..|s|] == e.0[..|s|];
        }
        r
      else r
  }

  /** Every piece the loop appends is a character of the rule or a class
      member. */
  lemma {:induction false} RunFromInRule(ss: SoundSystem, rule: string, i: nat, s: seq<Piece>, d: Draws)
    requires Consistent(ss) && i <= |rule| && RunFrom(ss, rule, i, s, d).Ok?
    ensures var out := RunFrom(ss, rule, i, s, d).value.0;
      forall k :: |s| <= k < |out| && out[k].Some? ==> InRule(ss, rule, out[k].value)
    decreases |rule| - i
  {
    if i < |rule| {
      var e := Step(ss, rule, i, s, d).value;
      var out := RunFrom(ss, rule, i + 1, e.0, e.1).value.0;
      assert RunFrom(ss, rule, i, s, d).value.0 == out;
      RunFromInRule(ss, rule, i + 1, e.0, e.1);
      forall k | |s| <= k < |out| && out[k].Some?
        ensures InRule(ss, rule, out[k].value)
      {
        if k < |e.0| {
          assert k == |s| && out[k] == out[..|e.0|][k] == e.0[k];
          FromSymbolInRule(ss, rule, i, e.0[k].value);
        }
      }
    }
  }

  /** `run_rule`'s loop over positions `i` up to (not including) `j`. */
  function RunBetween(ss: SoundSystem, rule: string, i: nat, j: nat, s: seq<Piece>, d: Draws)
    : (r: Result<(seq<Piece>, Draws)>)
    requires Consistent(ss) && i <= j <= |rule|
    ensures r.Ok? ==> Within(r.value.1, d)
    decreases j - i
  {
    if i == j then Ok((s, d))
    else
      match Step(ss, rule, i, s, d)
      case Err(e) => Err(e)
      case Ok(e) => RunBetween(ss, rule, i + 1, j, e.0, e.1)
  }

  /** Running the loop up to the end of the rule is `RunFrom`. */
  lemma {:induction false} RunBetweenToEnd(ss: SoundSystem, rule: string, i: nat, s: seq<Piece>, d: Draws)
    requires Consistent(ss) && i <= |rule|
    ensures RunBetween(ss, rule, i, |rule|, s, d) == RunFrom(ss, rule, i, s, d)
    decreases |rule| - i
  {
    if i < |rule| {
      match Step(ss, rule, i, s, d)
      case Err(_) =>
      case Ok(e) => RunBetweenToEnd(ss, rule, i + 1, e.0, e.1);
    }
  }

  /** A RuleError is raised exactly when the rule has a misplaced `!` and the
      loop gets as far as the first one: no other error (a draw running out,
      or a `!` with nothing before it to compare) happens first. */
  lemma {:induction false} RuleErrorAtFirstBang(ss: SoundSystem, rule: string, i: nat, j: nat,
                                                s: seq<Piece>, d: Draws)
    requires Consistent(ss) && i <= j < |rule|
    requires MisplacedBang(ss, rule, j)
    requires forall k :: i <= k < j ==> !MisplacedBang(ss, rule, k)
    ensures RunFrom(ss, rule, i, s, d).Err?
    ensures RunFrom(ss, rule, i, s, d).error.RuleError? <==> RunBetween(ss, rule, i, j, s, d).Ok?
    decreases j - i
  {
    if i < j {
      match Step(ss, rule, i, s, d)
      case Err(_) =>
      case Ok(e) => RuleErrorAtFirstBang(ss, rule, i + 1, j, e.0, e.1);
    }
  }

  /** All pieces are symbols. */
  predicate AllSelected(ps: seq<Piece>) {
    forall k :: 0 <= k < |ps| ==> ps[k].Some?
  }

  /** The symbols of pieces that are all symbols. */
  function Selected(ps: seq<Piece>): (r: seq<string>)
    requires AllSelected(ps)
    ensures |r| == |ps| && forall k :: 0 <= k < |ps| ==> ps[k] == Some(r[k])
  {
    seq(|ps|, k requires 0 <= k < |ps| => ps[k].value)
  }

  /** The pieces `run_rule` builds for `rule`. */
  function Expand(ss: SoundSystem, rule: string, d: Draws): Result<(seq<Piece>, Draws)>
    requires Consistent(ss)
  {
    RunFrom(ss, rule, 0, [], d)
  }

  /** `run_rule(rule)`: the pieces joined; joining a None (a selection that
      fell off the end) is an error. A RuleError is raised iff the rule
      has a misplaced `!`, unless another error comes first. */
  function RunRule(ss: SoundSystem, rule: string, d: Draws): (r: Result<(string, Draws)>)
    requires Consistent(ss)
    ensures r.Ok? <==> Expand(ss, rule, d).Ok? && AllSelected(Expand(ss, rule, d).value.0)
    ensures r.Ok? ==> Within(r.value.1, d)
    ensures r.Ok? ==> forall j :: 0 <= j < |rule| ==> !MisplacedBang(ss, rule, j)
    ensures r.Err? && r.error.RuleError? ==> exists j :: 0 <= j < |rule| && MisplacedBang(ss, rule, j)
    // the word is the expanded pieces joined, and the draws left are the expansion's
    ensures r.Ok? ==> r.value.0 == Concat(Selected(Expand(ss, rule, d).value.0))
    ensures r.Ok? ==> r.value.1 == Expand(ss, rule, d).value.1
  {
    var e :- Expand(ss, rule, d);
    if AllSelected(e.0) then Ok((Concat(Selected(e.0)), e.1)) else Err(NothingSelected)
  }

  /** `run_rule` raises a RuleError exactly when the loop reaches the first
      misplaced `!` (at `j`) without an earlier error. */
  lemma RunRuleErrorIff(ss: SoundSystem, rule: string, j: nat, d: Draws)
    requires Consistent(ss) && j < |rule|
    requires MisplacedBang(ss, rule, j)
    requires forall k :: 0 <= k < j ==> !MisplacedBang(ss, rule, k)
    ensures RunRule(ss, rule, d).Err?
    ensures RunRule(ss, rule, d).error.RuleError? <==> RunBetween(ss, rule, 0, j, [], d).Ok?
  {
    RuleErrorAtFirstBang(ss, rule, 0, j, [], d);
  }

  /** The word `run_rule` returns joins at most one piece per symbol, each
      piece a character of the rule or a member of a class. */
  lemma RunRuleWord(ss: SoundSystem, rule: string, d: Draws)
    requires Consistent(ss) && RunRule(ss, rule, d).Ok?
    ensures exists ps: seq<string> ::
              |ps| <= Symbols(rule, 0) && (forall k :: 0 <= k < |ps| ==> InRule(ss, rule, ps[k])) &&
              RunRule(ss, rule, d).value.0 == Concat(ps)
  {
    var ps := Selected(Expand(ss, rule, d).value.0);
    RunFromInRule(ss, rule, 0, [], d);
    assert forall k :: 0 <= k < |ps| ==> InRule(ss, rule, ps[k]);
  }

  /** Every class member is a single character. */
  ghost predicate SingleCharClasses(ss: SoundSystem) {
    forall k, m :: 0 <= k < |ss.phonemeset| && 0 <= m < |ss.phonemeset[k].1.keys| ==>
      |ss.phonemeset[k].1.keys[m]| == 1
  }

  lemma {:induction false} ConcatSingles(ps: seq<string>)
    requires forall k :: 0 <= k < |ps| ==> |ps[k]| == 1
    ensures |Concat(ps)| == |ps|
  {
    if ps != [] {
      ConcatSingles(ps[1..]);
    }
  }

  /** A rule without `?` makes one piece per symbol; when every class
      member is one character, the word has as many characters as the
      rule has symbols. */
  lemma PlainRuleLength(ss: SoundSystem, rule: string, d: Draws)
    requires Consistent(ss) && NoOptional(rule, 0)
    requires RunRule(ss, rule, d).Ok?
    ensures |Expand(ss, rule, d).value.0| == Symbols(rule, 0)
    ensures SingleCharClasses(ss) ==> |RunRule(ss, rule, d).value.0| == Symbols(rule, 0)
  {
    var ps := Expand(ss, rule, d).value.0;
    RunFromInRule(ss, rule, 0, [], d);
    if SingleCharClasses(ss) {
      var sel := Selected(ps);
      forall k | 0 <= k < |sel|
        ensures |sel[k]| == 1
      {
        assert InRule(ss, rule, sel[k]);
      }
      ConcatSingles(sel);
    }
  }

  /** The anti-repeat form `CC!`: the second symbol never equals the
      first. */
  lemma AntiRepeat(ss: SoundSystem, c: char, d: Draws)
    requires Consistent(ss) && Class(ss, c).Some? && !IsControl(c)
    requires Expand(ss, [c, c, '!'], d).Ok?
    ensures |Expand(ss, [c, c, '!'], d).value.0| == 2
    ensures Expand(ss, [c, c, '!'], d).value.0[0] != Expand(ss, [c, c, '!'], d).value.0[1]
  {
    var rule := [c, c, '!'];
    assert !OptionalAt(rule, 0) && !BangAt(rule, 0);
    assert BangAt(rule, 1) && PrevSymbol(rule, 1) == c;
    var r0 := Step(ss, rule, 0, [], d);
    assert r0.Ok?;
    var e0 := r0.value;
    var r1 := Step(ss, rule, 1, e0.0, e0.1);
    assert RunFrom(ss, rule, 0, [], d).Ok? ==> RunFrom(ss, rule, 1, e0.0, e0.1).Ok?;
    assert r1.Ok?;
    var e1 := r1.value;
    assert RunFrom(ss, rule, 2, e1.0, e1.1) == Ok(e1);
    assert Expand(ss, rule, d) == Ok(e1);
  }

  /** A plain class symbol with a unit draw left appends that selection. */
  lemma PlainClassStep(ss: SoundSystem, rule: string, i: nat, s: seq<Piece>, d: Draws)
    requires Consistent(ss) && i < |rule| && !IsControl(rule[i])
    requires !OptionalAt(rule, i) && !BangAt(rule, i)
    requires Class(ss, rule[i]).Some? && d.units != []
    ensures Step(ss, rule, i, s, d) ==
      Ok((s + [Select(Class(ss, rule[i]).value, d.units[0])], d.(units := d.units[1..])))
  {
  }

  /** `C!C` is not the anti-repeat form: a `!` after the first symbol is
      ignored, so both symbols are plain selections, and the same unit
      draw twice gives the same symbol twice. */
  lemma LeadingBangIsPlain(ss: SoundSystem, c: char, u: real, rest: seq<real>, ps: seq<int>)
    requires Consistent(ss) && Class(ss, c).Some? && !IsControl(c)
    ensures Expand(ss, [c, '!', c], Draws(ps, [u, u] + rest)) ==
      Ok(([Select(Class(ss, c).value, u), Select(Class(ss, c).value, u)], Draws(ps, rest)))
  {
    var rule := [c, '!', c];
    var d := Draws(ps, [u, u] + rest);
    var d1 := Draws(ps, [u] + rest);
    var d2 := Draws(ps, rest);
    assert d.units[0] == u && d.(units := d.units[1..]) == d1;
    assert d1.units[0] == u && d1.(units := d1.units[1..]) == d2;
    var p := Select(Class(ss, c).value, u);
    PlainClassStep(ss, rule, 0, [], d);
    PlainClassStep(ss, rule, 2, [p], d1);
    assert [] + [p] == [p] && [p] + [p] == [p, p];
    assert RunFrom(ss, rule, 2, [p], d1) == Ok(([p, p], d2));
    assert RunFrom(ss, rule, 1, [p], d1) == Ok(([p, p], d2));
  }

  /** An optional symbol `C?` reads one percent draw and is emitted iff the
      draw is below the random rate. */
  lemma OptionalEmitsIff(ss: SoundSystem, c: char, x: int, ps: seq<int>, units: seq<real>)
    requires Consistent(ss) && !IsControl(c)
    requires Expand(ss, [c, '?'], Draws([x] + ps, units)).Ok?
    ensures |Expand(ss, [c, '?'], Draws([x] + ps, units)).value.0| == (if x < ss.randpercent then 1 else 0)
  {
    var rule := [c, '?'];
    var d := Draws([x] + ps, units);
    assert OptionalAt(rule, 0);
    assert d.percents[0] == x;
    var r0 := Step(ss, rule, 0, [], d);
    assert r0.Ok?;
    var e0 := r0.value;
    assert Step(ss, rule, 1, e0.0, e0.1) == Ok(e0);
    assert RunFrom(ss, rule, 2, e0.0, e0.1) == Ok(e0);
    assert RunFrom(ss, rule, 1, e0.0, e0.1) == Ok(e0);
    assert Expand(ss, rule, d) == Ok(e0);
  }

  /* ---------------------------------------------------------------- */
  /* Word generation: `generate`                                       */
  /* ---------------------------------------------------------------- */

  predicate Distinct<T(==)>(s: seq<T>) {
    forall i, j :: 0 <= i < j < |s| ==> s[i] != s[j]
  }

  lemma {:induction false} DistinctCounts<T>(s: seq<T>, x: T)
    requires Distinct(s)
    ensures multiset(s)[x] <= 1
  {
    if s != [] {
      assert s == [s[0]] + s[1..];
      assert Distinct(s[1..]) by {
        forall i, j | 0 <= i < j < |s[1..]|
          ensures s[1..][i] != s[1..][j]
        {
          assert s[1..][i] == s[i + 1] && s[1..][j] == s[j + 1];
        }
      }
      DistinctCounts(s[1..], x);
      if x == s[0] {
        assert x !in s[1..] by {
          forall k | 0 <= k < |s[1..]|
            ensures s[1..][k] != x
          {
            assert s[1..][k] == s[k + 1];
          }
        }
      }
    }
  }

  /** A permutation of a list without repeats has none either. */
  lemma DistinctPerm<T>(a: seq<T>, b: seq<T>)
    requires multiset(a) == multiset(b) && Distinct(a)
    ensures Distinct(b)
  {
    forall i, j | 0 <= i < j < |b|
      ensures b[i] != b[j]
    {
      if b[i] == b[j] {
        var x := b[i];
        assert b == b[..j] + [b[j]] + b[j + 1..];
        assert x in b[..j] by {
          assert b[..j][i] == x;
        }
        assert multiset(b)[x] >= 2 by {
          assert multiset(b) == multiset(b[..j]) + multiset{x} + multiset(b[j + 1..]);
        }
        DistinctCounts(a, x);
        assert false;
      }
    }
  }

  /** `w` is what `apply_filters` makes of one run of one of the rules. */
  ghost predicate Generated(ss: SoundSystem, w: string)
    requires Consistent(ss)
  {
    exists rule: string, d: Draws :: rule in Keys(ss.ruleset) && RunRule(ss, rule, d).Ok? &&
      ApplyFilters(ss, RunRule(ss, rule, d).value.0) == Ok(w)
  }

  /** What the loop of `generate(n)` collects: `n` (or none, for `n <= 0`)
      different generated words, none of them the sentinel. */
  ghost predicate Collected(ss: SoundSystem, n: int, ws: seq<string>)
    requires Consistent(ss)
  {
    |ws| == (if n > 0 then n else 0) && Distinct(ws) && REJECT !in ws &&
    forall w :: w in ws ==> Generated(ss, w)
  }

  /** A permutation of collected words is collected too. */
  lemma CollectedPerm(ss: SoundSystem, n: int, a: seq<string>, b: seq<string>)
    requires Consistent(ss) && Collected(ss, n, a) && multiset(a) == multiset(b)
    ensures Collected(ss, n, b)
  {
    DistinctPerm(a, b);
    assert |b| == |multiset(b)| == |multiset(a)| == |a|;
    forall w | w in b
      ensures w in a && w != REJECT
    {
      assert w in multiset(b);
    }
  }

  /** `generate(n, unsorted)`. Rules are selected by weight, run, filtered,
      and the words that are not rejected are collected until there are
      `n` different ones (a list in first-seen order stands for Python's
      set). Unless `unsorted`, they are then sorted: by the sort order when
      there is one, else by code points. Each rule selection reads a unit
      draw, so the loop ends when the draws do. */
  method Generate(ss: SoundSystem, n: int, unsorted: bool, draws: Draws) returns (r: Result<seq<string>>)
    requires Consistent(ss)
    ensures r.Ok? && (unsorted || ss.sorter.None?) ==> Collected(ss, n, r.value)
    ensures r.Ok? && !unsorted && ss.sorter.None? ==> SortedBy(r.value, Codes)
    ensures r.Ok? && !unsorted && ss.sorter.Some? ==>
      exists ws :: Collected(ss, n, ws) && ArbSort(ss.sorter.value, ws) == Ok(r.value)
  {
    var words: seq<string> := [];
    var d := draws;
    while |words| < n
      invariant |words| <= (if n > 0 then n else 0)
      invariant Distinct(words) && REJECT !in words
      invariant forall w :: w in words ==> Generated(ss, w)
      decreases |d.units|
    {
      if d.units == [] {
        return Err(OutOfDraws);
      }
      var rule := SelectFromDict(ss.ruleset, d.units[0]);
      d := d.(units := d.units[1..]);
      if rule.None? {
        return Err(NothingSelected);
      }
      var run := RunRule(ss, rule.value, d);
      if run.Err? {
        return Err(run.error);
      }
      var before := d;
      d := run.value.1;
      var filtered := ApplyFilters(ss, run.value.0);
      if filtered.Err? {
        return Err(filtered.error);
      }
      var word := filtered.value;
      if word != REJECT && word !in words {
        assert Generated(ss, word) by {
          assert rule.value in Keys(ss.ruleset) && RunRule(ss, rule.value, before).Ok? &&
            ApplyFilters(ss, RunRule(ss, rule.value, before).value.0) == Ok(word);
        }
        words := words + [word];
      }
    }
    assert Collected(ss, n, words);
    if unsorted {
      return Ok(words);
    }
    match ss.sorter {
      case None =>
        var sorted := SortBy(words, Codes);
        CollectedPerm(ss, n, words, sorted);
        return Ok(sorted);
      case Some(so) =>
        var sorted := ArbSort(so, words);
        if sorted.Err? {
          return Err(sorted.error);
        }
        return Ok(sorted.value);
    }
  }

  /** What the sort order makes of collected words without newlines: the
      same words, ordered by their rank lists. */
  lemma SortedCollected(ss: SoundSystem, n: int, ws: seq<string>, out: seq<string>)
    requires Consistent(ss) && ss.sorter.Some? && Collected(ss, n, ws)
    requires ArbSort(ss.sorter.value, ws) == Ok(out)
    requires forall w :: w in ws ==> '\n' !in w
    ensures Collected(ss, n, out)
    ensures SortedBy(out, (w: string) => RankKey(ss.sorter.value, w))
  {
    ArbSortCorrect(ss.sorter.value, ws);
    CollectedPerm(ss, n, ws, out);
  }
}
